=== FILE: README.md ===
# Bank onboarding agent — Dafny model

This project models the deterministic core of a bank onboarding application. The application is a Next.js front end with API routes over MongoDB, plus two Python MCP servers (bank accounts and loans). The model covers the following pieces.

- **Identity-document and field validators**:
  - the Python `AccountValidator`, which covers PAN, Aadhaar with the Verhoeff checksum, name, date of birth, balance and the aggregated report;
  - the stricter JavaScript validators.
- **Onboarding step machine**:
  - the status and step enumerations of the onboarding record;
  - the master agent's transitions;
  - the `/api/chat/send` route's upload steps;
  - the client-side account wizard.
- **Loan rules**:
  - the decision matrix;
  - the salary-verification guard;
  - the status lookup;
  - the guarded insert, lookup and update of the loan collection.
- **Bank-account creation**:
  - uniqueness checks and the filtered, windowed listing of the account collection;
  - the account-number format;
  - the MCP tool that validates, normalises and persists an account, looks accounts up by number or id, and checks documents.
- **Small helpers and routes**:
  - relative-time labels and the chat list of the sidebar;
  - chat-message posting with title derivation;
  - the random twelve-digit account number;
  - the account-creation route;
  - blob naming;
  - the two document-upload routes;
  - the create-account chat route with its action dispatch.

Databases are sequences (or, for the onboarding records keyed by user, maps) of immutable records. Each route or tool is a function from the store and the request to the new store and the reply. Several things are parameters:

- clocks and random draws;
- UUIDs and the ids a database assigns;
- date parsing (`strptime`, `new Date`);
- float formatting;
- the EMI formula;
- the language model's reply.

Regular expressions of the source are data (`Patterns.Pattern`), with a lemma per pattern stating which strings it matches. Case mapping is ASCII. Whitespace is the full set of Python's `str.isspace` or of JavaScript's `\s`, written out character by character.

The master agent imports `@/lib/validators`, which is not part of this model. Its semantics are taken from `bank/lib/validators.js`.

The create-account route imports `models/Account.js`, which does not exist in the repository. The account schema of `bank/models/Account.js` (unique `accountNumber`) is used instead.

The create-account chat route imports `@/models/CreateUserAccount`, but the schema file is `models/CreateuserAccount.js`. The model uses that schema.

The account wizard (app/Chat/CreateAccount/newChat/page.jsx) calls three endpoints that no route serves:

- it uploads the Aadhaar file to `/api/upload/aadhar` (line 135), while the route is `app/api/upload/aadhaar`;
- it posts the final submission to `/api/chats/${chatId}/complete` (line 156);
- it opens a chat at `/api/chats/createaccount` (line 202).

The chat routes live under `app/api/chat/`, and none of them ends in `/complete`. `Wizard.World` makes the upload URL and the submission outcome free parameters, so the model covers these calls failing as well as succeeding. With the routes as written, the Aadhaar step can only take the failed-upload branch (`Wizard.FileStepNeedsUpload`).

## Model

| member | source | states |
|---|---|---|
| AccountValidator.PanPatternMeaning | mcp/db/utils/validators.py:5 | The PAN pattern matches exactly five upper-case letters, four digits and one upper-case letter. |
| AccountValidator.AadharPatternMeaning | mcp/db/utils/validators.py:6 | The Aadhaar pattern matches exactly the strings of twelve ASCII digits. |
| AccountValidator.NamePatternMeaning | mcp/db/utils/validators.py:77 | The name pattern matches exactly the non-empty strings of letters, whitespace, `.` and `'`. |
| AccountValidator.StripUpperCommute | mcp/db/utils/validators.py:11 | Upper-casing and stripping commute, so the order in `pan.upper().strip()` does not matter. |
| AccountValidator.ValidatePan | mcp/db/utils/validators.py:8-11 | False for the empty string. Otherwise true exactly when the upper-cased, stripped input has the PAN shape. |
| AccountValidator.ValidatePanIgnoresCase | mcp/db/utils/validators.py:8-11 | Lower-casing the input never changes the PAN verdict, so lower-case PANs are accepted. |
| AccountValidator.RemoveSeparators | mcp/db/utils/validators.py:43 | The cleaned string holds no whitespace or hyphen and is no longer than the input. |
| AccountValidator.RemoveSeparatorsSingle | mcp/db/utils/validators.py:43 | One character is dropped exactly when it is whitespace or a hyphen. |
| AccountValidator.RemoveSeparatorsCounts | mcp/db/utils/validators.py:43 | Every character that is not a separator is kept as often as it occurs, and no separator is kept. |
| AccountValidator.RemoveSeparatorsIsSubsequence | mcp/db/utils/validators.py:43 | The kept characters stay in their original order. |
| AccountValidator.RemoveSeparatorsAppend | mcp/db/utils/validators.py:43 | Removing separators distributes over concatenation. |
| AccountValidator.ValidateAadhar | mcp/db/utils/validators.py:40-46 | True exactly when the input, with whitespace and hyphens removed, is twelve digits that pass the Verhoeff check. |
| AccountValidator.AadharIgnoresSeparators | mcp/db/utils/validators.py:40-46 | Inputs that differ only in whitespace and hyphens get the same verdict. |
| AccountValidator.InsertSeparatorKeepsVerdict | mcp/db/utils/validators.py:40-46 | Inserting a space or hyphen anywhere never changes the verdict. |
| AccountValidator.AadharDetectsSingleSubstitution | mcp/db/utils/validators.py:35-46 | Changing one digit of an accepted twelve-digit Aadhaar number gives a rejected one. |
| AccountValidator.RemoveSeparatorsLength | mcp/db/utils/validators.py:43 | Cleaning that removes nothing leaves the string unchanged. |
| AccountValidator.RemoveSeparatorsDigits | mcp/db/utils/validators.py:43 | A string of digits is left unchanged by cleaning. |
| AccountValidator.ValidateDateOfBirth | mcp/db/utils/validators.py:47-60 | Valid exactly when the date parses and the age is between 18 and 120 years of 365.25 days. Each failure gets its message: the format message for an unparsable date, the future-date message before any age check, then too young, then over 120. |
| AccountValidator.ValidateBalance | mcp/db/utils/validators.py:61-68 | Negative balances are rejected first, with their own message. Then the minimum is 1000 for savings, 5000 for current, 10000 for fixed deposit and 0 for any other type. The failure message names the type and the minimum. |
| AccountValidator.ValidateName | mcp/db/utils/validators.py:69-79 | On the stripped name: valid exactly when its length is 2 to 100 and every character is allowed. The message is the first failing check: required, too short, too long, then characters. |
| AccountValidator.Collect | mcp/db/utils/validators.py:80-99 | The error list holds an error for every failing check, only errors their checks account for, and errors in strictly increasing check order. |
| AccountValidator.Present | mcp/db/utils/validators.py:80-99 | The errors collected from the per-check slots are exactly those present in the slots. |
| AccountValidator.PresentSorted | mcp/db/utils/validators.py:80-99 | Slots filled in check order yield errors in strictly increasing check order. |
| AccountValidator.ValidateAccountData | mcp/db/utils/validators.py:80-99 | `valid` holds exactly when there are no errors. Errors come in the order name, date of birth, PAN, Aadhaar, account type, balance, and each failing check contributes its error. The account type is lower-cased before it is checked and before the minimum is looked up. |
| Verhoeff.ReversedDigits | mcp/db/utils/validators.py:35-36 | The i-th reversed digit is the value of the i-th character from the end. |
| Verhoeff.Check | mcp/db/utils/validators.py:12-39 | The loop `c := d[c][p[i % 8][digit]]` over the reversed digits accepts exactly when the fold ends at 0. |
| Verhoeff.TablesArePermutations | mcp/db/utils/validators.py:13-34 | Every row of `d`, every column of `d` and every row of `p` is a permutation of 0 to 9. |
| Verhoeff.ChecksumsDiverge | mcp/db/utils/validators.py:35-39 | Digit sequences that differ in one position have different running checks on every prefix that includes it. |
| Verhoeff.SingleSubstitutionDetected | mcp/db/utils/validators.py:35-39 | Changing exactly one digit of an accepted number yields a rejected number. |
| JsValidators.ValidateName | bank/lib/validators.js:1-5 | True exactly when the trimmed name is only letters and whitespace and is longer than two characters. |
| JsValidators.DobPatternMeaning | bank/lib/validators.js:9 | The date pattern matches exactly `DDDD-DD-DD` with ASCII digits. |
| JsValidators.ValidateDOB | bank/lib/validators.js:7-21 | True exactly when the string has the date shape, it parses, and the 18th birthday is on or before today. This is the year difference less one before the birthday, compared with 18. |
| JsValidators.ValidatePhone | bank/lib/validators.js:23-27 | True exactly when the string is ten ASCII digits starting with 6 to 9, with no trimming. |
| JsValidators.ValidateAddress | bank/lib/validators.js:29-32 | True exactly when the trimmed address is at least ten UTF-16 code units long, as JavaScript's `length` counts. Ten characters always suffice. |
| JsValidators.ValidateAadhaar | bank/lib/validators.js:34-38 | True exactly when the string is twelve ASCII digits: no separators, no checksum. |
| JsValidators.ValidatePAN | bank/lib/validators.js:40-44 | True exactly for the case-sensitive PAN shape, with no trimming. |
| JsValidators.JsPanAcceptedByPython | bank/lib/validators.js:40-44 | Every PAN the JavaScript check accepts, the Python check accepts too. |
| JsValidators.PythonPanNotAcceptedByJs | mcp/db/utils/validators.py:8-11 | The converse fails: a lower-case PAN with a leading space passes only the Python check. |
| JsValidators.AadhaarChecksAgreeOnDigits | bank/lib/validators.js:34-38 | On a plain twelve-digit string, the Python check is the JavaScript check plus the Verhoeff checksum. |
| JsValidators.PlainAadhaarValid | mcp/db/utils/validators.py:12-39 | A concrete twelve-digit number passes both the JavaScript shape check and the Verhoeff check. |
| JsValidators.GroupedAadhaarAcceptedOnlyByPython | bank/lib/validators.js:34-38 | The grouped form `dddd dddd dddd` of a valid number passes the Python check and fails the JavaScript one. |
| JsValidators.GroupedKeepsVerdict | mcp/db/utils/validators.py:40-46 | Grouping twelve digits in fours never changes the Python verdict. |
| Onboarding.ParseStatus | models/Onboarding.js:6-10 | A stored status string is accepted only if it is the name of a status. |
| Onboarding.StatusRoundTrip | models/Onboarding.js:6-10 | Every status survives its stored name, and exactly the six names are accepted. |
| Onboarding.ParseStep | models/Onboarding.js:11-15 | A stored step string is accepted only if it is the name of a step. |
| Onboarding.StepRoundTrip | models/Onboarding.js:11-15 | Every step survives its stored name, and exactly the eight names are accepted. |
| Onboarding.StepIndex | models/Onboarding.js:13 | Each step has a position below eight in the enumeration. |
| Onboarding.Fresh | models/Onboarding.js:3-30 | A new record has flow `account_creation`, status INIT, step `name` and empty data. |
| Onboarding.GetOrCreate | agents/master-agent.js:54-58 | A user's existing record is returned unchanged. A user without one gets a fresh record, which is also saved. |
| MasterAgent.NextStep | agents/master-agent.js:67-100 | Each typed step is followed by the next step of the enumeration. |
| MasterAgent.StoreSetsOnlyItsField | agents/master-agent.js:69-96 | Storing an answer sets its own field and leaves every other data field unchanged. |
| MasterAgent.DerivedStatus | agents/master-agent.js:107-112 | The status is KYC_PENDING at the aadhaar or pan step. At the final step it is unchanged. Otherwise it is PERSONAL_PENDING. |
| MasterAgent.Advance | agents/master-agent.js:62-122 | A valid answer at a typed step stores it and moves one step. An invalid answer changes neither step nor data. At a typed step the reply is that step's acceptance text when the answer is valid and its rejection text otherwise. Upload and later steps get an empty message. Only an accepted address requests an upload. `docType` is the new step exactly for an upload request. |
| MasterAgent.Process | agents/master-agent.js:54-122 | The user's record is loaded or created, advanced and saved. Every other user's record is unchanged. |
| MasterAgent.StepAdvancesAtMostOne | agents/master-agent.js:62-107 | No message moves the step forward by more than one position. |
| MasterAgent.ReplyShowsVerdict | agents/master-agent.js:64-104 | A reply to a typed detail opens with a check mark exactly when the answer was accepted, and with a warning sign exactly when it was rejected. |
| MasterAgent.AdvanceFitsStatus | agents/master-agent.js:107-112 | After any message the saved status fits the saved step. |
| MasterAgent.ValidAnswersReachAadhaar | agents/master-agent.js:67-104 | Four valid answers from a fresh record fill in the four details. The record ends at the aadhaar step with status KYC_PENDING and an upload request. |
| SendRoute.Post | app/api/chat/send/route.js:12-125 | The checks run in this order, and a failure changes nothing:<br>- 401 without a session;<br>- 500 for an unreadable body;<br>- 400 without message and flow.<br>After them:<br>- An Aadhaar upload stores the URL and moves to pan.<br>- A PAN upload saves nothing and answers with the verification error.<br>- Everything else goes to the master agent. |
| SendRoute.NeverPastPan | app/api/chat/send/route.js:50-111 | If no record is past the pan step, none is after any request either: verification and final are unreachable here. |
| SendRoute.PanUploadIsStuck | app/api/chat/send/route.js:50-101 | At the pan step, reporting an upload leaves the store unchanged and returns the verification error. |
| Wizard.GetForm | app/Chat/CreateAccount/newChat/page.jsx:35-37 | The stored form, or a form at index 0 with no answers. |
| Wizard.Finish | app/Chat/CreateAccount/newChat/page.jsx:146-192 | Without a chat id nothing happens. A successful submission clears the stored form and makes the page read-only. A failed one keeps the page as it was and reports the server error. |
| Wizard.SendMessage | app/Chat/CreateAccount/newChat/page.jsx:195-263 | A read-only page ignores the message. Otherwise the user's line comes first, and the handler throws exactly when the stored index is past the last step. A message that does not answer the current step leaves the page as it was. An answer is recorded and the index moves on. If steps remain, the reply ends with the next step's prompt. After the last step come "Processing" and the lines of the final submission, whose page is the result. |
| Wizard.FreshFormWellFormed | app/Chat/CreateAccount/newChat/page.jsx:17-37 | A fresh form starts at step 0 with no answers. |
| Wizard.SendMessageKeepsFormWellFormed | app/Chat/CreateAccount/newChat/page.jsx:244-251 | The stored form either stays as it was or gains the current step's answer with the index up by exactly one, keeping answers equal to the steps before the index. |
| Wizard.FileStepNeedsUpload | app/Chat/CreateAccount/newChat/page.jsx:221-243 | At a file step, a message without a file repeats the prompt, and a failed upload reports it. Neither touches the form. |
| Wizard.TextStepStoresRawMessage | app/Chat/CreateAccount/newChat/page.jsx:244-260 | A text step stores the message exactly as typed, with no validation, and moves to the next step. |
| Wizard.ReadonlyOnlyOnSubmit | app/Chat/CreateAccount/newChat/page.jsx:177-192 | The page becomes read-only exactly when the last step is answered and the final submission succeeds. |
| Wizard.FailedSubmitIsStuck | app/Chat/CreateAccount/newChat/page.jsx:186-260 | After a failed final submission, every later message hits the missing seventh step and throws. |
| LoanModel.FindById | mcp/db/models/loan.py:26 | The first loan with the id, or none when no loan has it. |
| LoanModel.CreateLoan | mcp/db/models/loan.py:22-52 | In order:<br>- a duplicate id is rejected;<br>- without an account number, both PAN and phone are required;<br>- without an account number, a PENDING loan for the PAN blocks the insert.<br>Success appends exactly one loan with `created_at` defaulted and `customer_type` EXISTING exactly when an account number is given. |
| LoanModel.CreateLoanKeepsIdsUnique | mcp/db/models/loan.py:26-50 | Inserting through `create_loan` keeps loan ids pairwise distinct. |
| LoanModel.GetLoanById | mcp/db/models/loan.py:54-56 | A stored loan with that id, or none exactly when no loan has it. |
| LoanModel.GetLoansByIdentifier | mcp/db/models/loan.py:66-82 | Exactly the loans whose PAN or phone equals the identifier. |
| LoanModel.ByIdentifierCounts | mcp/db/models/loan.py:66-82 | Each matching loan is returned as often as it is stored, and no other loan is returned. |
| LoanModel.ByIdentifierIsSubsequence | mcp/db/models/loan.py:66-82 | The result keeps collection order: it is a subsequence of the collection. |
| LoanModel.UpdateStatus | mcp/db/models/loan.py:84-95 | Only the first loan with the id changes. Its status and update time are set, and the extra fields are set when given. The result is true exactly when the document changed. |
| LoanServer.Decide | mcp/loan/fast_server.py:81-102 | Exactly one of three statuses:<br>- REJECTED exactly when the score is below 700 or the amount exceeds twice the limit;<br>- APPROVED exactly when the score is good and the amount is within both the limit and twice the limit;<br>- PENDING_SALARY_VERIFICATION otherwise. |
| LoanServer.GoodScoreWithinLimit | mcp/loan/fast_server.py:85-99 | With a good score and a non-negative limit, an amount within the limit is approved and one within twice the limit is not rejected. |
| LoanServer.NegativeLimitRejectsWithinLimit | mcp/loan/fast_server.py:88-95 | With a negative limit, an amount within the limit can still be rejected, because the twice-the-limit test comes first. |
| LoanServer.LoanId | mcp/loan/fast_server.py:75 | `LN-` followed by eight characters of the UUID. |
| LoanServer.ApplyForLoan | mcp/loan/fast_server.py:54-132 | Success comes exactly when the insert guards pass. The stored loan carries the decision, the identity and the amounts, and the reply returns its id, status and message. Failures change nothing. |
| LoanServer.VerifySalary | mcp/loan/fast_server.py:135-188 | A missing loan, or one not pending salary verification, gives an error and no change. Otherwise the status becomes APPROVED exactly when the EMI is at most half the salary, else REJECTED. It is recorded through `update_status`. |
| LoanServer.GetLoanStatus | mcp/loan/fast_server.py:191-213 | An `LN-` identifier that names a loan returns that loan. Otherwise the result is the loans matching the identifier by PAN or phone, and "no applications" exactly when there are none. |
| LoanServer.AppliedLoanFoundById | mcp/loan/fast_server.py:54-213 | A successful application is found by the loan id it returned, and only that loan is found. |
| LoanServer.ToolsKeepStatuses | mcp/loan/fast_server.py:81-188 | Applying and verifying only ever store the three decision statuses. |
| LoanServer.PendingGuardNeverFires | mcp/db/models/loan.py:36-41 | On a collection written by these tools, the duplicate-application guard (status exactly PENDING) never fires. |
| LoanServer.VerifyOnlyOnce | mcp/loan/fast_server.py:148-176 | Once verification succeeds, verifying the same loan again fails. |
| AccountUtils.Prefix | mcp/db/utils/account_utils.py:6-7 | The prefix is 50, 60, 70 or 80 for savings, current, salary or fixed deposit, matched after lower-casing, and 50 for anything else. |
| AccountUtils.GenerateAccountNumber | mcp/db/utils/account_utils.py:5-10 | Twelve digits: the type prefix, the millisecond time modulo 10^8 padded to eight digits, then the two-digit suffix. |
| AccountUtils.NumberDeterminesParts | mcp/db/utils/account_utils.py:5-10 | Equal numbers have equal prefix, time slot and suffix. |
| AccountModel.CreateAccount | mcp/db/models/account.py:18-29 | A duplicate number, then a duplicate PAN, then a duplicate Aadhaar is rejected with its message and inserts nothing. Success appends exactly the given account. |
| AccountModel.CreateAccountKeepsKeysUnique | mcp/db/models/account.py:18-29 | Inserting through `create_account` keeps numbers, PANs and Aadhaar numbers pairwise distinct. |
| AccountModel.GetAccountByNumber | mcp/db/models/account.py:30-32 | A stored account with that number, or none exactly when no account has it. |
| AccountModel.GetAccountById | mcp/db/models/account.py:33-35 | An id that is not 24 hex digits raises. Otherwise the result is the first account whose id equals it, ignoring case. |
| AccountModel.GetAccountByIdIgnoresCase | mcp/db/models/account.py:33-35 | Upper-casing the id changes neither whether the call raises nor the account it finds. |
| AccountModel.NotDeletedMembers | mcp/db/models/account.py:37 | The filtered list holds exactly the accounts whose status is not `deleted`. |
| AccountModel.Window | mcp/db/models/account.py:37 | Skip, then limit (0 meaning no limit). The window is a slice of the input of at most `limit` items. |
| AccountModel.GetAllAccounts | mcp/db/models/account.py:36-41 | A negative `skip` raises the driver's error. Otherwise the result is the window of non-deleted accounts after `skip` with the absolute value of `limit` as the limit. At most that many accounts are returned, each stored and not deleted. |
| AccountModel.ScanAccounts | mcp/db/models/account.py:37-41 | The loop returns the non-deleted accounts after `skip`, at most `limit` of them, in collection order. Every returned account is stored and not deleted. |
| AccountModel.ListingProperties | mcp/db/models/account.py:36-41 | Every listed account is a stored, non-deleted account. |
| BankServer.RenderAll | mcp/bank/fast_server.py:63-65 | The rendered error list has one line per error, in order. |
| BankServer.CreateAccount | mcp/bank/fast_server.py:36-86 | Invalid data returns the rendered errors and persists nothing. Valid data with a free number, PAN and Aadhaar persists one account and returns it. That account is the request's payload. Its number is the one generated from the type, the clock and the random suffix: twelve digits with the type prefix. It keeps the request's name, date of birth, type and image URLs, has `created_at` and `updated_at` set to the two clock readings taken for them, the PAN upper-cased but not stripped, status `active`, KYC false and the given balance. A clash raises the model's error and persists nothing. |
| BankServer.CreatedDocumentsValid | mcp/bank/fast_server.py:63-83 | The stored PAN and Aadhaar of a created account pass the document validators. |
| BankServer.UpperKeepsPanVerdict | mcp/bank/fast_server.py:73 | Upper-casing the PAN before storing it keeps its verdict. |
| BankServer.CreateKeepsKeysUnique | mcp/bank/fast_server.py:36-86 | Creating accounts through the tool keeps numbers, PANs and Aadhaar numbers pairwise distinct. |
| BankServer.SpacedValidatesAlike | mcp/bank/fast_server.py:63-65 | A request whose PAN and Aadhaar carry a leading space validates exactly like the original. |
| BankServer.LeadingSpaceOpensSecondAccount | mcp/bank/fast_server.py:68-83 | After an account is created, the same request with a space before PAN and Aadhaar also succeeds. The stored PAN and Aadhaar differ from the first account's but are the same document once stripped. |
| BankServer.GetAccount | mcp/bank/fast_server.py:89-101 | An account number is looked up first and an account id only without one. Neither gives "Provide account_number or account_id". A malformed id raises. A present number or id is found, and the account returned is the collection lookup's. A miss gives "Account not found" exactly when no account has that number or id. |
| BankServer.CreatedFoundByNumber | mcp/bank/fast_server.py:36-101 | An account just created is found by its number. |
| BankServer.ValidateDocuments | mcp/bank/fast_server.py:104-116 | The PAN verdict holds exactly when the upper-cased, stripped PAN has the PAN shape. The Aadhaar verdict holds exactly when the cleaned number is twelve digits passing the Verhoeff check. `both_valid` holds exactly when both hold. |
| BankServer.DocumentsAgreeWithAccountValidation | mcp/bank/fast_server.py:104-116 | `both_valid` holds exactly when account validation of the same PAN and Aadhaar reports neither a PAN nor an Aadhaar error. |
| Sidebar.RelativeTime | components/Sidebar.jsx:87-100 | "Recently" for a missing date, "Just now" under a minute (including dates in the future), and the locale date from seven days on. |
| Sidebar.MinutesAgo | components/Sidebar.jsx:92-96 | For every n from 1 to 59, exactly n minutes ago is labelled with n minutes. |
| Sidebar.HoursAgo | components/Sidebar.jsx:93-97 | For every n from 1 to 23, exactly n hours ago is labelled with n hours. |
| Sidebar.DaysAgo | components/Sidebar.jsx:94-99 | Exactly one day ago is "Yesterday". Two to six days ago give the count. |
| Sidebar.ChatKey | components/Sidebar.jsx:71 | The entry id is `_id` when present, else `id`, else `chatId`. |
| Sidebar.AccountEntries | components/Sidebar.jsx:70-76 | Entry i is titled "Create Account - Chat" with the number i+1, has status `completed` and type `account`, and takes its id from the chat's first present key. |
| Sidebar.History | components/Sidebar.jsx:70-80 | The general chats come first, unchanged, followed by the account-chat entries when the account chats were loaded. |
| Sidebar.AccountTitlesDistinct | components/Sidebar.jsx:70-76 | Different account chats get different titles. A chat without a creation time shows "Just now". |
| Sidebar.WithoutChat | components/Sidebar.jsx:109 | Exactly the entries whose id differs from the deleted one remain. |
| Sidebar.WithoutChatCounts | components/Sidebar.jsx:109 | Each entry of another chat is kept as often as it occurs, and no entry of the deleted chat is kept. |
| Sidebar.WithoutChatIsSubsequence | components/Sidebar.jsx:109 | Deleting preserves the order of the remaining entries. |
| Sidebar.DeleteChat | components/Sidebar.jsx:103-112 | Without confirmation, or when the request fails, nothing changes. Otherwise the entries with that id are removed and an active chat with that id is cleared. |
| Sidebar.DeleteKeepsOrder | components/Sidebar.jsx:103-112 | The history after deleting is a subsequence of the history before. |
| ChatMessage.TitleOf | app/api/chat/message/route.js:42-44 | A message of at most 50 UTF-16 code units is its own title. A longer one is cut to the longest prefix of at most 50 code units, followed by "...". The prefix is one unit short only when the next character is a surrogate pair. |
| ChatMessage.TitleOfBmp | app/api/chat/message/route.js:42-44 | Without characters outside the Basic Multilingual Plane, the title is the first 50 characters, followed by "..." exactly when the message is longer. |
| ChatMessage.FindOwned | app/api/chat/message/route.js:25-32 | A chat with that id owned by that user, or none exactly when the user owns no such chat. |
| ChatMessage.Post | app/api/chat/message/route.js:9-62 | Failures leave the chats unchanged:<br>- 401 without a session;<br>- 500 for an unreadable body;<br>- 400 when a field is missing;<br>- 404 for a chat the user does not own;<br>- 500 for a role other than `user` or `bot`, which the message schema refuses (models/Chat.js:4-8).<br>Otherwise the message is appended with the first clock reading as its timestamp, earlier messages unchanged. The last-message time is the second reading, and no other chat changes. |
| ChatMessage.TitleOnlyFromFirstUserMessage | app/api/chat/message/route.js:42-44 | The title becomes the derived title exactly when the chat had no messages and the role is user. Otherwise it is kept. |
| WorkerMcp.RandomPart | agents/worker-mcp.js:63 | `floor(random * 10^12)` is below 10^12 and within one of the exact product. |
| WorkerMcp.RandomAccountNumber | agents/worker-mcp.js:61-67 | Always twelve decimal digits whose value is the random part, so it is zero-padded. |
| WorkerMcp.EveryNumberReachable | agents/worker-mcp.js:61-67 | Every twelve-digit number is produced by some draw. |
| WorkerMcp.SameNumberSameSlot | agents/worker-mcp.js:61-67 | Two draws give the same number exactly when their random parts agree. |
| WorkerMcp.ProcessWorkerMcp | agents/worker-mcp.js:27-59 | A reply that parses is returned as is. Otherwise the result is status CREATED with the pre-generated twelve-digit number and the current time. |
| WorkerMcp.MockCreateAccount | agents/worker-mcp.js:69-76 | Status CREATED, the given user id, the current time and a twelve-digit number. |
| McpCreateAccount.MarkCreated | app/api/mcp/create-account/route.js:30-38 | The user's onboarding record, if any, gets status MCP_CREATED, step final and the account number. No record is created and no other changes. |
| McpCreateAccount.Post | app/api/mcp/create-account/route.js:10-53 | 400 when user, personal data or KYC data is missing. 500 for an unreadable body or a number already in use. Success appends one KYC-verified account with a twelve-digit number, marks the onboarding record and confirms with status CREATED, that number and the current time. Failures change nothing. |
| McpCreateAccount.NumberAgreesEverywhere | app/api/mcp/create-account/route.js:22-45 | The stored account, the onboarding record and the reply carry the same number, and no earlier account has it. |
| Azure.Extension | components/azure.js:95 | The extension is the dot-free tail of the name after its last dot, or the whole name when it has no dot. |
| Azure.ExtensionOfDotted | components/azure.js:95-99 | A name built as base, dot, dot-free extension yields that extension back. |
| Azure.BaseName | components/azure.js:94-98 | The base starts with `prefix-userId-`, followed by the timestamp in decimal and a hyphen, and ends with the first eight characters of the UUID. |
| Azure.UniqueFileName | components/azure.js:94-99 | The unique name starts with `prefix-userId-`. |
| Azure.UniqueFileNameHoldsTimestamp | components/azure.js:94-99 | After `prefix-userId-` stand the decimal digits of the timestamp and then a hyphen, so the upload time can be read back from the name. |
| Azure.UniqueFileNameKeepsExtension | components/azure.js:94-99 | The unique name has the original name's extension. |
| Azure.UniqueFileNameHoldsUuid | components/azure.js:97-99 | The first eight characters of the UUID stand just before the extension's dot. |
| Azure.UploadDocument | components/azure.js:135-140 | The container is `{documentType}-uploads`, and the blob name starts with the document type and the user. |
| Upload.Upsert | app/api/upload/aadhaar/route.js:35 | Only the user's record changes. An existing record is updated; otherwise a record with the schema defaults is updated and added. |
| Upload.PostAadhaar | app/api/upload/aadhaar/route.js:11-46 | 401 without a session, 500 "Upload failed" for an unreadable form and 400 without a file. A type outside PDF and XML gets the 400 type error, and failures change nothing. On success the file name is `aadhaar-{uid}-{ts}` with extension `pdf` exactly for application/pdf, else `xml`. The URL is `/uploads/aadhaar/` plus the file name, and it is stored as the user's Aadhaar URL. |
| Upload.PostPan | app/api/upload/pan/route.js:10-44 | 401 without a session, 500 "Upload failed" for an unreadable form and 400 without a file. Only PDF is accepted, other types get the 400 type error, and failures change nothing. On success the file name is `pan-{uid}-{ts}.pdf`, the URL is `/uploads/pan/` plus the name, and it is stored as the user's PAN URL. |
| Upload.UploadKeepsRestOfRecord | app/api/upload/aadhaar/route.js:31-35 | An upload changes only the user's document URL: status, step and the other data stay, or are the schema defaults for a new user. |
| Upload.PanTypesWithinAadhaarTypes | app/api/upload/pan/route.js:24-26 | A PDF is accepted by both routes. An XML file is accepted only by the Aadhaar route. |
| CreateaccountChat.ChooseAction | app/api/chat/createaccount/route.js:24-114 | The action is the first flag set in the order getchat, newchat, saveMessage, createNewAccount, and none when no flag is set. |
| CreateaccountChat.LowerFlagsIgnored | app/api/chat/createaccount/route.js:24-114 | Once a higher-priority flag is set, the lower flags do not change the action. |
| CreateaccountChat.FindChat | app/api/chat/createaccount/route.js:30 | The first chat with that id, or none exactly when no chat has it. |
| CreateaccountChat.MessagesOf | app/api/chat/createaccount/route.js:35 | Exactly the messages of that chat. |
| CreateaccountChat.MessagesOfIsSubsequence | app/api/chat/createaccount/route.js:35 | The chat's messages come back in the order they were saved. |
| CreateaccountChat.MessagesOfCounts | app/api/chat/createaccount/route.js:35 | Each message of the chat is listed as often as it was saved, and no message of another chat is listed. |
| CreateaccountChat.CloseChat | app/api/chat/createaccount/route.js:104 | The chat with that id, if any, is closed. Ids, owners and every other chat are unchanged. |
| CreateaccountChat.Post | app/api/chat/createaccount/route.js:14-115 | By action:<br>- none gives 400;<br>- getchat returns the chat and its messages exactly when the chat exists, and 404 otherwise;<br>- newchat adds an open chat for the user and returns its id;<br>- saveMessage appends `{chatId, sender: role, message: content}`;<br>- createNewAccount appends the account with the chat id as its number, closes the chat and returns the number.<br>A document that fails its schema gives 500, and failures change nothing. |
| CreateaccountChat.OpenedChatFound | app/api/chat/createaccount/route.js:24-61 | A chat just opened under a fresh id is found by that id, open, owned by the requester and without messages. |
| CreateaccountChat.AccountClosesChat | app/api/chat/createaccount/route.js:24-106 | After the account is saved, getchat reports its chat closed. |
| CreateaccountChat.ChatIdsOf | app/api/chat/createaccount/route.js:130-137 | An id is listed exactly when some chat with that id belongs to the user. |
| CreateaccountChat.Get | app/api/chat/createaccount/route.js:119-145 | Without a chat id, one entry per chat of the user, and an id is listed exactly when the user owns a chat with it. With a chat id, that chat's messages. |

## Left out

- Network, database drivers, Azure SDK calls, NextAuth and bcrypt: stores are in-memory collections, and the session user is an optional parameter.
- React rendering, scrolling and local storage: the wizard's page state is an explicit record.
- Language-model calls, including the worker's prompt and the KYC worker: their reply and parser are parameters.
- ChatMessage.TitleOf: when the 50th UTF-16 code unit is the first half of a surrogate pair, JavaScript keeps that lone half in the title. The model stops before the whole character, because a Dafny string cannot hold a lone surrogate.
- Unicode case mapping and Unicode letters: case mapping and `[a-zA-Z]` are ASCII. Python's `str.isspace` and JavaScript's `\s` are the listed character sets.
- Python date parsing (`strptime`) and JavaScript `new Date` are parameters. Dates are day numbers (Python) or year-month-day triples (JavaScript).
- `toLocaleDateString` is an abstract parameter, and so is Python's rendering of floats in messages.
- The EMI formula `_calculate_emi` uses floating-point `pow` and `round`, so it is an abstract function.
- Amounts and balances are exact reals. Floating-point rounding, including in `Math.random() * 10^12`, is not modelled.
- `get_loans_by_account` in mcp/db/models/loan.py is not part of this model; no core operation uses it.
- Ids a database assigns (`_id`, `inserted_id`) are parameters, so ObjectId generation and casting are not modelled. A malformed chat id in the message and create-account chat routes behaves as a missing chat.
- The single-batch cap of a negative `limit` in `get_all_accounts` is not modelled: the batch is taken to hold all requested documents, with no 16 MiB reply limit.
- A request body that is not JSON in the create-account chat route throws outside its `try` (line 16). It is not modelled: the body is always a parsed record.
- Mongoose's exact validation error texts are not modelled. A document that fails its schema is reported with one fixed message and code 500.
- AccountModel.NotDeleted: its own contract states only the length bound; membership is stated by NotDeletedMembers.
- AccountModel.GetAccountByIdIgnoresCase: the error text embeds the id as given, so only the raise/not-raise outcome and the found account are stated, not equal error texts.
- Concurrency between requests: every operation is atomic.

=== FILE: account_model.dfy ===
/**
 * The accounts collection: insertion guarded by unique account number, PAN and
 * Aadhaar (checked in that order), lookup by number and by ObjectId, and the
 * paged listing of accounts that are not deleted.  The collection is a sequence
 * of documents in insertion order.
 */
module AccountModel {
  import opened Options
  import opened Text

  datatype Account = Account(
    id: string,  // the ObjectId as 24 lower-case hex digits
    accountNumber: string,
    name: string,
    image: string,
    dob: string,
    pan: string,
    aadhar: string,
    panImage: string,
    aadharImage: string,
    balance: real,
    accountType: string,
    status: string,
    kycVerified: bool,
    createdAt: int,
    updatedAt: int)

  type Accounts = seq<Account>

  predicate NumberTaken(accounts: Accounts, n: string) {
    exists i :: 0 <= i < |accounts| && accounts[i].accountNumber == n
  }

  predicate PanTaken(accounts: Accounts, pan: string) {
    exists i :: 0 <= i < |accounts| && accounts[i].pan == pan
  }

  predicate AadharTaken(accounts: Accounts, aadhar: string) {
    exists i :: 0 <= i < |accounts| && accounts[i].aadhar == aadhar
  }

  /** `create_account`: the inserted document, or the error raised by the first
      uniqueness check that fails. */
  function CreateAccount(accounts: Accounts, data: Account): (r: Result<(Accounts, Account)>)
    ensures NumberTaken(accounts, data.accountNumber) ==> r == Err("Account number already exists")
    ensures !NumberTaken(accounts, data.accountNumber) && PanTaken(accounts, data.pan) ==>
      r == Err("PAN already used")
    ensures !NumberTaken(accounts, data.accountNumber) && !PanTaken(accounts, data.pan) ==>
      (AadharTaken(accounts, data.aadhar) ==> r == Err("Aadhar already used"))
    ensures r.Ok? <==>
      !NumberTaken(accounts, data.accountNumber) && !PanTaken(accounts, data.pan) && !AadharTaken(accounts, data.aadhar)
    ensures r.Ok? ==> r.value == (accounts + [data], data)
  {
    if NumberTaken(accounts, data.accountNumber) then Err("Account number already exists")
    else if PanTaken(accounts, data.pan) then Err("PAN already used")
    else if AadharTaken(accounts, data.aadhar) then Err("Aadhar already used")
    else Ok((accounts + [data], data))
  }

  /** No two accounts share an account number, a PAN or an Aadhaar number. */
  predicate UniqueKeys(accounts: Accounts) {
    forall i, j :: 0 <= i < j < |accounts| ==>
      && accounts[i].accountNumber != accounts[j].accountNumber
      && accounts[i].pan != accounts[j].pan
      && accounts[i].aadhar != accounts[j].aadhar
  }

  /** When every insert goes through `CreateAccount` the three keys stay unique. */
  lemma CreateAccountKeepsKeysUnique(accounts: Accounts, data: Account)
    requires UniqueKeys(accounts)
    requires CreateAccount(accounts, data).Ok?
    ensures UniqueKeys(CreateAccount(accounts, data).value.0)
  {
    var after := accounts + [data];
    forall i, j | 0 <= i < j < |after|
      ensures after[i].accountNumber != after[j].accountNumber
      ensures after[i].pan != after[j].pan
      ensures after[i].aadhar != after[j].aadhar
    {
      if j == |accounts| {
        assert after[i] == accounts[i];
      }
    }
  }

  /** The first account with this number (`find_one({"account_number": n})`). */
  function GetAccountByNumber(accounts: Accounts, n: string): (r: Option<Account>)
    ensures r.Some? ==> r.value in accounts && r.value.accountNumber == n
    ensures r.None? <==> !NumberTaken(accounts, n)
  {
    if accounts == [] then None
    else if accounts[0].accountNumber == n then Some(accounts[0])
    else
      var rest := GetAccountByNumber(accounts[1..], n);
      assert NumberTaken(accounts, n) ==> accounts[0].accountNumber == n || NumberTaken(accounts[1..], n) by {
        if NumberTaken(accounts, n) {
          var i :| 0 <= i < |accounts| && accounts[i].accountNumber == n;
          if i > 0 { assert accounts[1..][i - 1] == accounts[i]; }
        }
      }
      rest
  }

  predicate IsHexDigit(c: char) {
    IsAsciiDigit(c) || 'a' <= c <= 'f' || 'A' <= c <= 'F'
  }

  /** The strings `ObjectId(...)` accepts: 24 hexadecimal digits in either case. */
  predicate IsObjectIdText(s: string) {
    |s| == 24 && forall i :: 0 <= i < |s| ==> IsHexDigit(s[i])
  }

  /** `get_account_by_id`: `ObjectId(id)` raises on anything but 24 hex digits; otherwise
      the first account whose id is the same hex number. */
  function GetAccountById(accounts: Accounts, id: string): (r: Result<Option<Account>>)
    ensures r.Err? <==> !IsObjectIdText(id)
    ensures r.Ok? && r.value.Some? ==> r.value.value in accounts && r.value.value.id == AsciiLower(id)
    ensures r.Ok? && r.value.None? ==> forall a :: a in accounts ==> a.id != AsciiLower(id)
  {
    if !IsObjectIdText(id) then
      Err("'" + id + "' is not a valid ObjectId, it must be a 12-byte input or a 24-character hex string")
    else Ok(FirstWithId(accounts, AsciiLower(id)))
  }

  function FirstWithId(accounts: Accounts, id: string): (r: Option<Account>)
    ensures r.Some? ==> r.value in accounts && r.value.id == id
    ensures r.None? ==> forall a :: a in accounts ==> a.id != id
  {
    if accounts == [] then None
    else if accounts[0].id == id then Some(accounts[0])
    else
      var rest := FirstWithId(accounts[1..], id);
      assert forall a :: a in accounts ==> a == accounts[0] || a in accounts[1..];
      rest
  }

  /** Looking an id up is insensitive to the case of its hex digits: the upper-cased id
      is rejected exactly when the id is, and otherwise finds the same account. */
  lemma GetAccountByIdIgnoresCase(accounts: Accounts, id: string)
    ensures GetAccountById(accounts, AsciiUpper(id)).Err? <==> GetAccountById(accounts, id).Err?
    ensures GetAccountById(accounts, id).Ok? ==>
      GetAccountById(accounts, AsciiUpper(id)) == GetAccountById(accounts, id)
  {
    var u := AsciiUpper(id);
    forall i | 0 <= i < |id|
      ensures IsHexDigit(u[i]) <==> IsHexDigit(id[i])
      ensures LowerChar(u[i]) == LowerChar(id[i])
    {
      UpperThenLower(id[i]);
    }
    assert AsciiLower(u) == AsciiLower(id);
  }

  lemma UpperThenLower(c: char)
    ensures IsHexDigit(UpperChar(c)) <==> IsHexDigit(c)
    ensures LowerChar(UpperChar(c)) == LowerChar(c)
  {
  }

  // ---------------------------------------------------------------------------
  // Listing
  // ---------------------------------------------------------------------------

  /** The accounts whose status is not "deleted", in collection order. */
  function NotDeleted(accounts: Accounts): (r: Accounts)
    ensures |r| <= |accounts|
  {
    if accounts == [] then []
    else
      var init := NotDeleted(accounts[..|accounts| - 1]);
      var last := accounts[|accounts| - 1];
      if last.status != "deleted" then init + [last] else init
  }

  /** The filter keeps exactly the accounts that are not deleted. */
  lemma {:induction false} NotDeletedMembers(accounts: Accounts)
    ensures forall a :: a in NotDeleted(accounts) <==> a in accounts && a.status != "deleted"
  {
    if accounts != [] {
      var init := accounts[..|accounts| - 1];
      NotDeletedMembers(init);
      assert accounts == init + [accounts[|accounts| - 1]];
    }
  }

  /** `skip` then `limit` on a sequence; MongoDB reads a limit of 0 as no limit. */
  function Window<T>(xs: seq<T>, skip: nat, limit: nat): (r: seq<T>)
    ensures skip >= |xs| ==> r == []
    ensures skip < |xs| && (limit == 0 || skip + limit >= |xs|) ==> r == xs[skip..]
    ensures skip < |xs| && limit != 0 && skip + limit < |xs| ==> r == xs[skip..skip + limit]
  {
    if skip >= |xs| then []
    else if limit == 0 || skip + limit >= |xs| then xs[skip..]
    else xs[skip..skip + limit]
  }

  /** Appending one element to the input of a window appends it to the window when it
      falls inside the window. */
  lemma WindowAppend<T>(xs: seq<T>, x: T, skip: nat, limit: nat)
    ensures Window(xs + [x], skip, limit) ==
      if skip <= |xs| && (limit == 0 || |xs| < skip + limit) then Window(xs, skip, limit) + [x]
      else Window(xs, skip, limit)
  {
    var ys := xs + [x];
    if skip <= |xs| && (limit == 0 || |xs| < skip + limit) {
      assert ys[skip..] == xs[skip..] + [x];
    } else if skip < |xs| && limit != 0 {
      assert ys[skip..skip + limit] == xs[skip..skip + limit];
    }
  }

  /** Filtering a sequence with one more account at its end. */
  lemma NotDeletedAppend(accounts: Accounts, a: Account)
    ensures NotDeleted(accounts + [a]) ==
      if a.status != "deleted" then NotDeleted(accounts) + [a] else NotDeleted(accounts)
  {
    assert (accounts + [a])[..|accounts|] == accounts;
  }

  /** The error the driver raises, before any query is sent, for a negative `skip`. */
  const SkipError := "skip must be >= 0"

  /** `get_all_accounts`: a negative `skip` is refused by the driver; a negative `limit`
      asks for a single batch of at most its absolute value, so it pages like that value. */
  method GetAllAccounts(accounts: Accounts, limit: int, skip: int) returns (r: Result<Accounts>)
    ensures r.Err? <==> skip < 0
    ensures r.Err? ==> r.error == SkipError
    ensures skip >= 0 ==> r == Ok(Window(NotDeleted(accounts), skip, if limit < 0 then -limit else limit))
    ensures r.Ok? ==> forall a :: a in r.value ==> a in accounts && a.status != "deleted"
    ensures r.Ok? && limit != 0 ==> |r.value| <= (if limit < 0 then -limit else limit)
  {
    if skip < 0 {
      return Err(SkipError);
    }
    var items := ScanAccounts(accounts, if limit < 0 then -limit else limit, skip);
    return Ok(items);
  }

  /** One pass of the cursor over the collection, skipping the first `skip` accounts that
      are not deleted and keeping at most `limit` (0: all) after them. */
  method ScanAccounts(accounts: Accounts, limit: nat, skip: nat) returns (items: Accounts)
    ensures items == Window(NotDeleted(accounts), skip, limit)
    ensures forall a :: a in items ==> a in accounts && a.status != "deleted"
    ensures limit != 0 ==> |items| <= limit
  {
    items := [];
    var matched := 0;
    var i := 0;
    while i < |accounts|
      invariant 0 <= i <= |accounts|
      invariant matched == |NotDeleted(accounts[..i])|
      invariant items == Window(NotDeleted(accounts[..i]), skip, limit)
    {
      var a := accounts[i];
      assert accounts[..i + 1] == accounts[..i] + [a];
      ListingStep(accounts[..i], a, items, matched, skip, limit);
      if a.status != "deleted" {
        if matched >= skip && (limit == 0 || matched < skip + limit) {
          items := items + [a];
        }
        matched := matched + 1;
      }
      i := i + 1;
    }
    assert accounts[..|accounts|] == accounts;
    ListingProperties(accounts, items, skip, limit);
  }

  lemma ListingProperties(accounts: Accounts, items: Accounts, skip: nat, limit: nat)
    requires items == Window(NotDeleted(accounts), skip, limit)
    ensures forall a :: a in items ==> a in accounts && a.status != "deleted"
    ensures limit != 0 ==> |items| <= limit
  {
    WindowWithin(NotDeleted(accounts), skip, limit);
    NotDeletedMembers(accounts);
  }

  /** One step of the cursor: the counter and the page both follow the filtered
      prefix. */
  lemma ListingStep(prefix: Accounts, a: Account, items: Accounts, matched: nat, skip: nat, limit: nat)
    requires matched == |NotDeleted(prefix)|
    requires items == Window(NotDeleted(prefix), skip, limit)
    ensures a.status != "deleted" ==> matched + 1 == |NotDeleted(prefix + [a])|
    ensures a.status == "deleted" ==> matched == |NotDeleted(prefix + [a])|
    ensures a.status != "deleted" && matched >= skip && (limit == 0 || matched < skip + limit) ==>
      items + [a] == Window(NotDeleted(prefix + [a]), skip, limit)
    ensures !(a.status != "deleted" && matched >= skip && (limit == 0 || matched < skip + limit)) ==>
      items == Window(NotDeleted(prefix + [a]), skip, limit)
  {
    NotDeletedAppend(prefix, a);
    WindowAppend(NotDeleted(prefix), a, skip, limit);
  }

  lemma WindowWithin<T>(xs: seq<T>, skip: nat, limit: nat)
    ensures forall x :: x in Window(xs, skip, limit) ==> x in xs
  {
    if skip < |xs| {
      var w := Window(xs, skip, limit);
      forall x | x in w ensures x in xs {
        var k :| 0 <= k < |w| && w[k] == x;
        assert xs[skip + k] == x;
      }
    }
  }
}

=== FILE: account_utils.dfy ===
/**
 * Bank account numbers: a two-digit prefix for the account type, the current time
 * in milliseconds modulo 10^8 as eight zero-padded digits, and a two-digit random
 * suffix.  The clock and the random digits are parameters.
 */
module AccountUtils {
  import opened Text

  const Prefixes: map<string, string> :=
    map["savings" := "50", "current" := "60", "salary" := "70", "fixed_deposit" := "80"]

  /** The prefix for an account type, matched after lower-casing; "50" for any other type. */
  function Prefix(accountType: string): (p: string)
    ensures |p| == 2 && AllDigits(p)
    ensures AsciiLower(accountType) in Prefixes ==> p == Prefixes[AsciiLower(accountType)]
    ensures AsciiLower(accountType) !in Prefixes ==> p == "50"
  {
    var t := AsciiLower(accountType);
    if t in Prefixes then Prefixes[t] else "50"
  }

  const TimestampModulus: nat := 100000000

  /** `generate_account_number`, with `nowMs` the integer millisecond timestamp and
      `suffix` the two random decimal digits. */
  function GenerateAccountNumber(accountType: string, nowMs: int, suffix: string): (r: string)
    requires |suffix| == 2 && AllDigits(suffix)
    ensures |r| == 12 && AllDigits(r)
    ensures r[..2] == Prefix(accountType)
    ensures DecimalValue(r[2..10]) == nowMs % TimestampModulus
    ensures r[10..] == suffix
  {
    var stamp := PaddedDecimal(nowMs % TimestampModulus, 8);
    assert Pow10(8) == TimestampModulus;
    var r := Prefix(accountType) + stamp + suffix;
    assert r[2..10] == stamp;
    r
  }

  /** Within one account type and suffix, numbers generated at times that differ modulo
      10^8 milliseconds are different: the number determines the type prefix, the time
      slot and the suffix. */
  lemma NumberDeterminesParts(t1: string, ms1: int, s1: string, t2: string, ms2: int, s2: string)
    requires |s1| == 2 && AllDigits(s1) && |s2| == 2 && AllDigits(s2)
    requires GenerateAccountNumber(t1, ms1, s1) == GenerateAccountNumber(t2, ms2, s2)
    ensures Prefix(t1) == Prefix(t2)
    ensures ms1 % TimestampModulus == ms2 % TimestampModulus
    ensures s1 == s2
  {
  }
}

=== FILE: account_validator.dfy ===
/**
 * The Python `AccountValidator` of the banking MCP server: PAN and Aadhaar formats
 * (Aadhaar with the Verhoeff checksum), name, date of birth and minimum balance,
 * and the aggregate check that collects one error per failing field.
 *
 * Dates are day numbers (`date.toordinal()`); parsing `%Y-%m-%d` is a parameter.
 */
module AccountValidator {
  import opened Options
  import opened Text
  import opened Patterns
  import Verhoeff
  import opened Sequences

  /** `PAN_PATTERN`: `^[A-Z]{5}[0-9]{4}[A-Z]{1}$`. */
  const PanPattern: Pattern := [Times(Upper, 5), Times(Digit, 4), Times(Upper, 1)]

  /** `AADHAR_PATTERN`: `^[0-9]{12}$`. */
  const AadharPattern: Pattern := [Times(Digit, 12)]

  /** The name pattern `^[a-zA-Z\s.']+$`. */
  const NamePattern: Pattern := [Plus(LettersOrSpace(Python, ".'"))]

  const ValidAccountTypes: seq<string> := ["savings", "current", "salary", "fixed_deposit"]

  /** A check's outcome: the `(ok, message)` pairs the validators return. */
  datatype Verdict = Verdict(ok: bool, msg: string)

  const Accepted := Verdict(true, "")

  /** Five upper-case ASCII letters, four ASCII digits, one upper-case ASCII letter. */
  predicate IsPanShape(s: string) {
    && |s| == 10
    && (forall i :: 0 <= i < 5 ==> IsAsciiUpper(s[i]))
    && (forall i :: 5 <= i < 9 ==> IsAsciiDigit(s[i]))
    && IsAsciiUpper(s[9])
  }

  lemma PanPatternMeaning(s: string)
    ensures Matches(PanPattern, s) <==> IsPanShape(s)
  {
    FixedWidthMatches(PanPattern, s);
    assert Width(PanPattern) == 10 by {
      assert PanPattern[1..][1..][1..] == [];
    }
    forall i | 0 <= i < 10
      ensures ClassAt(PanPattern, i) == if i < 5 || i == 9 then Upper else Digit
    {
      assert PanPattern[1..] == [Times(Digit, 4), Times(Upper, 1)];
      assert PanPattern[1..][1..] == [Times(Upper, 1)];
    }
  }

  lemma AadharPatternMeaning(s: string)
    ensures Matches(AadharPattern, s) <==> |s| == 12 && AllDigits(s)
  {
    FixedWidthMatches(AadharPattern, s);
    assert AadharPattern[1..] == [];
  }

  /** Characters the name pattern admits. */
  predicate IsNameChar(c: char) {
    IsAsciiLetter(c) || IsSpace(Python, c) || c == '.' || c == '\''
  }

  lemma NamePatternMeaning(s: string)
    ensures Matches(NamePattern, s) <==> |s| >= 1 && forall i :: 0 <= i < |s| ==> IsNameChar(s[i])
  {
    PlusMatches(LettersOrSpace(Python, ".'"), s);
  }

  // ---------------------------------------------------------------------------
  // PAN
  // ---------------------------------------------------------------------------

  /** ASCII upper-casing maps whitespace to itself and nothing else to whitespace,
      so it commutes with stripping. */
  lemma {:induction false} StripUpperCommute(s: string)
    ensures Strip(Python, AsciiUpper(s)) == AsciiUpper(Strip(Python, s))
  {
    TrimStartUpper(s);
    TrimEndUpper(TrimStart(Python, s));
  }

  lemma UpperKeepsSpace(c: char)
    ensures IsSpace(Python, UpperChar(c)) <==> IsSpace(Python, c)
  {
  }

  lemma {:induction false} TrimStartUpper(s: string)
    ensures TrimStart(Python, AsciiUpper(s)) == AsciiUpper(TrimStart(Python, s))
  {
    if |s| > 0 {
      var u := AsciiUpper(s);
      UpperKeepsSpace(s[0]);
      assert u[0] == UpperChar(s[0]);
      if IsSpace(Python, s[0]) {
        assert u[1..] == AsciiUpper(s[1..]);
        TrimStartUpper(s[1..]);
      }
    }
  }

  lemma {:induction false} TrimEndUpper(s: string)
    ensures TrimEnd(Python, AsciiUpper(s)) == AsciiUpper(TrimEnd(Python, s))
  {
    if |s| > 0 {
      var u := AsciiUpper(s);
      UpperKeepsSpace(s[|s| - 1]);
      assert u[|s| - 1] == UpperChar(s[|s| - 1]);
      if IsSpace(Python, s[|s| - 1]) {
        assert u[..|s| - 1] == AsciiUpper(s[..|s| - 1]);
        TrimEndUpper(s[..|s| - 1]);
      }
    }
  }

  /** `validate_pan`: false for the empty string; otherwise the upper-cased, stripped
      input must be a PAN.  Lower-case input is therefore accepted. */
  function ValidatePan(pan: string): (r: bool)
    ensures pan == [] ==> !r
    ensures r <==> IsPanShape(AsciiUpper(Strip(Python, pan)))
  {
    PanPatternMeaning(Strip(Python, AsciiUpper(pan)));
    StripUpperCommute(pan);
    if pan == [] then false else Matches(PanPattern, Strip(Python, AsciiUpper(pan)))
  }

  /** `validate_pan` does not depend on the case of its input. */
  lemma ValidatePanIgnoresCase(pan: string)
    ensures ValidatePan(AsciiLower(pan)) == ValidatePan(pan)
  {
    assert AsciiUpper(AsciiLower(pan)) == AsciiUpper(pan);
    StripUpperCommute(pan);
    StripUpperCommute(AsciiLower(pan));
  }

  // ---------------------------------------------------------------------------
  // Aadhaar
  // ---------------------------------------------------------------------------

  /** Characters `re.sub(r'[\s-]', '', ...)` removes. */
  predicate IsSeparator(c: char) {
    IsSpace(Python, c) || c == '-'
  }

  /** The input with every whitespace character and hyphen removed. */
  function RemoveSeparators(s: string): (r: string)
    ensures |r| <= |s|
    ensures forall i :: 0 <= i < |r| ==> !IsSeparator(r[i])
  {
    if s == [] then []
    else if IsSeparator(s[0]) then RemoveSeparators(s[1..])
    else [s[0]] + RemoveSeparators(s[1..])
  }

  /** A single character is dropped exactly when it is a separator. */
  lemma RemoveSeparatorsSingle(c: char)
    ensures RemoveSeparators([c]) == if IsSeparator(c) then [] else [c]
  {
    assert [c][1..] == [];
  }

  /** Removing separators keeps every other character, as often as it occurs and in
      its original order. */
  lemma {:induction false} RemoveSeparatorsCounts(s: string, c: char)
    ensures multiset(RemoveSeparators(s))[c] == if IsSeparator(c) then 0 else multiset(s)[c]
  {
    if s != [] {
      RemoveSeparatorsCounts(s[1..], c);
      assert s == [s[0]] + s[1..];
    }
  }

  lemma {:induction false} RemoveSeparatorsIsSubsequence(s: string)
    ensures IsSubsequence(RemoveSeparators(s), s)
  {
    if s != [] {
      RemoveSeparatorsIsSubsequence(s[1..]);
    }
  }

  lemma {:induction false} RemoveSeparatorsAppend(a: string, b: string)
    ensures RemoveSeparators(a + b) == RemoveSeparators(a) + RemoveSeparators(b)
  {
    if a == [] {
      assert a + b == b;
    } else {
      assert (a + b)[0] == a[0];
      assert (a + b)[1..] == a[1..] + b;
      RemoveSeparatorsAppend(a[1..], b);
    }
  }

  /** `validate_aadhar`: false for the empty string; otherwise, with separators removed,
      exactly twelve ASCII digits that pass the Verhoeff check. */
  function ValidateAadhar(aadhar: string): (r: bool)
    ensures r <==> var c := RemoveSeparators(aadhar);
      |c| == 12 && AllDigits(c) && Verhoeff.Valid(c)
  {
    if aadhar == [] then false
    else
      var a := RemoveSeparators(aadhar);
      AadharPatternMeaning(a);
      Matches(AadharPattern, a) && Verhoeff.Valid(a)
  }

  /** Two inputs that differ only in whitespace and hyphens get the same verdict. */
  lemma AadharIgnoresSeparators(s: string, t: string)
    requires RemoveSeparators(s) == RemoveSeparators(t)
    ensures ValidateAadhar(s) == ValidateAadhar(t)
  {
  }

  /** Inserting a space or hyphen anywhere never changes the verdict. */
  lemma InsertSeparatorKeepsVerdict(s: string, i: nat, c: char)
    requires i <= |s| && IsSeparator(c)
    ensures ValidateAadhar(s[..i] + [c] + s[i..]) == ValidateAadhar(s)
  {
    var t := s[..i] + [c] + s[i..];
    RemoveSeparatorsAppend(s[..i] + [c], s[i..]);
    RemoveSeparatorsAppend(s[..i], [c]);
    RemoveSeparatorsAppend(s[..i], s[i..]);
    assert s[..i] + s[i..] == s;
    assert [c][1..] == [];
    assert RemoveSeparators([c]) == [];
    assert RemoveSeparators(t) == RemoveSeparators(s);
  }

  /** A single mistyped digit in an accepted twelve-digit Aadhaar number is caught. */
  lemma AadharDetectsSingleSubstitution(s: string, t: string, k: nat)
    requires |s| == 12 && ValidateAadhar(s)
    requires |t| == 12 && AllDigits(t) && k < 12 && s[k] != t[k]
    requires forall i :: 0 <= i < 12 && i != k ==> s[i] == t[i]
    ensures !ValidateAadhar(t)
  {
    RemoveSeparatorsLength(s);
    RemoveSeparatorsDigits(t);
    Verhoeff.SingleSubstitutionDetected(s, t, k);
  }

  lemma {:induction false} RemoveSeparatorsLength(s: string)
    requires |RemoveSeparators(s)| == |s|
    ensures RemoveSeparators(s) == s
  {
    if s != [] {
      if IsSeparator(s[0]) {
        assert false;
      } else {
        RemoveSeparatorsLength(s[1..]);
      }
    }
  }

  lemma {:induction false} RemoveSeparatorsDigits(s: string)
    requires AllDigits(s)
    ensures RemoveSeparators(s) == s
  {
    if s != [] {
      assert !IsSeparator(s[0]);
      RemoveSeparatorsDigits(s[1..]);
    }
  }

  // ---------------------------------------------------------------------------
  // Date of birth
  // ---------------------------------------------------------------------------

  const FutureDobMessage := "Date of birth cannot be in the future"
  const MinimumAgeMessage := "Minimum age requirement is 18 years"
  const InvalidDobMessage := "Invalid date of birth"
  const DobFormatMessage := "Invalid date format. Use YYYY-MM-DD"

  /** `validate_date_of_birth`, with `dob` the parsed day number (`None` when
      `strptime` raises) and `today` the current day number.  Age is the number of
      days divided by 365.25; 18 years is 6575 days and 120 years is 43830 days. */
  function ValidateDateOfBirth(dob: Option<int>, today: int): (r: Verdict)
    ensures r.ok <==> dob.Some? && 6575 <= today - dob.value <= 43830
    ensures r.ok ==> r.msg == ""
    ensures dob.None? ==> r.msg == DobFormatMessage
    ensures dob.Some? && dob.value > today ==> r.msg == FutureDobMessage
    ensures dob.Some? && 0 <= today - dob.value < 6575 ==> r.msg == MinimumAgeMessage
    ensures dob.Some? && today - dob.value > 43830 ==> r.msg == InvalidDobMessage
  {
    match dob
    case None => Verdict(false, DobFormatMessage)
    case Some(d) =>
      if d > today then Verdict(false, FutureDobMessage)
      else
        var age := (today - d) as real / 365.25;
        if age < 18.0 then Verdict(false, MinimumAgeMessage)
        else if age > 120.0 then Verdict(false, InvalidDobMessage)
        else Accepted
  }

  // ---------------------------------------------------------------------------
  // Balance
  // ---------------------------------------------------------------------------

  /** `min_bal`: the minimum opening balance per account type. */
  const MinBalances: map<string, real> :=
    map["savings" := 1000.0, "current" := 5000.0, "salary" := 0.0, "fixed_deposit" := 10000.0]

  /** How Python renders each minimum in the message (`f'{mb}'` of a float). */
  function MinBalanceText(accountType: string): string {
    if accountType == "savings" then "1000.0"
    else if accountType == "current" then "5000.0"
    else if accountType == "fixed_deposit" then "10000.0"
    else "0.0"
  }

  /** `validate_balance`: a negative balance is rejected first, whatever the type;
      then savings needs 1000, current 5000, fixed deposit 10000, and salary or any
      other type only a non-negative balance. */
  function ValidateBalance(balance: real, accountType: string): (r: Verdict)
    ensures balance < 0.0 ==> r == Verdict(false, "Balance cannot be negative")
    ensures r.ok <==>
      && balance >= 0.0
      && (accountType == "savings" ==> balance >= 1000.0)
      && (accountType == "current" ==> balance >= 5000.0)
      && (accountType == "fixed_deposit" ==> balance >= 10000.0)
    ensures r.ok ==> r.msg == ""
    ensures 0.0 <= balance && !r.ok ==>
      r.msg == "Minimum balance for " + accountType + " account is \U{20B9}" + MinBalanceText(accountType)
  {
    if balance < 0.0 then Verdict(false, "Balance cannot be negative")
    else
      var mb := if accountType in MinBalances then MinBalances[accountType] else 0.0;
      if balance < mb then
        Verdict(false, "Minimum balance for " + accountType + " account is \U{20B9}" + MinBalanceText(accountType))
      else Accepted
  }

  // ---------------------------------------------------------------------------
  // Name
  // ---------------------------------------------------------------------------

  const NameRequiredMessage := "Name is required"
  const NameTooShortMessage := "Name must be at least 2 characters long"
  const NameTooLongMessage := "Name cannot exceed 100 characters"
  const NameCharsMessage := "Name contains invalid characters"

  /** `validate_name`: on the stripped name, in this order: non-empty, at least 2
      characters, at most 100 characters, only letters, whitespace, `.` and `'`. */
  function ValidateName(name: string): (r: Verdict)
    ensures var n := Strip(Python, name);
      && (r.ok <==> 2 <= |n| <= 100 && forall i :: 0 <= i < |n| ==> IsNameChar(n[i]))
      && (r.ok ==> r.msg == "")
      && (n == [] ==> r.msg == NameRequiredMessage)
      && (|n| == 1 ==> r.msg == NameTooShortMessage)
      && (|n| > 100 ==> r.msg == NameTooLongMessage)
      && (2 <= |n| <= 100 && !r.ok ==> r.msg == NameCharsMessage)
  {
    var n := Strip(Python, name);
    NamePatternMeaning(n);
    if name == [] || n == [] then Verdict(false, NameRequiredMessage)
    else if |n| < 2 then Verdict(false, NameTooShortMessage)
    else if |n| > 100 then Verdict(false, NameTooLongMessage)
    else if !Matches(NamePattern, n) then Verdict(false, NameCharsMessage)
    else Accepted
  }

  // ---------------------------------------------------------------------------
  // The aggregate check
  // ---------------------------------------------------------------------------

  /** The fields `validate_account_data` reads; missing keys are the caller's defaults. */
  datatype AccountData = AccountData(
    name: string,
    dob: string,
    pan: string,
    aadhar: string,
    accountType: string,
    balance: Option<real>)  // `float(...)` of the balance; None when it raises

  /** One entry of the `errors` list. */
  datatype FieldError =
    | NameError(msg: string)
    | DobError(msg: string)
    | PanError
    | AadharError
    | AccountTypeError
    | BalanceError(msg: string)
    | BalanceAmountError

  /** The position of each kind of error in the fixed checking order. */
  function Rank(e: FieldError): nat {
    match e
    case NameError(_) => 0
    case DobError(_) => 1
    case PanError => 2
    case AadharError => 3
    case AccountTypeError => 4
    case BalanceError(_) => 5
    case BalanceAmountError => 5
  }

  /** The error text as it appears in the returned list. */
  function Render(e: FieldError): string {
    match e
    case NameError(m) => "Name: " + m
    case DobError(m) => "Date of Birth: " + m
    case PanError => "Invalid PAN card number format"
    case AadharError => "Invalid Aadhar card number"
    case AccountTypeError => "Invalid account type"
    case BalanceError(m) => "Balance: " + m
    case BalanceAmountError => "Invalid balance amount"
  }

  datatype Report = Report(valid: bool, errors: seq<FieldError>)

  type DateParser = string -> Option<int>

  /** The outcome of each individual check. */
  datatype Checks = Checks(
    name: Verdict, dob: Verdict, panOk: bool, aadharOk: bool, typeOk: bool,
    balance: Option<Verdict>)  // None when the balance is not a number

  /** The individual checks run on `data`; the account type is lower-cased first. */
  function RunChecks(data: AccountData, parse: DateParser, today: int): Checks {
    var acctType := AsciiLower(data.accountType);
    Checks(
      ValidateName(data.name),
      ValidateDateOfBirth(parse(data.dob), today),
      ValidatePan(data.pan),
      ValidateAadhar(data.aadhar),
      acctType in ValidAccountTypes,
      match data.balance
        case None => None
        case Some(b) => Some(ValidateBalance(b, acctType)))
  }

  /** An error that the outcome of its own check accounts for. */
  predicate Justified(e: FieldError, c: Checks) {
    match e
    case NameError(m) => !c.name.ok && m == c.name.msg
    case DobError(m) => !c.dob.ok && m == c.dob.msg
    case PanError => !c.panOk
    case AadharError => !c.aadharOk
    case AccountTypeError => !c.typeOk
    case BalanceError(m) => c.balance.Some? && !c.balance.value.ok && m == c.balance.value.msg
    case BalanceAmountError => c.balance.None?
  }

  /** One slot per check, in checking order, holding that check's error if it failed. */
  function Slots(c: Checks): seq<Option<FieldError>> {
    [ if c.name.ok then None else Some(NameError(c.name.msg)),
      if c.dob.ok then None else Some(DobError(c.dob.msg)),
      if c.panOk then None else Some(PanError),
      if c.aadharOk then None else Some(AadharError),
      if c.typeOk then None else Some(AccountTypeError),
      match c.balance
        case None => Some(BalanceAmountError)
        case Some(v) => if v.ok then None else Some(BalanceError(v.msg)) ]
  }

  lemma SlotsRanked(c: Checks)
    ensures |Slots(c)| == 6
    ensures forall i :: 0 <= i < 6 && Slots(c)[i].Some? ==> Rank(Slots(c)[i].value) == i
    ensures forall i :: 0 <= i < 6 && Slots(c)[i].Some? ==> Justified(Slots(c)[i].value, c)
  {
    var s := Slots(c);
    forall i | 0 <= i < 6 && s[i].Some?
      ensures Rank(s[i].value) == i && Justified(s[i].value, c)
    {
      if i == 5 {
        match c.balance
        case None =>
        case Some(v) =>
      }
    }
  }

  /** The `errors` list built from the six checks' outcomes, appended in order. */
  function Collect(c: Checks): (errs: seq<FieldError>)
    ensures forall i, j :: 0 <= i < j < |errs| ==> Rank(errs[i]) < Rank(errs[j])
    ensures forall e :: e in errs ==> Justified(e, c)
    ensures !c.name.ok ==> NameError(c.name.msg) in errs
    ensures !c.dob.ok ==> DobError(c.dob.msg) in errs
    ensures !c.panOk ==> PanError in errs
    ensures !c.aadharOk ==> AadharError in errs
    ensures !c.typeOk ==> AccountTypeError in errs
    ensures c.balance.None? ==> BalanceAmountError in errs
    ensures c.balance.Some? && !c.balance.value.ok ==> BalanceError(c.balance.value.msg) in errs
  {
    var slots := Slots(c);
    SlotsRanked(c);
    PresentSorted(slots);
    var errs := Present(slots);
    forall e | e in errs ensures Justified(e, c) {
      var i :| 0 <= i < |slots| && slots[i] == Some(e);
    }
    forall i | 0 <= i < 6 && slots[i].Some? ensures slots[i].value in errs {
      assert slots[i] in slots;
    }
    errs
  }

  /** The errors held in `slots`, in slot order. */
  function Present(slots: seq<Option<FieldError>>): (errs: seq<FieldError>)
    ensures forall e :: e in errs <==> Some(e) in slots
  {
    if slots == [] then []
    else Present(slots[..|slots| - 1]) + match slots[|slots| - 1]
      case None => []
      case Some(e) => [e]
  }

  /** When slot `i` can only hold an error of rank `i`, the present errors come out in
      strictly increasing rank. */
  lemma {:induction false} PresentSorted(slots: seq<Option<FieldError>>)
    requires forall i :: 0 <= i < |slots| && slots[i].Some? ==> Rank(slots[i].value) == i
    ensures forall e :: e in Present(slots) ==> Rank(e) < |slots|
    ensures forall i, j :: 0 <= i < j < |Present(slots)| ==> Rank(Present(slots)[i]) < Rank(Present(slots)[j])
  {
    if slots != [] {
      var init := slots[..|slots| - 1];
      PresentSorted(init);
      forall e | e in Present(slots) ensures Rank(e) < |slots| {
        var k :| 0 <= k < |slots| && slots[k] == Some(e);
      }
    }
  }

  /** `validate_account_data`: every failing check contributes exactly one error, in the
      order name, date of birth, PAN, Aadhaar, account type, balance; the account type is
      lower-cased before it is checked and before the balance minimum is looked up. */
  function ValidateAccountData(data: AccountData, parse: DateParser, today: int): (r: Report)
    ensures r.valid <==> r.errors == []
    ensures forall i, j :: 0 <= i < j < |r.errors| ==> Rank(r.errors[i]) < Rank(r.errors[j])
    ensures forall e :: e in r.errors ==> Justified(e, RunChecks(data, parse, today))
    ensures !ValidateName(data.name).ok ==> NameError(ValidateName(data.name).msg) in r.errors
    ensures !ValidateDateOfBirth(parse(data.dob), today).ok ==>
      DobError(ValidateDateOfBirth(parse(data.dob), today).msg) in r.errors
    ensures !ValidatePan(data.pan) ==> PanError in r.errors
    ensures !ValidateAadhar(data.aadhar) ==> AadharError in r.errors
    ensures AsciiLower(data.accountType) !in ValidAccountTypes ==> AccountTypeError in r.errors
    ensures data.balance.None? ==> BalanceAmountError in r.errors
    ensures data.balance.Some? && !ValidateBalance(data.balance.value, AsciiLower(data.accountType)).ok ==>
      BalanceError(ValidateBalance(data.balance.value, AsciiLower(data.accountType)).msg) in r.errors
  {
    var errors := Collect(RunChecks(data, parse, today));
    Report(|errors| == 0, errors)
  }
}

=== FILE: azure.dfy ===
/**
 * Blob naming for uploaded documents: the extension of the original file name, the
 * unique blob name built from prefix, user, time and a UUID fragment, and the
 * container chosen by document type.  The clock and the UUID are parameters.
 */
module Azure {
  import opened Text

  predicate NoDot(s: string) {
    forall i :: 0 <= i < |s| ==> s[i] != '.'
  }

  /** `name.split('.').pop()`: the text after the last dot, or the whole name when it
      has no dot. */
  function Extension(name: string): (ext: string)
    ensures |ext| <= |name| && ext == name[|name| - |ext|..]
    ensures NoDot(ext)
    ensures |ext| < |name| ==> name[|name| - |ext| - 1] == '.'
    ensures NoDot(name) ==> ext == name
  {
    if name == [] then []
    else if name[|name| - 1] == '.' then []
    else
      var init := Extension(name[..|name| - 1]);
      assert name[..|name| - 1] + [name[|name| - 1]] == name;
      init + [name[|name| - 1]]
  }

  /** The extension is the longest dot-free suffix: it is never followed by a dot. */
  lemma ExtensionOfDotted(base: string, ext: string)
    requires NoDot(ext)
    ensures Extension(base + "." + ext) == ext
  {
    var name := base + "." + ext;
    var e := Extension(name);
    assert name[|name| - |ext|..] == ext;
    assert name[|name| - |ext| - 1] == '.';
  }

  /** Everything before the extension's dot: prefix, user, time and the first eight
      characters of the UUID, joined by hyphens. */
  function BaseName(userId: string, prefix: string, timestampMs: nat, uuid: string): (b: string)
    ensures StartsWith(b, prefix + "-" + userId + "-")
    ensures var p := prefix + "-" + userId + "-"; var d := NatToDecimal(timestampMs);
      && |b| == |p| + |d| + 1 + |Take(uuid, 8)|
      && b[|p|..|p| + |d|] == d && b[|p| + |d|] == '-'
    ensures |uuid| >= 8 ==> |b| >= 8 && b[|b| - 8..] == uuid[..8]
  {
    var p := prefix + "-" + userId + "-";
    var d := NatToDecimal(timestampMs);
    var b := p + d + "-" + Take(uuid, 8);
    assert b[..|p|] == p;
    assert b[|p|..|p| + |d|] == d;
    b
  }

  /** `generateUniqueFileName` with `timestampMs` from `Date.now()` and `uuid` a fresh
      UUID. */
  function UniqueFileName(userId: string, prefix: string, originalFileName: string, timestampMs: nat, uuid: string): (r: string)
    ensures StartsWith(r, prefix + "-" + userId + "-")
  {
    var b := BaseName(userId, prefix, timestampMs, uuid);
    StartsWithAppend(b, "." + Extension(originalFileName), prefix + "-" + userId + "-");
    assert b + "." + Extension(originalFileName) == b + ("." + Extension(originalFileName));
    b + "." + Extension(originalFileName)
  }

  /** The generated name keeps the original's extension. */
  lemma UniqueFileNameKeepsExtension(userId: string, prefix: string, originalFileName: string, timestampMs: nat, uuid: string)
    ensures Extension(UniqueFileName(userId, prefix, originalFileName, timestampMs, uuid)) == Extension(originalFileName)
  {
    ExtensionOfDotted(BaseName(userId, prefix, timestampMs, uuid), Extension(originalFileName));
  }

  /** Just before the extension's dot stand the first eight characters of the UUID. */
  lemma UniqueFileNameHoldsUuid(userId: string, prefix: string, originalFileName: string, timestampMs: nat, uuid: string)
    requires |uuid| >= 8
    ensures var r := UniqueFileName(userId, prefix, originalFileName, timestampMs, uuid);
      var n := |Extension(originalFileName)|;
      |r| >= n + 9 && r[|r| - n - 9..|r| - n - 1] == uuid[..8]
  {
    var b := BaseName(userId, prefix, timestampMs, uuid);
    var ext := Extension(originalFileName);
    assert UniqueFileName(userId, prefix, originalFileName, timestampMs, uuid) == b + ("." + ext);
    SliceOfFront(b, "." + ext, |b| - 8, |b|);
  }

  /** After the prefix and the user id stands the upload time in decimal milliseconds,
      then a hyphen: the time can be read back from the name. */
  lemma UniqueFileNameHoldsTimestamp(userId: string, prefix: string, originalFileName: string, timestampMs: nat, uuid: string)
    ensures var r := UniqueFileName(userId, prefix, originalFileName, timestampMs, uuid);
      var p := prefix + "-" + userId + "-";
      var e := |p| + |NatToDecimal(timestampMs)|;
      && e < |r| && r[e] == '-'
      && r[|p|..e] == NatToDecimal(timestampMs)
      && AllDigits(r[|p|..e]) && DecimalValue(r[|p|..e]) == timestampMs
  {
    var b := BaseName(userId, prefix, timestampMs, uuid);
    var tail := "." + Extension(originalFileName);
    assert UniqueFileName(userId, prefix, originalFileName, timestampMs, uuid) == b + tail;
    var p := prefix + "-" + userId + "-";
    var e := |p| + |NatToDecimal(timestampMs)|;
    SliceOfFront(b, tail, |p|, e);
    SliceOfFront(b, tail, e, e + 1);
    assert b[e..e + 1] == [b[e]];
  }

  /** A slice within the front part of a concatenation is a slice of that part. */
  lemma SliceOfFront(a: string, tail: string, i: nat, j: nat)
    requires i <= j <= |a|
    ensures (a + tail)[i..j] == a[i..j]
  {
  }

  /** Where `uploadDocument` puts a document: container and blob name. */
  datatype Placement = Placement(container: string, fileName: string)

  /** `uploadDocument`: the container is `{documentType}-uploads` and the blob name uses
      the document type as its prefix. */
  function UploadDocument(originalFileName: string, userId: string, documentType: string, timestampMs: nat, uuid: string): (p: Placement)
    ensures p.container == documentType + "-uploads"
    ensures StartsWith(p.fileName, documentType + "-" + userId + "-")
  {
    Placement(documentType + "-uploads", UniqueFileName(userId, documentType, originalFileName, timestampMs, uuid))
  }
}

=== FILE: bank_server.dfy ===
/**
 * The bank tools: `create_account` (validate, generate a number, persist),
 * `get_account` (by number, else by id) and `validate_documents` (PAN and Aadhaar
 * formats only).  The clock, the random suffix of the account number, the date
 * parser and the id the database assigns are parameters.
 */
module BankServer {
  import opened Options
  import opened Text
  import AccountValidator
  import AccountUtils
  import Verhoeff
  import opened AccountModel

  /** The arguments of `create_account`; `balance` arrives as a float. */
  datatype CreateRequest = CreateRequest(
    name: string,
    dob: string,
    pan: string,
    aadhar: string,
    balance: real,
    accountType: string,
    image: string,
    panImage: string,
    aadharImage: string)

  /** Everything `create_account` takes from outside: the date parser and today's date
      for the age check, the millisecond clock and two random digits for the account
      number, the id the insert assigns, and the two clock readings taken for
      `created_at` and `updated_at`. */
  datatype Environment = Environment(
    parse: AccountValidator.DateParser,
    today: int,
    nowMs: int,
    suffix: string,
    newId: string,
    createdAt: int,
    updatedAt: int)

  predicate GoodSuffix(env: Environment) {
    |env.suffix| == 2 && AllDigits(env.suffix)
  }

  datatype CreateReply =
    | Created(account: Account)
    | ValidationFailed(details: seq<string>)
    /** `create_account` of the collection raised; the tool call fails with this message. */
    | Raised(error: string)

  function AsAccountData(req: CreateRequest): AccountValidator.AccountData {
    AccountValidator.AccountData(req.name, req.dob, req.pan, req.aadhar, req.accountType, Some(req.balance))
  }

  function Validation(req: CreateRequest, env: Environment): AccountValidator.Report {
    AccountValidator.ValidateAccountData(AsAccountData(req), env.parse, env.today)
  }

  function RenderAll(errors: seq<AccountValidator.FieldError>): (r: seq<string>)
    ensures |r| == |errors|
    ensures forall i :: 0 <= i < |r| ==> r[i] == AccountValidator.Render(errors[i])
  {
    if errors == [] then [] else [AccountValidator.Render(errors[0])] + RenderAll(errors[1..])
  }

  /** The document `create_account` inserts: the PAN upper-cased (not stripped), the
      status "active" and KYC not verified. */
  function Payload(req: CreateRequest, env: Environment): Account
    requires GoodSuffix(env)
  {
    Account(env.newId, AccountUtils.GenerateAccountNumber(req.accountType, env.nowMs, env.suffix),
            req.name, req.image, req.dob, AsciiUpper(req.pan), req.aadhar, req.panImage, req.aadharImage,
            req.balance, req.accountType, "active", false, env.createdAt, env.updatedAt)
  }

  /** `create_account`. */
  function CreateAccount(accounts: Accounts, req: CreateRequest, env: Environment): (r: (Accounts, CreateReply))
    requires GoodSuffix(env)
    ensures !r.1.Created? ==> r.0 == accounts
    ensures r.1.ValidationFailed? <==> !Validation(req, env).valid
    ensures r.1.ValidationFailed? ==> r.1.details == RenderAll(Validation(req, env).errors) && r.1.details != []
    ensures r.1.Created? <==>
      && Validation(req, env).valid
      && !NumberTaken(accounts, Payload(req, env).accountNumber)
      && !PanTaken(accounts, AsciiUpper(req.pan))
      && !AadharTaken(accounts, req.aadhar)
    ensures r.1.Raised? ==>
      r.1.error in {"Account number already exists", "PAN already used", "Aadhar already used"}
    ensures r.1.Created? ==>
      var a := r.1.account;
      && r.0 == accounts + [a]
      && a == Payload(req, env)
      && a.accountNumber == AccountUtils.GenerateAccountNumber(req.accountType, env.nowMs, env.suffix)
      && a.dob == req.dob && a.accountType == req.accountType
      && a.image == req.image && a.panImage == req.panImage && a.aadharImage == req.aadharImage
      && a.createdAt == env.createdAt && a.updatedAt == env.updatedAt
      && |a.accountNumber| == 12 && AllDigits(a.accountNumber)
      && a.accountNumber[..2] == AccountUtils.Prefix(req.accountType)
      && a.pan == AsciiUpper(req.pan) && a.aadhar == req.aadhar && a.name == req.name
      && a.balance == req.balance && a.status == "active" && !a.kycVerified
  {
    var report := Validation(req, env);
    if !report.valid then (accounts, ValidationFailed(RenderAll(report.errors)))
    else
      match AccountModel.CreateAccount(accounts, Payload(req, env))
      case Err(e) => (accounts, Raised(e))
      case Ok((after, created)) => (after, Created(created))
  }

  /** A created account holds a PAN and an Aadhaar number that pass the document checks:
      upper-casing the PAN before storing it does not change its verdict. */
  lemma CreatedDocumentsValid(accounts: Accounts, req: CreateRequest, env: Environment)
    requires GoodSuffix(env)
    requires CreateAccount(accounts, req, env).1.Created?
    ensures AccountValidator.ValidatePan(CreateAccount(accounts, req, env).1.account.pan)
    ensures AccountValidator.ValidateAadhar(CreateAccount(accounts, req, env).1.account.aadhar)
  {
    UpperKeepsPanVerdict(req.pan);
  }

  /** Upper-casing a PAN never changes the validator's verdict on it. */
  lemma UpperKeepsPanVerdict(pan: string)
    ensures AccountValidator.ValidatePan(AsciiUpper(pan)) == AccountValidator.ValidatePan(pan)
  {
    AccountValidator.StripUpperCommute(pan);
    UpperIdempotent(Strip(Python, pan));
  }

  lemma UpperIdempotent(s: string)
    ensures AsciiUpper(AsciiUpper(s)) == AsciiUpper(s)
  {
    forall i | 0 <= i < |s| ensures UpperChar(UpperChar(s[i])) == UpperChar(s[i]) {}
  }

  /** Every successful insert keeps account numbers, PANs and Aadhaar numbers unique. */
  lemma CreateKeepsKeysUnique(accounts: Accounts, req: CreateRequest, env: Environment)
    requires GoodSuffix(env)
    requires UniqueKeys(accounts)
    ensures UniqueKeys(CreateAccount(accounts, req, env).0)
  {
    if CreateAccount(accounts, req, env).1.Created? {
      AccountModel.CreateAccountKeepsKeysUnique(accounts, Payload(req, env));
    }
  }

  /** The request sent again with a space before the PAN and before the Aadhaar number. */
  function Spaced(req: CreateRequest): CreateRequest {
    req.(pan := " " + req.pan, aadhar := " " + req.aadhar)
  }

  /** The validator strips the PAN and drops separators from the Aadhaar number, so the
      spaced request passes or fails validation exactly as the original does. */
  lemma SpacedValidatesAlike(req: CreateRequest, env: Environment)
    ensures Validation(Spaced(req), env) == Validation(req, env)
  {
    var again := Spaced(req);
    LeadingSpaceKeepsPanVerdict(req.pan);
    LeadingSpaceKeepsAadharVerdict(req.aadhar);
    var c1 := AccountValidator.RunChecks(AsAccountData(again), env.parse, env.today);
    var c2 := AccountValidator.RunChecks(AsAccountData(req), env.parse, env.today);
    assert c1 == c2;
  }

  lemma LeadingSpaceKeepsPanVerdict(pan: string)
    ensures AccountValidator.ValidatePan(" " + pan) == AccountValidator.ValidatePan(pan)
  {
    LeadingSpaceStrips(pan);
  }

  lemma LeadingSpaceStrips(s: string)
    ensures Strip(Python, " " + s) == Strip(Python, s)
  {
    assert (" " + s)[1..] == s;
  }

  lemma LeadingSpaceKeepsAadharVerdict(aadhar: string)
    ensures AccountValidator.ValidateAadhar(" " + aadhar) == AccountValidator.ValidateAadhar(aadhar)
  {
    assert (" " + aadhar)[1..] == aadhar;
    AccountValidator.AadharIgnoresSeparators(" " + aadhar, aadhar);
  }

  /** A string one character longer than the newly stored one, and not already taken,
      is still not taken after the insert. */
  lemma NotTakenAfterInsert(accounts: Accounts, a: Account, pan: string, aadhar: string)
    requires !PanTaken(accounts, pan) && |pan| != |a.pan|
    requires !AadharTaken(accounts, aadhar) && |aadhar| != |a.aadhar|
    ensures !PanTaken(accounts + [a], pan)
    ensures !AadharTaken(accounts + [a], aadhar)
  {
  }

  lemma UpperOfSpaced(s: string)
    ensures AsciiUpper(" " + s) == " " + AsciiUpper(s)
  {
    assert forall i :: 0 < i <= |s| ==> (" " + s)[i] == s[i - 1];
  }

  /** Uniqueness compares the stored strings, and the validator strips what the store
      keeps: the same PAN and Aadhaar number, sent again with a leading space, open a
      second account whose PAN and Aadhaar number are the first account's once stripped. */
  lemma LeadingSpaceOpensSecondAccount(accounts: Accounts, req: CreateRequest, env: Environment, env2: Environment)
    requires GoodSuffix(env) && GoodSuffix(env2) && env2.parse == env.parse && env2.today == env.today
    requires CreateAccount(accounts, req, env).1.Created?
    requires !NumberTaken(CreateAccount(accounts, req, env).0, Payload(Spaced(req), env2).accountNumber)
    requires !PanTaken(accounts, AsciiUpper(Spaced(req).pan))
    requires !AadharTaken(accounts, Spaced(req).aadhar)
    ensures var (after, first) := CreateAccount(accounts, req, env);
      var second := CreateAccount(after, Spaced(req), env2);
      && second.1.Created?
      && second.1.account.pan != first.account.pan
      && Strip(Python, second.1.account.pan) == Strip(Python, first.account.pan)
      && second.1.account.aadhar != first.account.aadhar
      && AccountValidator.RemoveSeparators(second.1.account.aadhar) ==
         AccountValidator.RemoveSeparators(first.account.aadhar)
  {
    var r1 := CreateAccount(accounts, req, env);
    SpacedCreated(accounts, req, env, env2);
    SpacedDocuments(req.pan, req.aadhar);
  }

  lemma SpacedDocuments(pan: string, aadhar: string)
    ensures AsciiUpper(" " + pan) != AsciiUpper(pan)
    ensures Strip(Python, AsciiUpper(" " + pan)) == Strip(Python, AsciiUpper(pan))
    ensures " " + aadhar != aadhar
    ensures AccountValidator.RemoveSeparators(" " + aadhar) == AccountValidator.RemoveSeparators(aadhar)
  {
    UpperOfSpaced(pan);
    LeadingSpaceStrips(AsciiUpper(pan));
    assert (" " + aadhar)[1..] == aadhar;
  }

  lemma SpacedCreated(accounts: Accounts, req: CreateRequest, env: Environment, env2: Environment)
    requires GoodSuffix(env) && GoodSuffix(env2) && env2.parse == env.parse && env2.today == env.today
    requires CreateAccount(accounts, req, env).1.Created?
    requires !NumberTaken(CreateAccount(accounts, req, env).0, Payload(Spaced(req), env2).accountNumber)
    requires !PanTaken(accounts, AsciiUpper(Spaced(req).pan))
    requires !AadharTaken(accounts, Spaced(req).aadhar)
    ensures CreateAccount(CreateAccount(accounts, req, env).0, Spaced(req), env2).1.Created?
  {
    var r1 := CreateAccount(accounts, req, env);
    var after, first := r1.0, r1.1.account;
    var again := Spaced(req);
    assert after == accounts + [first];
    assert Validation(again, env2).valid by {
      SpacedValidatesAlike(req, env);
    }
    var upper := AsciiUpper(again.pan);
    UpperOfSpaced(req.pan);
    assert |upper| == |first.pan| + 1 && |again.aadhar| == |first.aadhar| + 1;
    NotTakenAfterInsert(accounts, first, upper, again.aadhar);
  }

  // ---------------------------------------------------------------------------
  // get_account
  // ---------------------------------------------------------------------------

  datatype GetReply =
    | Found(account: Account)
    | Failure(error: string)
    /** `ObjectId(...)` raised on the id; the tool call fails with this message. */
    | Invalid(error: string)

  /** `get_account`: a non-empty number is looked up first; otherwise a non-empty id. */
  function GetAccount(accounts: Accounts, accountNumber: Option<string>, accountId: Option<string>): (r: GetReply)
    ensures r == Failure("Provide account_number or account_id") <==> !Truthy(accountNumber) && !Truthy(accountId)
    ensures r.Invalid? <==> !Truthy(accountNumber) && Truthy(accountId) && !IsObjectIdText(accountId.value)
    ensures Truthy(accountNumber) ==>
      (r.Found? ==> r.account in accounts && r.account.accountNumber == accountNumber.value)
      && (r == Failure("Account not found") <==> !NumberTaken(accounts, accountNumber.value))
      && (r.Found? <==> NumberTaken(accounts, accountNumber.value))
      && (r.Found? ==> GetAccountByNumber(accounts, accountNumber.value) == Some(r.account))
    ensures !Truthy(accountNumber) && Truthy(accountId) && IsObjectIdText(accountId.value) ==>
      (r.Found? ==> r.account in accounts && r.account.id == AsciiLower(accountId.value))
      && (r == Failure("Account not found") <==> forall a :: a in accounts ==> a.id != AsciiLower(accountId.value))
      && (r.Found? <==> exists a :: a in accounts && a.id == AsciiLower(accountId.value))
      && (r.Found? ==> GetAccountById(accounts, accountId.value) == Ok(Some(r.account)))
  {
    if Truthy(accountNumber) then
      match GetAccountByNumber(accounts, accountNumber.value)
      case Some(a) => Found(a)
      case None => Failure("Account not found")
    else if Truthy(accountId) then
      match GetAccountById(accounts, accountId.value)
      case Err(e) => Invalid(e)
      case Ok(Some(a)) => Found(a)
      case Ok(None) => Failure("Account not found")
    else Failure("Provide account_number or account_id")
  }

  /** An account just created is found again by the number `create_account` returned. */
  lemma CreatedFoundByNumber(accounts: Accounts, req: CreateRequest, env: Environment)
    requires GoodSuffix(env)
    requires CreateAccount(accounts, req, env).1.Created?
    ensures var (after, reply) := CreateAccount(accounts, req, env);
      GetAccount(after, Some(reply.account.accountNumber), None) == Found(reply.account)
  {
    var (after, reply) := CreateAccount(accounts, req, env);
    FindNumberAppended(accounts, reply.account);
    assert Truthy(Some(reply.account.accountNumber));
  }


  lemma {:induction false} FindNumberAppended(accounts: Accounts, a: Account)
    requires !NumberTaken(accounts, a.accountNumber)
    ensures GetAccountByNumber(accounts + [a], a.accountNumber) == Some(a)
  {
    if accounts != [] {
      assert (accounts + [a])[1..] == accounts[1..] + [a];
      assert accounts[0].accountNumber != a.accountNumber;
      FindNumberAppended(accounts[1..], a);
    }
  }

  // ---------------------------------------------------------------------------
  // validate_documents
  // ---------------------------------------------------------------------------

  datatype DocumentCheck = DocumentCheck(panValid: bool, aadharValid: bool, bothValid: bool)

  /** `validate_documents`: the two format checks and their conjunction. */
  function ValidateDocuments(pan: string, aadhar: string): (r: DocumentCheck)
    ensures r.bothValid <==> r.panValid && r.aadharValid
    ensures r.panValid <==> AccountValidator.IsPanShape(AsciiUpper(Strip(Python, pan)))
    ensures r.aadharValid <==> var c := AccountValidator.RemoveSeparators(aadhar);
      |c| == 12 && AllDigits(c) && Verhoeff.Valid(c)
  {
    var panOk := AccountValidator.ValidatePan(pan);
    var aadOk := AccountValidator.ValidateAadhar(aadhar);
    DocumentCheck(panOk, aadOk, panOk && aadOk)
  }

  /** The document check agrees with full account validation: both documents are valid
      exactly when validating an account with them reports neither a PAN nor an Aadhaar
      error, whatever the other fields are. */
  lemma DocumentsAgreeWithAccountValidation(req: CreateRequest, env: Environment)
    ensures ValidateDocuments(req.pan, req.aadhar).bothValid <==>
      && AccountValidator.PanError !in Validation(req, env).errors
      && AccountValidator.AadharError !in Validation(req, env).errors
  {
  }
}

=== FILE: chat_message.dfy ===
/**
 * The route that appends one message to a general chat: session, required-field and
 * ownership guards, the append itself, and the title taken from the first user
 * message.  The chat collection is a sequence of documents; the clock is a parameter.
 */
module ChatMessage {
  import opened Options
  import opened Text

  datatype Message = Message(role: string, content: string, timestamp: int)

  datatype Chat = Chat(id: string, userId: string, title: string, messages: seq<Message>, lastMessageAt: int)

  /** The parsed request body; None for a body that is not JSON. */
  datatype Body = Body(chatId: Option<string>, message: Option<string>, role: Option<string>)

  datatype Response =
    | Failure(status: int, error: string)
    | Added(id: string, title: string, messages: seq<Message>)

  const TitleLength := 50

  /** The roles the message schema's enum admits; saving any other role fails
      validation, and the route reports that as a 500. */
  const Roles: set<string> := {"user", "bot"}

  /** `message.substring(0, 50) + (message.length > 50 ? "..." : "")`: JavaScript
      counts UTF-16 code units, so the cut keeps the longest prefix of at most fifty
      code units, marked with "..." when the message is longer.  The cut stops short of
      fifty units only when the next character is a surrogate pair that would not fit. */
  function TitleOf(message: string): (t: string)
    ensures Utf16Length(message) <= TitleLength ==> t == message
    ensures Utf16Length(message) > TitleLength ==>
      && |t| >= 3 && t[|t| - 3..] == "..."
      && StartsWith(message, t[..|t| - 3])
      && TitleLength - 1 <= Utf16Length(t[..|t| - 3]) <= TitleLength
      && |t| - 3 < |message|
      && Utf16Length(t[..|t| - 3]) + Utf16Width(message[|t| - 3]) > TitleLength
  {
    var cut := TakeUnits(message, TitleLength);
    if Utf16Length(message) <= TitleLength then
      TakeUnitsFits(message, TitleLength);
      cut
    else
      assert message[..|message|] == message;
      assert |cut| < |message|;
      var t := cut + "...";
      assert t[..|t| - 3] == cut;
      t
  }

  /** For a message without surrogate pairs the title is the first fifty characters,
      with "..." exactly when the message is longer. */
  lemma TitleOfBmp(message: string)
    requires InBmp(message)
    ensures TitleOf(message) == Take(message, TitleLength) + (if |message| > TitleLength then "..." else "")
  {
    BmpLength(message);
    TakeUnitsBmp(message, TitleLength);
    if |message| <= TitleLength {
      TakeUnitsFits(message, TitleLength);
    }
  }

  /** The position of the chat with this id that belongs to this user. */
  function FindOwned(chats: seq<Chat>, chatId: string, userId: string): (r: Option<nat>)
    ensures r.Some? ==> r.value < |chats| && chats[r.value].id == chatId && chats[r.value].userId == userId
    ensures r.None? <==> forall k :: 0 <= k < |chats| ==> !(chats[k].id == chatId && chats[k].userId == userId)
  {
    if chats == [] then None
    else if chats[0].id == chatId && chats[0].userId == userId then Some(0)
    else match FindOwned(chats[1..], chatId, userId)
      case None => None
      case Some(k) => Some(k + 1)
  }

  /** `POST /api/chat/message`: `session` is the signed-in user's id; `sentAt` and
      `savedAt` are the two clock readings, for the message's timestamp and for the
      chat's last-message time. */
  function Post(chats: seq<Chat>, session: Option<string>, body: Option<Body>, sentAt: int, savedAt: int): (r: (seq<Chat>, Response))
    ensures r.1.Failure? ==> r.0 == chats
    ensures session.None? ==> r.1 == Failure(401, "Unauthorized")
    ensures session.Some? && body.None? ==> r.1 == Failure(500, "Failed to add message")
    ensures session.Some? && body.Some? ==>
      (r.1 == Failure(400, "Missing required fields") <==>
        !(Truthy(body.value.chatId) && Truthy(body.value.message) && Truthy(body.value.role)))
    ensures session.Some? && body.Some? && Truthy(body.value.chatId) && Truthy(body.value.message) && Truthy(body.value.role) ==>
      (r.1 == Failure(404, "Chat not found") <==> FindOwned(chats, body.value.chatId.value, session.value).None?)
    ensures session.Some? && body.Some? && Truthy(body.value.chatId) && Truthy(body.value.message) && Truthy(body.value.role)
            && FindOwned(chats, body.value.chatId.value, session.value).Some? ==>
      (r.1.Added? <==> body.value.role.value in Roles)
    ensures r.1 == Failure(500, "Failed to add message") <==>
      session.Some? && (body.None? ||
        (Truthy(body.value.chatId) && Truthy(body.value.message) && Truthy(body.value.role)
         && FindOwned(chats, body.value.chatId.value, session.value).Some? && body.value.role.value !in Roles))
    ensures r.1.Added? ==>
      && session.Some? && body.Some?
      && var b := body.value;
      && FindOwned(chats, b.chatId.value, session.value).Some?
      && var k := FindOwned(chats, b.chatId.value, session.value).value;
      && b.role.value in Roles
      && |r.0| == |chats|
      && (forall j :: 0 <= j < |chats| && j != k ==> r.0[j] == chats[j])
      && r.0[k].messages == chats[k].messages + [Message(b.role.value, b.message.value, sentAt)]
      && r.0[k].id == chats[k].id && r.0[k].userId == chats[k].userId && r.0[k].lastMessageAt == savedAt
      && r.1 == Added(chats[k].id, r.0[k].title, r.0[k].messages)
  {
    if session.None? then (chats, Failure(401, "Unauthorized"))
    else if body.None? then (chats, Failure(500, "Failed to add message"))
    else
      var b := body.value;
      if !(Truthy(b.chatId) && Truthy(b.message) && Truthy(b.role)) then
        (chats, Failure(400, "Missing required fields"))
      else match FindOwned(chats, b.chatId.value, session.value)
        case None => (chats, Failure(404, "Chat not found"))
        case Some(k) =>
          if b.role.value !in Roles then (chats, Failure(500, "Failed to add message"))
          else
            var chat := chats[k];
            var messages := chat.messages + [Message(b.role.value, b.message.value, sentAt)];
            var title := if |messages| == 1 && b.role.value == "user" then TitleOf(b.message.value) else chat.title;
            var saved := chat.(messages := messages, title := title, lastMessageAt := savedAt);
            (chats[k := saved], Added(saved.id, saved.title, saved.messages))
  }

  /** The title changes only for the first message of a chat sent by the user, and then
      becomes the message's title form; every other message leaves it as it was. */
  lemma TitleOnlyFromFirstUserMessage(chats: seq<Chat>, session: Option<string>, body: Option<Body>, sentAt: int, savedAt: int)
    requires Post(chats, session, body, sentAt, savedAt).1.Added?
    ensures var k := FindOwned(chats, body.value.chatId.value, session.value).value;
      var after := Post(chats, session, body, sentAt, savedAt).0;
      if chats[k].messages == [] && body.value.role.value == "user"
      then after[k].title == TitleOf(body.value.message.value)
      else after[k].title == chats[k].title
  {
  }
}

=== FILE: createaccount_chat.dfy ===
/**
 * The create-account chat route: one POST that dispatches on four action flags in a
 * fixed priority (get a chat, open a chat, save a message, save the account and close
 * the chat), and a GET that lists a user's chats or one chat's messages.  The three
 * collections are sequences of documents; the id given to a new chat is a parameter.
 */
module CreateaccountChat {
  import opened Options
  import opened Sequences

  datatype Chat = Chat(id: string, userId: string, isOpened: bool)

  datatype Message = Message(chatId: string, sender: string, message: string)

  /** The account saved by the route; every field is required by its schema. */
  datatype UserAccount = UserAccount(
    name: string, phone: string, email: string, aadharPhotoUrl: string, aadharNo: string,
    panPhotoUrl: string, panNo: string, address: string, accountNumber: string)

  datatype Db = Db(chats: seq<Chat>, messages: seq<Message>, accounts: seq<UserAccount>)

  /** The account fields of the request body. */
  datatype AccountFields = AccountFields(
    name: Option<string>, phone: Option<string>, email: Option<string>, aadharPhotoUrl: Option<string>,
    aadharNo: Option<string>, panPhotoUrl: Option<string>, panNo: Option<string>, address: Option<string>)

  /** The request body: the four action flags (by truthiness) and the fields they use. */
  datatype Body = Body(
    getchat: bool, newchat: bool, saveMessage: bool, createNewAccount: bool,
    userId: Option<string>, content: Option<string>, chatId: Option<string>, role: Option<string>,
    account: AccountFields)

  datatype Action = GetChat | NewChat | SaveMessage | CreateNewAccount | NoAction

  /** The action the route runs: the first flag set in the order getchat, newchat,
      saveMessage, createNewAccount. */
  function ChooseAction(b: Body): (a: Action)
    ensures a == GetChat <==> b.getchat
    ensures a == NewChat <==> !b.getchat && b.newchat
    ensures a == SaveMessage <==> !b.getchat && !b.newchat && b.saveMessage
    ensures a == CreateNewAccount <==> !b.getchat && !b.newchat && !b.saveMessage && b.createNewAccount
    ensures a == NoAction <==> !b.getchat && !b.newchat && !b.saveMessage && !b.createNewAccount
  {
    if b.getchat then GetChat
    else if b.newchat then NewChat
    else if b.saveMessage then SaveMessage
    else if b.createNewAccount then CreateNewAccount
    else NoAction
  }

  /** A flag of lower priority never changes the choice once a higher one is set. */
  lemma LowerFlagsIgnored(b: Body, newchat: bool, saveMessage: bool, createNewAccount: bool)
    ensures b.getchat ==>
      ChooseAction(b.(newchat := newchat, saveMessage := saveMessage, createNewAccount := createNewAccount)) == GetChat
    ensures b.newchat ==>
      ChooseAction(b.(saveMessage := saveMessage, createNewAccount := createNewAccount)) == ChooseAction(b)
    ensures b.saveMessage ==> ChooseAction(b.(createNewAccount := createNewAccount)) == ChooseAction(b)
  {
  }

  datatype Response =
    | Failure(code: int, error: string)
    | ChatFound(chat: Chat, messages: seq<Message>)
    | ChatOpened(chatId: string)
    | MessageSaved
    | AccountSaved(accountNumber: string)

  /** The error text of a document that fails schema validation. */
  const ValidationFailed := "validation failed"

  /** The first chat with this id (`findById`). */
  function FindChat(chats: seq<Chat>, id: string): (r: Option<nat>)
    ensures r.Some? ==> r.value < |chats| && chats[r.value].id == id
    ensures r.Some? ==> forall k :: 0 <= k < r.value ==> chats[k].id != id
    ensures r.None? <==> forall k :: 0 <= k < |chats| ==> chats[k].id != id
  {
    if chats == [] then None
    else if chats[0].id == id then Some(0)
    else match FindChat(chats[1..], id)
      case None => None
      case Some(k) => Some(k + 1)
  }

  /** The messages of one chat, in insertion order (`find({ chatId })`). */
  function MessagesOf(messages: seq<Message>, chatId: string): (r: seq<Message>)
    ensures forall m :: m in r <==> m in messages && m.chatId == chatId
    ensures |r| <= |messages|
  {
    if messages == [] then []
    else
      var rest := MessagesOf(messages[1..], chatId);
      assert forall m :: m in messages <==> m == messages[0] || m in messages[1..];
      if messages[0].chatId == chatId then [messages[0]] + rest else rest
  }

  /** The messages of a chat keep the order they were saved in. */
  lemma {:induction false} MessagesOfIsSubsequence(messages: seq<Message>, chatId: string)
    ensures IsSubsequence(MessagesOf(messages, chatId), messages)
  {
    if messages != [] {
      MessagesOfIsSubsequence(messages[1..], chatId);
    }
  }

  /** Each message of the chat is listed as often as it was saved, and no other message is. */
  lemma {:induction false} MessagesOfCounts(messages: seq<Message>, chatId: string, m: Message)
    ensures multiset(MessagesOf(messages, chatId))[m] == if m.chatId == chatId then multiset(messages)[m] else 0
  {
    if messages != [] {
      MessagesOfCounts(messages[1..], chatId, m);
      assert messages == [messages[0]] + messages[1..];
    }
  }

  /** `find` with an unset id matches nothing: every document has the field. */
  function MessagesFor(messages: seq<Message>, chatId: Option<string>): seq<Message> {
    if chatId.None? then [] else MessagesOf(messages, chatId.value)
  }

  /** The schema's requirement on a message: a chat id, a sender of "user" or "bot" and
      a non-empty text. */
  predicate ValidMessage(b: Body) {
    Truthy(b.chatId) && b.role in {Some("user"), Some("bot")} && Truthy(b.content)
  }

  /** Every account field is present and non-empty, and so is the chat id that becomes
      the account number. */
  predicate CompleteAccount(b: Body) {
    var f := b.account;
    && Truthy(f.name) && Truthy(f.phone) && Truthy(f.email) && Truthy(f.aadharPhotoUrl)
    && Truthy(f.aadharNo) && Truthy(f.panPhotoUrl) && Truthy(f.panNo) && Truthy(f.address)
    && Truthy(b.chatId)
  }

  function AccountOf(b: Body): UserAccount
    requires CompleteAccount(b)
  {
    var f := b.account;
    UserAccount(f.name.value, f.phone.value, f.email.value, f.aadharPhotoUrl.value, f.aadharNo.value,
                f.panPhotoUrl.value, f.panNo.value, f.address.value, b.chatId.value)
  }

  /** `findByIdAndUpdate(id, { isOpened: false })`: closes the chat with that id, if any. */
  function CloseChat(chats: seq<Chat>, id: string): (r: seq<Chat>)
    ensures |r| == |chats|
    ensures forall k :: 0 <= k < |chats| ==> r[k].id == chats[k].id && r[k].userId == chats[k].userId
    ensures FindChat(chats, id).Some? ==> !r[FindChat(chats, id).value].isOpened
    ensures forall k :: 0 <= k < |chats| && Some(k) != FindChat(chats, id) ==> r[k] == chats[k]
  {
    match FindChat(chats, id)
    case None => chats
    case Some(k) => chats[k := chats[k].(isOpened := false)]
  }

  /** `POST`: `newId` is the id the database gives a new chat. */
  function Post(db: Db, body: Body, newId: string): (r: (Db, Response))
    ensures r.1.Failure? ==> r.0 == db
    ensures ChooseAction(body) == NoAction ==> r.1 == Failure(400, "Invalid action specified in request body")
    ensures ChooseAction(body) == GetChat ==>
      && r.0 == db
      && (r.1 == Failure(404, "Chat not found") <==> body.chatId.None? || FindChat(db.chats, body.chatId.value).None?)
      && (r.1.ChatFound? <==> body.chatId.Some? && FindChat(db.chats, body.chatId.value).Some?)
      && (r.1.ChatFound? ==>
            && r.1.chat == db.chats[FindChat(db.chats, body.chatId.value).value]
            && r.1.messages == MessagesOf(db.messages, body.chatId.value))
    ensures ChooseAction(body) == NewChat ==>
      if Truthy(body.userId)
      then r == (db.(chats := db.chats + [Chat(newId, body.userId.value, true)]), ChatOpened(newId))
      else r.1 == Failure(500, ValidationFailed)
    ensures ChooseAction(body) == SaveMessage ==>
      if ValidMessage(body)
      then r == (db.(messages := db.messages + [Message(body.chatId.value, body.role.value, body.content.value)]), MessageSaved)
      else r.1 == Failure(500, ValidationFailed)
    ensures ChooseAction(body) == CreateNewAccount ==>
      if CompleteAccount(body)
      then && r.1 == AccountSaved(body.chatId.value)
           && r.0.accounts == db.accounts + [AccountOf(body)]
           && r.0.chats == CloseChat(db.chats, body.chatId.value)
           && r.0.messages == db.messages
      else r.1 == Failure(500, ValidationFailed)
  {
    match ChooseAction(body)
    case GetChat =>
      if body.chatId.None? then (db, Failure(404, "Chat not found"))
      else (match FindChat(db.chats, body.chatId.value)
        case None => (db, Failure(404, "Chat not found"))
        case Some(k) => (db, ChatFound(db.chats[k], MessagesOf(db.messages, body.chatId.value))))
    case NewChat =>
      if !Truthy(body.userId) then (db, Failure(500, ValidationFailed))
      else (db.(chats := db.chats + [Chat(newId, body.userId.value, true)]), ChatOpened(newId))
    case SaveMessage =>
      if !ValidMessage(body) then (db, Failure(500, ValidationFailed))
      else
        var m := Message(body.chatId.value, body.role.value, body.content.value);
        (db.(messages := db.messages + [m]), MessageSaved)
    case CreateNewAccount =>
      if !CompleteAccount(body) then (db, Failure(500, ValidationFailed))
      else
        var id := body.chatId.value;
        (db.(accounts := db.accounts + [AccountOf(body)], chats := CloseChat(db.chats, id)), AccountSaved(id))
    case NoAction => (db, Failure(400, "Invalid action specified in request body"))
  }

  /** A chat just opened is found by the id returned, open, owned by the requester and
      without messages, provided the id was new. */
  lemma OpenedChatFound(db: Db, body: Body, newId: string, get: Body)
    requires ChooseAction(body) == NewChat && Truthy(body.userId)
    requires FindChat(db.chats, newId).None?
    requires forall m :: m in db.messages ==> m.chatId != newId
    requires ChooseAction(get) == GetChat && get.chatId == Some(newId)
    ensures Post(Post(db, body, newId).0, get, newId).1 == ChatFound(Chat(newId, body.userId.value, true), [])
  {
    var after := Post(db, body, newId).0;
    FindChatAppended(db.chats, Chat(newId, body.userId.value, true));
    NoMessagesOf(after.messages, newId);
  }

  lemma {:induction false} NoMessagesOf(messages: seq<Message>, chatId: string)
    requires forall m :: m in messages ==> m.chatId != chatId
    ensures MessagesOf(messages, chatId) == []
  {
    if messages != [] {
      NoMessagesOf(messages[1..], chatId);
    }
  }

  lemma {:induction false} FindChatAppended(chats: seq<Chat>, c: Chat)
    requires FindChat(chats, c.id).None?
    ensures FindChat(chats + [c], c.id) == Some(|chats|)
  {
    if chats != [] {
      assert (chats + [c])[1..] == chats[1..] + [c];
      FindChatAppended(chats[1..], c);
    }
  }

  /** Saving the account closes its chat: afterwards `getchat` reports it closed. */
  lemma AccountClosesChat(db: Db, body: Body, newId: string, get: Body)
    requires ChooseAction(body) == CreateNewAccount && CompleteAccount(body)
    requires FindChat(db.chats, body.chatId.value).Some?
    requires ChooseAction(get) == GetChat && get.chatId == body.chatId
    ensures Post(Post(db, body, newId).0, get, newId).1.ChatFound?
    ensures !Post(Post(db, body, newId).0, get, newId).1.chat.isOpened
  {
    var id := body.chatId.value;
    var closed := CloseChat(db.chats, id);
    var k := FindChat(db.chats, id).value;
    assert FindChat(closed, id) == Some(k) by {
      assert forall j :: 0 <= j < k ==> closed[j] == db.chats[j];
    }
  }

  // ---------------------------------------------------------------------------
  // GET
  // ---------------------------------------------------------------------------

  datatype Listing = ChatIds(ids: seq<string>) | Messages(messages: seq<Message>)

  /** Some chat with this id belongs to the user. */
  predicate Owns(chats: seq<Chat>, userId: string, id: string) {
    exists k :: 0 <= k < |chats| && chats[k].userId == userId && chats[k].id == id
  }

  /** The ids of a user's chats, in insertion order. */
  function ChatIdsOf(chats: seq<Chat>, userId: string): (r: seq<string>)
    ensures forall id :: id in r <==> Owns(chats, userId, id)
    ensures |r| <= |chats|
  {
    if chats == [] then []
    else
      var rest := ChatIdsOf(chats[1..], userId);
      forall id
        ensures Owns(chats, userId, id) <==>
          (chats[0].userId == userId && chats[0].id == id) || Owns(chats[1..], userId, id)
      {
        if Owns(chats, userId, id) {
          var k :| 0 <= k < |chats| && chats[k].userId == userId && chats[k].id == id;
          if k > 0 { assert chats[1..][k - 1] == chats[k]; }
        }
        if Owns(chats[1..], userId, id) {
          var k :| 0 <= k < |chats[1..]| && chats[1..][k].userId == userId && chats[1..][k].id == id;
          assert chats[k + 1] == chats[1..][k];
        }
      }
      if chats[0].userId == userId then [chats[0].id] + rest else rest
  }

  /** `GET`: without a chat id (or with an empty one) the ids of the user's chats, one
      entry per chat; otherwise that chat's messages. */
  function Get(db: Db, userId: Option<string>, chatId: Option<string>): (r: Listing)
    ensures !Truthy(chatId) ==> r.ChatIds?
    ensures !Truthy(chatId) && userId.Some? ==> |r.ids| == CountChatsOf(db.chats, userId.value)
    ensures !Truthy(chatId) && userId.Some? ==> forall id :: id in r.ids <==> Owns(db.chats, userId.value, id)
    ensures !Truthy(chatId) && userId.None? ==> r.ids == []
    ensures Truthy(chatId) ==> r == Messages(MessagesOf(db.messages, chatId.value))
  {
    if !Truthy(chatId) then
      match userId
      case None => ChatIds([])
      case Some(u) =>
        ChatIdsCount(db.chats, u);
        ChatIds(ChatIdsOf(db.chats, u))
    else Messages(MessagesOf(db.messages, chatId.value))
  }

  /** The number of chats a user owns. */
  function CountChatsOf(chats: seq<Chat>, userId: string): nat {
    if chats == [] then 0
    else (if chats[0].userId == userId then 1 else 0) + CountChatsOf(chats[1..], userId)
  }

  lemma {:induction false} ChatIdsCount(chats: seq<Chat>, userId: string)
    ensures |ChatIdsOf(chats, userId)| == CountChatsOf(chats, userId)
  {
    if chats != [] {
      ChatIdsCount(chats[1..], userId);
    }
  }
}

=== FILE: js_validators.dfy ===
/**
 * The JavaScript field validators the onboarding agent applies to chat input.
 * They do not normalise their input (apart from `trim` for name and address) and
 * do not checksum the Aadhaar number.
 */
module JsValidators {
  import opened Options
  import opened Text
  import opened Patterns
  import AccountValidator
  import Verhoeff

  const NamePattern: Pattern := [Plus(LettersOrSpace(JavaScript, ""))]
  const DobPattern: Pattern :=
    [Times(Digit, 4), Times(Literal('-'), 1), Times(Digit, 2), Times(Literal('-'), 1), Times(Digit, 2)]
  const PhonePattern: Pattern := [Times(Range('6', '9'), 1), Times(Digit, 9)]
  const AadhaarPattern: Pattern := [Times(Digit, 12)]
  const PanPattern: Pattern := [Times(Upper, 5), Times(Digit, 4), Times(Upper, 1)]

  /** A calendar date as JavaScript's `getFullYear`, `getMonth` and `getDate` report it. */
  datatype Ymd = Ymd(year: int, month: int, day: int)

  /** `validateName`: the trimmed name is only ASCII letters and whitespace and is
      longer than two characters. */
  function ValidateName(name: string): (r: bool)
    ensures r <==> var t := Strip(JavaScript, name);
      |t| > 2 && forall i :: 0 <= i < |t| ==> IsAsciiLetter(t[i]) || IsSpace(JavaScript, t[i])
  {
    var t := Strip(JavaScript, name);
    PlusMatches(LettersOrSpace(JavaScript, ""), t);
    name != [] && Matches(NamePattern, t) && |t| > 2
  }

  /** `YYYY-MM-DD` with ASCII digits. */
  predicate IsDateShape(s: string) {
    && |s| == 10
    && (forall i :: 0 <= i < 10 && i != 4 && i != 7 ==> IsAsciiDigit(s[i]))
    && s[4] == '-' && s[7] == '-'
  }

  lemma DobPatternMeaning(s: string)
    ensures Matches(DobPattern, s) <==> IsDateShape(s)
  {
    var p := DobPattern;
    FixedWidthMatches(p, s);
    assert p[1..][1..][1..][1..][1..] == [];
    assert Width(p) == 10;
    var p1, p2, p3, p4 := p[1..], p[1..][1..], p[1..][1..][1..], p[1..][1..][1..][1..];
    assert p1 == [Times(Literal('-'), 1), Times(Digit, 2), Times(Literal('-'), 1), Times(Digit, 2)];
    assert p2 == [Times(Digit, 2), Times(Literal('-'), 1), Times(Digit, 2)];
    assert p3 == [Times(Literal('-'), 1), Times(Digit, 2)];
    assert p4 == [Times(Digit, 2)];
    forall i | 0 <= i < 10
      ensures ClassAt(p, i) == if i == 4 || i == 7 then Literal('-') else Digit
    {
      if i >= 4 {
        assert ClassAt(p, i) == ClassAt(p1, i - 4);
        if i >= 5 {
          assert ClassAt(p1, i - 4) == ClassAt(p2, i - 5);
          if i >= 7 {
            assert ClassAt(p2, i - 5) == ClassAt(p3, i - 7);
            if i >= 8 {
              assert ClassAt(p3, i - 7) == ClassAt(p4, i - 8);
            }
          }
        }
      }
    }
  }

  /** Completed years between `birth` and `today`: the year difference, less one when
      today's month and day come before the birth month and day. */
  function AgeOn(birth: Ymd, today: Ymd): int {
    var age := today.year - birth.year;
    var monthDiff := today.month - birth.month;
    var dayDiff := today.day - birth.day;
    if monthDiff < 0 || (monthDiff == 0 && dayDiff < 0) then age - 1 else age
  }

  /** `(y1, m1, d1)` is on or before `(y2, m2, d2)`. */
  predicate OnOrBefore(a: Ymd, b: Ymd) {
    a.year < b.year || (a.year == b.year && (a.month < b.month || (a.month == b.month && a.day <= b.day)))
  }

  /** `validateDOB`, with `parsed` what `new Date(dob)` yields (None for an invalid date)
      and `today` the current date: the string must have the `YYYY-MM-DD` shape and the
      person must have turned 18, that is, the 18th birthday is on or before today. */
  function ValidateDOB(dob: string, parsed: Option<Ymd>, today: Ymd): (r: bool)
    ensures r <==> (IsDateShape(dob) && parsed.Some? &&
      OnOrBefore(Ymd(parsed.value.year + 18, parsed.value.month, parsed.value.day), today))
  {
    DobPatternMeaning(dob);
    if dob == [] || !Matches(DobPattern, dob) then false
    else match parsed
      case None => false
      case Some(birth) => AgeOn(birth, today) >= 18
  }

  /** `validatePhone`: exactly ten ASCII digits, the first of them 6 to 9; no trimming. */
  function ValidatePhone(phone: string): (r: bool)
    ensures r <==> |phone| == 10 && '6' <= phone[0] <= '9' && AllDigits(phone)
  {
    var p := PhonePattern;
    FixedWidthMatches(p, phone);
    assert p[1..][1..] == [];
    forall i | 0 <= i < 10 ensures ClassAt(p, i) == if i == 0 then Range('6', '9') else Digit {
      assert p[1..] == [Times(Digit, 9)];
    }
    phone != [] && Matches(p, phone)
  }

  /** `validateAddress`: at least ten UTF-16 code units once trimmed. */
  function ValidateAddress(address: string): (r: bool)
    ensures r <==> Utf16Length(Strip(JavaScript, address)) >= 10
    ensures |Strip(JavaScript, address)| >= 10 ==> r
  {
    address != [] && Utf16Length(Strip(JavaScript, address)) >= 10
  }

  /** `validateAadhaar`: exactly twelve ASCII digits; no separators, no checksum. */
  function ValidateAadhaar(aadhaar: string): (r: bool)
    ensures r <==> |aadhaar| == 12 && AllDigits(aadhaar)
  {
    FixedWidthMatches(AadhaarPattern, aadhaar);
    assert AadhaarPattern[1..] == [];
    aadhaar != [] && Matches(AadhaarPattern, aadhaar)
  }

  /** `validatePAN`: exactly `[A-Z]{5}[0-9]{4}[A-Z]`, case-sensitive, no trimming. */
  function ValidatePAN(pan: string): (r: bool)
    ensures r <==> AccountValidator.IsPanShape(pan)
  {
    AccountValidator.PanPatternMeaning(pan);
    pan != [] && Matches(PanPattern, pan)
  }

  // ---------------------------------------------------------------------------
  // Relations with the Python validators
  // ---------------------------------------------------------------------------

  /** Every PAN the JavaScript check accepts, the Python check accepts too. */
  lemma JsPanAcceptedByPython(pan: string)
    requires ValidatePAN(pan)
    ensures AccountValidator.ValidatePan(pan)
  {
    StripUnchanged(Python, pan);
    assert AsciiUpper(pan) == pan;
  }

  /** The converse fails: the Python check upper-cases and strips first. */
  lemma PythonPanNotAcceptedByJs()
    ensures AccountValidator.ValidatePan(" abcde1234f") && !ValidatePAN(" abcde1234f")
  {
    PaddedPanStrips();
    LowerPanUppers();
    assert !IsAsciiUpper(" abcde1234f"[0]);
  }

  lemma PaddedPanStrips()
    ensures Strip(Python, " abcde1234f") == "abcde1234f"
  {
    var s := " abcde1234f";
    var t := s[1..];
    assert t == "abcde1234f";
    assert !IsSpace(Python, t[0]) && !IsSpace(Python, t[9]);
    assert TrimStart(Python, s) == TrimStart(Python, t);
    StripUnchanged(Python, t);
  }

  lemma LowerPanUppers()
    ensures AccountValidator.IsPanShape(AsciiUpper("abcde1234f"))
  {
    var u := AsciiUpper("abcde1234f");
    assert u[0] == 'A' && u[1] == 'B' && u[2] == 'C' && u[3] == 'D' && u[4] == 'E';
    assert u[5] == '1' && u[6] == '2' && u[7] == '3' && u[8] == '4' && u[9] == 'F';
  }

  /** On an unseparated twelve-digit string the Python check is the JavaScript check
      plus the Verhoeff checksum. */
  lemma AadhaarChecksAgreeOnDigits(s: string)
    requires ValidateAadhaar(s)
    ensures AccountValidator.ValidateAadhar(s) <==> Verhoeff.Valid(s)
  {
    AccountValidator.RemoveSeparatorsDigits(s);
  }

  lemma PlainAadhaarValid()
    ensures ValidateAadhaar(ExampleAadhaar) && Verhoeff.Valid(ExampleAadhaar)
  {
    ExampleShape();
    var r := ExampleDigits();
    ExampleChecksumFirstHalf(r);
    ExampleChecksumSecondHalf(r);
    assert r[..12] == r;
  }

  lemma ExampleShape()
    ensures ValidateAadhaar(ExampleAadhaar)
  {
  }

  /** The example's digits, last digit first. */
  lemma ExampleDigits() returns (r: seq<Verhoeff.Digit>)
    requires AllDigits(ExampleAadhaar)
    ensures r == Verhoeff.ReversedDigits(ExampleAadhaar)
    ensures |r| == 12 && r[0] == 6 && r[1] == 4 && r[2] == 3 && r[3] == 2 && r[4] == 1 && r[5] == 4
    ensures r[6] == 3 && r[7] == 2 && r[8] == 1 && r[9] == 4 && r[10] == 3 && r[11] == 2
  {
    r := Verhoeff.ReversedDigits(ExampleAadhaar);
  }

  lemma ExampleChecksumFirstHalf(r: seq<Verhoeff.Digit>)
    requires |r| == 12 && r[0] == 6 && r[1] == 4 && r[2] == 3 && r[3] == 2 && r[4] == 1 && r[5] == 4
    ensures Verhoeff.Checksum(r[..6]) == 1
  {
    FirstHalfSteps();
    assert r[..0] == [];
    Verhoeff.ChecksumPrefix(r, 0);
    Verhoeff.ChecksumPrefix(r, 1);
    Verhoeff.ChecksumPrefix(r, 2);
    Verhoeff.ChecksumPrefix(r, 3);
    Verhoeff.ChecksumPrefix(r, 4);
    Verhoeff.ChecksumPrefix(r, 5);
  }

  lemma FirstHalfSteps()
    ensures Verhoeff.Step(0, 0, 6) == 6 && Verhoeff.Step(6, 1, 4) == 9 && Verhoeff.Step(9, 2, 3) == 6
    ensures Verhoeff.Step(6, 3, 2) == 5 && Verhoeff.Step(5, 4, 1) == 6 && Verhoeff.Step(6, 5, 4) == 1
  {
  }

  lemma ExampleChecksumSecondHalf(r: seq<Verhoeff.Digit>)
    requires |r| == 12 && r[6] == 3 && r[7] == 2 && r[8] == 1 && r[9] == 4 && r[10] == 3 && r[11] == 2
    requires Verhoeff.Checksum(r[..6]) == 1
    ensures Verhoeff.Checksum(r[..12]) == 0
  {
    SecondHalfSteps();
    Verhoeff.ChecksumPrefix(r, 6);
    Verhoeff.ChecksumPrefix(r, 7);
    Verhoeff.ChecksumPrefix(r, 8);
    Verhoeff.ChecksumPrefix(r, 9);
    Verhoeff.ChecksumPrefix(r, 10);
    Verhoeff.ChecksumPrefix(r, 11);
  }

  lemma SecondHalfSteps()
    ensures Verhoeff.Step(1, 6, 3) == 4 && Verhoeff.Step(4, 7, 2) == 3 && Verhoeff.Step(3, 8, 1) == 4
    ensures Verhoeff.Step(4, 9, 4) == 1 && Verhoeff.Step(1, 10, 3) == 4 && Verhoeff.Step(4, 11, 2) == 0
  {
  }

  /** An Aadhaar-shaped number that passes the Verhoeff check. */
  const ExampleAadhaar: string := "234123412346"

  /** The Python check accepts the grouped form `2341 2341 2346` of a valid number;
      the JavaScript check rejects it. */
  lemma GroupedAadhaarAcceptedOnlyByPython()
    ensures |ExampleAadhaar| == 12
    ensures AccountValidator.ValidateAadhar(Grouped(ExampleAadhaar))
    ensures !ValidateAadhaar(Grouped(ExampleAadhaar))
  {
    GroupedAcceptedByPython();
    GroupedRejectedByJs();
  }

  lemma GroupedAcceptedByPython()
    ensures AccountValidator.ValidateAadhar(Grouped(ExampleAadhaar))
  {
    PlainAadhaarValid();
    AadhaarChecksAgreeOnDigits(ExampleAadhaar);
    GroupedKeepsVerdict(ExampleAadhaar);
  }

  lemma GroupedRejectedByJs()
    ensures !ValidateAadhaar(Grouped(ExampleAadhaar))
  {
    assert Grouped(ExampleAadhaar)[4] == ' ';
  }

  /** A twelve-digit number written in the usual groups of four. */
  function Grouped(s: string): (g: string)
    requires |s| == 12
  {
    s[..4] + " " + s[4..8] + " " + s[8..]
  }

  lemma GroupedKeepsVerdict(s: string)
    requires |s| == 12
    ensures AccountValidator.ValidateAadhar(Grouped(s)) == AccountValidator.ValidateAadhar(s)
  {
    var once := s[..8] + [' '] + s[8..];
    AccountValidator.InsertSeparatorKeepsVerdict(s, 8, ' ');
    assert once[..4] + [' '] + once[4..] == Grouped(s);
    AccountValidator.InsertSeparatorKeepsVerdict(once, 4, ' ');
  }
}

=== FILE: loan_model.dfy ===
/**
 * The loan collection: insertion guarded by a unique loan id and, for applicants
 * without an account, by PAN and phone and a pending-application check; lookup by
 * id and by PAN or phone; and status updates.  The collection is a sequence of
 * documents in insertion order.
 */
module LoanModel {
  import opened Options
  import opened Sequences

  const Approved := "APPROVED"
  const Rejected := "REJECTED"
  const PendingSalaryVerification := "PENDING_SALARY_VERIFICATION"
  /** The status the duplicate-application check looks for. */
  const Pending := "PENDING"

  /** The fields salary verification adds to a loan. */
  datatype Verification = Verification(salary: real, emi: real, reason: string)

  datatype Loan = Loan(
    loanId: string,
    accountNumber: Option<string>,
    pan: Option<string>,
    phone: Option<string>,
    amount: real,
    limit: real,
    creditScore: int,
    status: string,
    decisionMessage: string,
    createdAt: Option<int>,
    customerType: Option<string>,
    updatedAt: Option<int>,
    verification: Option<Verification>)

  type Loans = seq<Loan>

  /** The position of the first loan with this id (`find_one({"loan_id": id})`). */
  function FindById(loans: Loans, loanId: string): (r: Option<nat>)
    ensures r.Some? ==> r.value < |loans| && loans[r.value].loanId == loanId
    ensures r.Some? ==> forall j :: 0 <= j < r.value ==> loans[j].loanId != loanId
    ensures r.None? <==> forall j :: 0 <= j < |loans| ==> loans[j].loanId != loanId
  {
    if loans == [] then None
    else if loans[0].loanId == loanId then Some(0)
    else match FindById(loans[1..], loanId)
      case None => None
      case Some(i) => Some(i + 1)
  }

  /** An application by this PAN with status exactly "PENDING" is on file. */
  predicate HasPendingFor(loans: Loans, pan: Option<string>) {
    exists j :: 0 <= j < |loans| && loans[j].pan == pan && loans[j].status == Pending
  }

  /** A new-to-bank applicant gave both PAN and phone. */
  predicate HasContact(data: Loan) {
    Truthy(data.pan) && Truthy(data.phone)
  }

  /** `create_loan`: the stored document, or the error the insert raised. */
  function CreateLoan(loans: Loans, data: Loan, now: int): (r: Result<(Loans, Loan)>)
    ensures FindById(loans, data.loanId).Some? ==> r == Err("Loan ID already exists")
    ensures FindById(loans, data.loanId).None? && !Truthy(data.accountNumber) && !HasContact(data) ==>
      r == Err("For non-account holders, PAN and Phone are mandatory.")
    ensures FindById(loans, data.loanId).None? && !Truthy(data.accountNumber) && HasContact(data) ==>
      (HasPendingFor(loans, data.pan) ==> r == Err("An active loan application already exists for this PAN."))
    ensures r.Ok? <==>
      && FindById(loans, data.loanId).None?
      && (!Truthy(data.accountNumber) ==> HasContact(data) && !HasPendingFor(loans, data.pan))
    ensures r.Ok? ==>
      var (after, created) := r.value;
      && after == loans + [created]
      && created == data.(createdAt := Some(data.createdAt.GetOr(now)),
                          customerType := Some(if Truthy(data.accountNumber) then "EXISTING" else "NTB"))
  {
    if FindById(loans, data.loanId).Some? then Err("Loan ID already exists")
    else if !Truthy(data.accountNumber) && !HasContact(data) then
      Err("For non-account holders, PAN and Phone are mandatory.")
    else if !Truthy(data.accountNumber) && HasPendingFor(loans, data.pan) then
      Err("An active loan application already exists for this PAN.")
    else
      var created := data.(createdAt := Some(data.createdAt.GetOr(now)),
                           customerType := Some(if Truthy(data.accountNumber) then "EXISTING" else "NTB"));
      Ok((loans + [created], created))
  }

  /** Inserting through `CreateLoan` keeps loan ids unique. */
  predicate UniqueIds(loans: Loans) {
    forall i, j :: 0 <= i < j < |loans| ==> loans[i].loanId != loans[j].loanId
  }

  lemma CreateLoanKeepsIdsUnique(loans: Loans, data: Loan, now: int)
    requires UniqueIds(loans)
    requires CreateLoan(loans, data, now).Ok?
    ensures UniqueIds(CreateLoan(loans, data, now).value.0)
  {
    var after := CreateLoan(loans, data, now).value.0;
    forall i, j | 0 <= i < j < |after| ensures after[i].loanId != after[j].loanId {
      if j == |loans| {
        assert after[i] == loans[i];
      }
    }
  }

  /** `get_loan_by_id`. */
  function GetLoanById(loans: Loans, loanId: string): (r: Option<Loan>)
    ensures r.Some? ==> r.value in loans && r.value.loanId == loanId
    ensures r.None? <==> forall l :: l in loans ==> l.loanId != loanId
  {
    match FindById(loans, loanId)
    case None => None
    case Some(i) => Some(loans[i])
  }

  /** The loan's PAN or phone equals the identifier. */
  predicate MatchesIdentifier(l: Loan, identifier: string) {
    l.pan == Some(identifier) || l.phone == Some(identifier)
  }

  /** `get_loans_by_identifier`: the loans whose PAN or phone is the identifier, in
      collection order. */
  function GetLoansByIdentifier(loans: Loans, identifier: string): (r: Loans)
    ensures forall l :: l in r <==> l in loans && MatchesIdentifier(l, identifier)
    ensures |r| <= |loans|
  {
    if loans == [] then []
    else
      var rest := GetLoansByIdentifier(loans[1..], identifier);
      assert forall l :: l in loans <==> l == loans[0] || l in loans[1..];
      if MatchesIdentifier(loans[0], identifier) then [loans[0]] + rest else rest
  }

  /** The identifier lookup keeps the collection order: it is a subsequence of it. */
  lemma {:induction false} ByIdentifierIsSubsequence(loans: Loans, identifier: string)
    ensures IsSubsequence(GetLoansByIdentifier(loans, identifier), loans)
  {
    if loans != [] {
      ByIdentifierIsSubsequence(loans[1..], identifier);
    }
  }

  /** Every matching loan is returned as often as it is stored, and no other loan is. */
  lemma {:induction false} ByIdentifierCounts(loans: Loans, identifier: string, l: Loan)
    ensures multiset(GetLoansByIdentifier(loans, identifier))[l] ==
      if MatchesIdentifier(l, identifier) then multiset(loans)[l] else 0
  {
    if loans != [] {
      ByIdentifierCounts(loans[1..], identifier, l);
      assert loans == [loans[0]] + loans[1..];
    }
  }

  /** `update_status`: the first loan with this id gets the new status, `updated_at`
      and (when given) the verification fields; the result says whether the document
      changed (MongoDB's `modified_count > 0`). */
  function UpdateStatus(loans: Loans, loanId: string, status: string, extra: Option<Verification>, now: int): (r: (Loans, bool))
    ensures |r.0| == |loans|
    ensures FindById(loans, loanId).None? ==> r == (loans, false)
    ensures FindById(loans, loanId).Some? ==>
      var i := FindById(loans, loanId).value;
      && r.0[i].status == status && r.0[i].updatedAt == Some(now)
      && r.0[i].verification == (if extra.Some? then extra else loans[i].verification)
      && r.0[i] == loans[i].(status := r.0[i].status, updatedAt := r.0[i].updatedAt, verification := r.0[i].verification)
      && (forall j :: 0 <= j < |loans| && j != i ==> r.0[j] == loans[j])
      && (r.1 <==> r.0[i] != loans[i])
  {
    match FindById(loans, loanId)
    case None => (loans, false)
    case Some(i) =>
      var prev := loans[i];
      var updated := prev.(status := status, updatedAt := Some(now),
                          verification := if extra.Some? then extra else prev.verification);
      (loans[i := updated], updated != prev)
  }
}

=== FILE: loan_server.dfy ===
/**
 * The loan tools: applying for a loan (a decision from credit score, amount and
 * pre-approved limit, then an insert), verifying the salary of a pending
 * application, and looking applications up by loan id, PAN or phone.  The credit
 * score, the generated UUID, the clock, the EMI and the rendering of floats are
 * parameters.
 */
module LoanServer {
  import opened Options
  import opened Text
  import opened LoanModel

  /** The mock credit score is drawn from 550..900 inclusive. */
  type CreditScore = x: int | 550 <= x <= 900 witness 550

  datatype Decision = Decision(status: string, message: string)

  /** The three statuses an application is created with. */
  predicate IsDecisionStatus(s: string) {
    s == Approved || s == Rejected || s == PendingSalaryVerification
  }

  /** The decision matrix of `apply_for_loan`; `fmt` renders a float as Python's `str`. */
  function Decide(score: CreditScore, amount: real, limit: real, fmt: real -> string): (d: Decision)
    ensures IsDecisionStatus(d.status)
    ensures d.status == Rejected <==> score < 700 || amount > 2.0 * limit
    ensures d.status == Approved <==> score >= 700 && amount <= 2.0 * limit && amount <= limit
    ensures d.status == PendingSalaryVerification <==> score >= 700 && limit < amount <= 2.0 * limit
  {
    StatusesDistinct();
    if score < 700 then Decision(Rejected, LowScoreMessage(NatToDecimal(score)))
    else if amount > 2.0 * limit then Decision(Rejected, OverLimitMessage(fmt(amount), fmt(limit)))
    else if amount <= limit then Decision(Approved, InstantMessage(NatToDecimal(score)))
    else Decision(PendingSalaryVerification, PendingMessage(NatToDecimal(score)))
  }

  function LowScoreMessage(shown: string): string {
    "REJECTED. Credit Score (" + shown + ") is below the minimum requirement of 700."
  }

  function OverLimitMessage(amount: string, limit: string): string {
    "REJECTED. Loan amount (" + amount + ") exceeds 2x the pre-approved limit (" + limit + ")."
  }

  function InstantMessage(shown: string): string {
    "APPROVED INSTANTLY. Credit Score: " + shown + ". Amount is within pre-approved limit."
  }

  function PendingMessage(shown: string): string {
    "PENDING_SALARY_VERIFICATION. Credit Score: " + shown + ". Loan amount is > limit but <= 2x limit. "
    + "Action Required: Please call 'verify_salary_eligibility' with loan_id and monthly_salary."
  }

  lemma StatusesDistinct()
    ensures Approved != Rejected && Rejected != PendingSalaryVerification && Approved != PendingSalaryVerification
  {
    assert Approved[0] != Rejected[0] && Rejected[0] != PendingSalaryVerification[0];
    assert Approved[0] != PendingSalaryVerification[0];
  }

  /** With a non-negative limit, a good score and an amount within the limit is approved
      instantly, and an amount within twice the limit is never rejected. */
  lemma GoodScoreWithinLimit(score: CreditScore, amount: real, limit: real, fmt: real -> string)
    requires score >= 700 && limit >= 0.0
    ensures amount <= limit ==> Decide(score, amount, limit, fmt).status == Approved
    ensures amount <= 2.0 * limit ==> Decide(score, amount, limit, fmt).status != Rejected
  {
  }

  /** The over-twice-the-limit test comes first: with a negative limit an amount within
      the limit can still be rejected. */
  lemma NegativeLimitRejectsWithinLimit(fmt: real -> string)
    ensures Decide(700, -1.5, -1.0, fmt).status == Rejected
  {
  }

  /** `LN-` and the first eight hex digits of a UUID, upper-cased. */
  function LoanId(uuidHex: string): (id: string)
    ensures StartsWith(id, "LN-")
    ensures |uuidHex| >= 8 ==> |id| == 11
  {
    "LN-" + AsciiUpper(Take(uuidHex, 8))
  }

  datatype ApplyReply =
    | Applied(status: string, loanId: string, message: string, loan: Loan)
    | ApplyError(message: string)

  /** `apply_for_loan`. */
  function ApplyForLoan(loans: Loans, amount: real, limit: real, pan: string, phone: string,
                        accountNumber: Option<string>, uuidHex: string, score: CreditScore,
                        now: int, fmt: real -> string): (r: (Loans, ApplyReply))
    ensures r.1.ApplyError? ==> r.0 == loans
    ensures r.1.Applied? <==>
      && FindById(loans, LoanId(uuidHex)).None?
      && (!Truthy(accountNumber) ==> pan != "" && phone != "" && !HasPendingFor(loans, Some(pan)))
    ensures FindById(loans, LoanId(uuidHex)).Some? ==> r == (loans, ApplyError("Loan ID already exists"))
    ensures r.1.Applied? ==>
      var loan := r.1.loan;
      && r.0 == loans + [loan]
      && r.1.loanId == LoanId(uuidHex) == loan.loanId
      && r.1.status == loan.status == Decide(score, amount, limit, fmt).status
      && r.1.message == loan.decisionMessage == Decide(score, amount, limit, fmt).message
      && loan.pan == Some(pan) && loan.phone == Some(phone) && loan.accountNumber == accountNumber
      && loan.amount == amount && loan.limit == limit && loan.creditScore == score
      && loan.createdAt == Some(now) && loan.updatedAt.None? && loan.verification.None?
      && loan.customerType == Some(if Truthy(accountNumber) then "EXISTING" else "NTB")
  {
    var d := Decide(score, amount, limit, fmt);
    var payload := Loan(LoanId(uuidHex), accountNumber, Some(pan), Some(phone), amount, limit,
                        score, d.status, d.message, None, None, None, None);
    assert HasContact(payload) <==> pan != "" && phone != "";
    match CreateLoan(loans, payload, now)
    case Err(e) => (loans, ApplyError(e))
    case Ok((after, created)) => (after, Applied(d.status, payload.loanId, d.message, created))
  }

  datatype VerifyReply =
    | SalaryVerified(loanId: string, newStatus: string, message: string)
    | VerifyError(error: string)

  /** `verify_salary_eligibility`; `emi` is the EMI of a loan amount. */
  function VerifySalary(loans: Loans, loanId: string, salary: real, emi: real -> real,
                        now: int, fmt: real -> string): (r: (Loans, VerifyReply))
    ensures GetLoanById(loans, loanId).None? ==> r == (loans, VerifyError("Loan ID not found"))
    ensures GetLoanById(loans, loanId).Some? && GetLoanById(loans, loanId).value.status != PendingSalaryVerification ==>
      r == (loans, VerifyError("Cannot verify salary. Current status is " + GetLoanById(loans, loanId).value.status + "."))
    ensures r.1.SalaryVerified? <==>
      GetLoanById(loans, loanId).Some? && GetLoanById(loans, loanId).value.status == PendingSalaryVerification
    ensures r.1.SalaryVerified? ==>
      var e := emi(GetLoanById(loans, loanId).value.amount);
      && r.1.loanId == loanId
      && (r.1.newStatus == Approved <==> e <= salary * 0.5)
      && (r.1.newStatus == Rejected <==> e > salary * 0.5)
      && r.0 == UpdateStatus(loans, loanId, r.1.newStatus, Some(Verification(salary, e, r.1.message)), now).0
  {
    match GetLoanById(loans, loanId)
    case None => (loans, VerifyError("Loan ID not found"))
    case Some(loan) =>
      if loan.status != PendingSalaryVerification then
        (loans, VerifyError("Cannot verify salary. Current status is " + loan.status + "."))
      else
        var e := emi(loan.amount);
        var threshold := salary * 0.5;
        var (status, reason) :=
          if e <= threshold then
            (Approved, "APPROVED. Salary verification successful. EMI (" + fmt(e) + ") is within 50% of salary (" + fmt(salary) + ").")
          else
            (Rejected, "REJECTED. High Debt-to-Income ratio. Estimated EMI (" + fmt(e) + ") exceeds 50% of monthly salary (" + fmt(salary) + ").");
        var (after, _) := UpdateStatus(loans, loanId, status, Some(Verification(salary, e, reason)), now);
        (after, SalaryVerified(loanId, status, reason))
  }

  datatype StatusReply = Found(loans: Loans) | NoApplications

  /** `get_loan_status`: an `LN-` identifier is first looked up as a loan id; otherwise,
      or when no loan has that id, the loans with that PAN or phone. */
  function GetLoanStatus(loans: Loans, identifier: string): (r: StatusReply)
    ensures StartsWith(identifier, "LN-") && GetLoanById(loans, identifier).Some? ==>
      r == Found([GetLoanById(loans, identifier).value])
    ensures !(StartsWith(identifier, "LN-") && GetLoanById(loans, identifier).Some?) ==>
      (r.NoApplications? <==> forall l :: l in loans ==> !MatchesIdentifier(l, identifier))
    ensures !(StartsWith(identifier, "LN-") && GetLoanById(loans, identifier).Some?) && r.Found? ==>
      r.loans == GetLoansByIdentifier(loans, identifier)
  {
    if StartsWith(identifier, "LN-") && GetLoanById(loans, identifier).Some? then
      Found([GetLoanById(loans, identifier).value])
    else
      var found := GetLoansByIdentifier(loans, identifier);
      if found == [] then NoApplications
      else
        assert found[0] in found;
        Found(found)
  }

  /** A successful application can be looked up by the loan id it returned, and the
      lookup finds exactly that loan. */
  lemma AppliedLoanFoundById(loans: Loans, amount: real, limit: real, pan: string, phone: string,
                             accountNumber: Option<string>, uuidHex: string, score: CreditScore,
                             now: int, fmt: real -> string)
    requires ApplyForLoan(loans, amount, limit, pan, phone, accountNumber, uuidHex, score, now, fmt).1.Applied?
    ensures var (after, reply) := ApplyForLoan(loans, amount, limit, pan, phone, accountNumber, uuidHex, score, now, fmt);
      GetLoanStatus(after, reply.loanId) == Found([reply.loan])
  {
    var (after, reply) := ApplyForLoan(loans, amount, limit, pan, phone, accountNumber, uuidHex, score, now, fmt);
    assert FindById(after, reply.loanId) == Some(|loans|) by {
      FindAppended(loans, reply.loan);
    }
  }

  lemma {:induction false} FindAppended(loans: Loans, loan: Loan)
    requires FindById(loans, loan.loanId).None?
    ensures FindById(loans + [loan], loan.loanId) == Some(|loans|)
  {
    if loans != [] {
      assert (loans + [loan])[1..] == loans[1..] + [loan];
      FindAppended(loans[1..], loan);
    }
  }

  // ---------------------------------------------------------------------------
  // Invariants of the loan collection
  // ---------------------------------------------------------------------------

  /** Every stored loan has one of the statuses the tools write. */
  predicate StatusesFromTools(loans: Loans) {
    forall j :: 0 <= j < |loans| ==> IsDecisionStatus(loans[j].status)
  }

  /** Applying and verifying only ever store the three decision statuses. */
  lemma ToolsKeepStatuses(loans: Loans, amount: real, limit: real, pan: string, phone: string,
                          accountNumber: Option<string>, uuidHex: string, score: CreditScore,
                          loanId: string, salary: real, emi: real -> real, now: int, fmt: real -> string)
    requires StatusesFromTools(loans)
    ensures StatusesFromTools(ApplyForLoan(loans, amount, limit, pan, phone, accountNumber, uuidHex, score, now, fmt).0)
    ensures StatusesFromTools(VerifySalary(loans, loanId, salary, emi, now, fmt).0)
  {
    ApplyKeepsStatuses(loans, amount, limit, pan, phone, accountNumber, uuidHex, score, now, fmt);
    VerifyKeepsStatuses(loans, loanId, salary, emi, now, fmt);
  }

  lemma ApplyKeepsStatuses(loans: Loans, amount: real, limit: real, pan: string, phone: string,
                           accountNumber: Option<string>, uuidHex: string, score: CreditScore,
                           now: int, fmt: real -> string)
    requires StatusesFromTools(loans)
    ensures StatusesFromTools(ApplyForLoan(loans, amount, limit, pan, phone, accountNumber, uuidHex, score, now, fmt).0)
  {
  }

  lemma VerifyKeepsStatuses(loans: Loans, loanId: string, salary: real, emi: real -> real, now: int, fmt: real -> string)
    requires StatusesFromTools(loans)
    ensures StatusesFromTools(VerifySalary(loans, loanId, salary, emi, now, fmt).0)
  {
    var after := VerifySalary(loans, loanId, salary, emi, now, fmt);
    if after.1.SalaryVerified? {
      var e := emi(GetLoanById(loans, loanId).value.amount);
      UpdateKeepsStatuses(loans, loanId, after.1.newStatus, Some(Verification(salary, e, after.1.message)), now);
    }
  }

  /** Updating to a decision status keeps every status a decision status. */
  lemma UpdateKeepsStatuses(loans: Loans, loanId: string, status: string, extra: Option<Verification>, now: int)
    requires StatusesFromTools(loans) && IsDecisionStatus(status)
    ensures StatusesFromTools(UpdateStatus(loans, loanId, status, extra, now).0)
  {
    var after := UpdateStatus(loans, loanId, status, extra, now).0;
    forall j | 0 <= j < |after| ensures IsDecisionStatus(after[j].status) {
      if FindById(loans, loanId).None? || j != FindById(loans, loanId).value {
        assert after[j] == loans[j];
      }
    }
  }

  /** So the duplicate-application guard, which looks for status "PENDING", never fires
      on a collection written only by these tools. */
  lemma PendingGuardNeverFires(loans: Loans, pan: Option<string>)
    requires StatusesFromTools(loans)
    ensures !HasPendingFor(loans, pan)
  {
  }

  /** Verification settles an application: once it succeeds, the same loan cannot be
      verified again. */
  lemma VerifyOnlyOnce(loans: Loans, loanId: string, salary: real, salary2: real, emi: real -> real,
                       now: int, now2: int, fmt: real -> string)
    requires VerifySalary(loans, loanId, salary, emi, now, fmt).1.SalaryVerified?
    ensures VerifySalary(VerifySalary(loans, loanId, salary, emi, now, fmt).0, loanId, salary2, emi, now2, fmt).1.VerifyError?
  {
    var first := VerifySalary(loans, loanId, salary, emi, now, fmt);
    var i := FindById(loans, loanId).value;
    assert FindById(first.0, loanId) == Some(i) by {
      assert forall j :: 0 <= j < i ==> first.0[j] == loans[j];
    }
  }
}

=== FILE: master_agent.dfy ===
/**
 * The deterministic part of the onboarding agent: each chat message is checked
 * against the validator of the current step; a valid answer is stored and the
 * step advances by one, an invalid one leaves the record as it was.  Afterwards
 * the status is derived from the step.
 */
module MasterAgent {
  import opened Options
  import opened Onboarding
  import JsValidators

  datatype Action = Continue | RequestUpload | Complete

  /** What the agent returns: a message, an action for the front end and, for an
      upload request, the document type (the next step). */
  datatype Reply = Reply(message: string, action: Action, docType: Option<Step>)

  /** `new Date(s)` as a calendar date and the current date, both supplied by the caller. */
  datatype Clock = Clock(parseDate: string -> Option<JsValidators.Ymd>, today: JsValidators.Ymd)

  /** The marks that open an accepting and a rejecting reply. */
  const CheckMark := "\U{2705}"
  const WarningSign := "\U{26A0}\U{FE0F}"

  const NameAccepted := CheckMark + " Thank you! Now, please provide your date of birth in YYYY-MM-DD format (e.g., 1995-06-15):"
  const NameRejected := WarningSign + " The input you provided seems incorrect. Please enter a valid full name (letters and spaces only, no numbers)."
  const DobAccepted := CheckMark + " Great! Now, please provide your 10-digit phone number:"
  const DobRejected := WarningSign + " The input you provided seems incorrect. Please enter a valid date of birth in YYYY-MM-DD format. You must be at least 18 years old."
  const PhoneAccepted := CheckMark + " Perfect! Now, please provide your complete address (minimum 10 characters):"
  const PhoneRejected := WarningSign + " The input you provided seems incorrect. Please enter a valid 10-digit Indian phone number starting with 6-9."
  const AddressAccepted := CheckMark + " Excellent! Now I need your Aadhaar document. Please upload your Aadhaar (PDF or XML format):"
  const AddressRejected := WarningSign + " The input you provided seems incorrect. Please enter a valid address with at least 10 characters."

  /** The steps the agent answers itself: the four typed personal details. */
  predicate IsTextStep(s: Step) {
    s == Name || s == Dob || s == Phone || s == Address
  }

  /** The step after a typed detail. */
  function NextStep(s: Step): (n: Step)
    requires IsTextStep(s)
    ensures StepIndex(n) == StepIndex(s) + 1
  {
    match s
    case Name => Dob
    case Dob => Phone
    case Phone => Address
    case Address => Aadhaar
  }

  /** The validator for a typed detail. */
  predicate Accepts(s: Step, msg: string, clock: Clock)
    requires IsTextStep(s)
  {
    match s
    case Name => JsValidators.ValidateName(msg)
    case Dob => JsValidators.ValidateDOB(msg, clock.parseDate(msg), clock.today)
    case Phone => JsValidators.ValidatePhone(msg)
    case Address => JsValidators.ValidateAddress(msg)
  }

  /** The reply to a typed detail the validator accepts: thanks and the next question. */
  function AcceptedText(s: Step): string
    requires IsTextStep(s)
  {
    match s
    case Name => NameAccepted
    case Dob => DobAccepted
    case Phone => PhoneAccepted
    case Address => AddressAccepted
  }

  /** The reply to a typed detail the validator rejects: a warning and the same question again. */
  function RejectedText(s: Step): string
    requires IsTextStep(s)
  {
    match s
    case Name => NameRejected
    case Dob => DobRejected
    case Phone => PhoneRejected
    case Address => AddressRejected
  }

  /** The data with the field for a typed detail set to `msg`. */
  function Store(d: Data, s: Step, msg: string): (r: Data)
    requires IsTextStep(s)
  {
    match s
    case Name => d.(fullName := Some(msg))
    case Dob => d.(dob := Some(msg))
    case Phone => d.(phone := Some(msg))
    case Address => d.(address := Some(msg))
  }

  /** The field a typed detail is stored in. */
  function Field(d: Data, s: Step): Option<string>
    requires IsTextStep(s)
  {
    match s
    case Name => d.fullName
    case Dob => d.dob
    case Phone => d.phone
    case Address => d.address
  }

  /** Storing a detail sets its field and no other. */
  lemma StoreSetsOnlyItsField(d: Data, s: Step, t: Step, msg: string)
    requires IsTextStep(s) && IsTextStep(t)
    ensures Field(Store(d, s, msg), s) == Some(msg)
    ensures t != s ==> Field(Store(d, s, msg), t) == Field(d, t)
    ensures Store(d, s, msg).email == d.email && Store(d, s, msg).aadhaarUrl == d.aadhaarUrl
    ensures Store(d, s, msg).panUrl == d.panUrl && Store(d, s, msg).accountNumber == d.accountNumber
  {
  }

  /** The status the record is saved with once the step is `next`. */
  function DerivedStatus(next: Step, current: Status): (st: Status)
    ensures (next == Aadhaar || next == Pan) ==> st == KycPending
    ensures next == Final ==> st == current
    ensures next != Aadhaar && next != Pan && next != Final ==> st == PersonalPending
  {
    if next == Aadhaar || next == Pan then KycPending
    else if next != Final then PersonalPending
    else current
  }

  /** A record whose status agrees with its step the way the agent saves it. */
  predicate StatusFitsStep(r: Record) {
    r.step != Final ==> r.status == DerivedStatus(r.step, r.status)
  }

  /** The step-transition core of `processMasterAgentMessage` on an already loaded record. */
  function Advance(rec: Record, msg: string, clock: Clock): (r: (Record, Reply))
    ensures r.0.userId == rec.userId && r.0.flow == rec.flow
    ensures r.0.status == DerivedStatus(r.0.step, rec.status)
    ensures IsTextStep(rec.step) && Accepts(rec.step, msg, clock) ==>
      r.0.step == NextStep(rec.step) && r.0.data == Store(rec.data, rec.step, msg)
    ensures !(IsTextStep(rec.step) && Accepts(rec.step, msg, clock)) ==>
      r.0.step == rec.step && r.0.data == rec.data && r.1.action == Continue
    ensures IsTextStep(rec.step) ==>
      r.1.message == (if Accepts(rec.step, msg, clock) then AcceptedText(rec.step) else RejectedText(rec.step))
    ensures !IsTextStep(rec.step) ==> r.1.message == []
    ensures r.1.action == RequestUpload <==> rec.step == Address && Accepts(Address, msg, clock)
    ensures r.1.action != Complete
    ensures r.1.docType == (if r.1.action == RequestUpload then Some(r.0.step) else None)
  {
    var (next, data, message, action) :=
      match rec.step
      case Name =>
        if JsValidators.ValidateName(msg) then (Dob, rec.data.(fullName := Some(msg)), NameAccepted, Continue)
        else (Name, rec.data, NameRejected, Continue)
      case Dob =>
        if JsValidators.ValidateDOB(msg, clock.parseDate(msg), clock.today)
        then (Phone, rec.data.(dob := Some(msg)), DobAccepted, Continue)
        else (Dob, rec.data, DobRejected, Continue)
      case Phone =>
        if JsValidators.ValidatePhone(msg) then (Address, rec.data.(phone := Some(msg)), PhoneAccepted, Continue)
        else (Phone, rec.data, PhoneRejected, Continue)
      case Address =>
        if JsValidators.ValidateAddress(msg)
        then (Aadhaar, rec.data.(address := Some(msg)), AddressAccepted, RequestUpload)
        else (Address, rec.data, AddressRejected, Continue)
      case _ => (rec.step, rec.data, "", Continue);
    var status := if next == Aadhaar || next == Pan then KycPending
                  else if next != Final then PersonalPending
                  else rec.status;
    (rec.(step := next, status := status, data := data),
     Reply(message, action, if action == RequestUpload then Some(next) else None))
  }

  /** A reply to a typed detail opens with a check mark exactly when the detail was accepted,
      and with a warning sign exactly when it was rejected. */
  lemma ReplyShowsVerdict(rec: Record, msg: string, clock: Clock)
    requires IsTextStep(rec.step)
    ensures var m := Advance(rec, msg, clock).1.message;
      && m != []
      && (m[0] == '\U{2705}' <==> Accepts(rec.step, msg, clock))
      && (m[0] == '\U{26A0}' <==> !Accepts(rec.step, msg, clock))
  {
  }

  /** `processMasterAgentMessage`: load or create the user's record, advance it, save it. */
  function Process(store: Onboarding.Store, userId: string, msg: string, clock: Clock): (r: (Onboarding.Store, Reply))
    ensures userId in r.0
    ensures r.0.Keys == store.Keys + {userId}
    ensures forall u :: u in store && u != userId ==> r.0[u] == store[u]
    ensures userId !in store ==> r.0[userId] == Advance(Fresh(userId), msg, clock).0
    ensures userId in store ==> r.0[userId] == Advance(store[userId], msg, clock).0
    ensures r.1 == Advance(GetOrCreate(store, userId).1, msg, clock).1
  {
    var (loaded, rec) := GetOrCreate(store, userId);
    var (saved, reply) := Advance(rec, msg, clock);
    (loaded[userId := saved], reply)
  }

  // ---------------------------------------------------------------------------
  // Properties of the step machine
  // ---------------------------------------------------------------------------

  /** Every message moves the step forward by at most one. */
  lemma StepAdvancesAtMostOne(rec: Record, msg: string, clock: Clock)
    ensures var s := Advance(rec, msg, clock).0.step;
      StepIndex(s) == StepIndex(rec.step) || StepIndex(s) == StepIndex(rec.step) + 1
  {
  }

  /** Whatever record the agent starts from, the saved record's status fits its step. */
  lemma AdvanceFitsStatus(rec: Record, msg: string, clock: Clock)
    requires rec.step == Final ==> StatusFitsStep(rec)
    ensures StatusFitsStep(Advance(rec, msg, clock).0)
  {
  }

  /** Four valid answers from a fresh record fill in the four details in order and end
      at the Aadhaar upload step with status KYC_PENDING and an upload request. */
  lemma ValidAnswersReachAadhaar(userId: string, name: string, dob: string, phone: string, address: string, clock: Clock)
    requires JsValidators.ValidateName(name)
    requires JsValidators.ValidateDOB(dob, clock.parseDate(dob), clock.today)
    requires JsValidators.ValidatePhone(phone)
    requires JsValidators.ValidateAddress(address)
    ensures var r1 := Advance(Fresh(userId), name, clock).0;
      var r2 := Advance(r1, dob, clock).0;
      var r3 := Advance(r2, phone, clock).0;
      var last := Advance(r3, address, clock);
      && last.0.step == Aadhaar && last.0.status == KycPending
      && last.0.data == EmptyData.(fullName := Some(name), dob := Some(dob), phone := Some(phone), address := Some(address))
      && last.1 == Reply(AddressAccepted, RequestUpload, Some(Aadhaar))
  {
  }
}

=== FILE: mcp_create_account.dfy ===
/**
 * The route that opens an account once KYC is done: the required-field guard, a
 * random twelve-digit account number, the account document (unique by number), the
 * onboarding record moved to MCP_CREATED / final, and the confirmation.  The random
 * draw and the clock are parameters.
 */
module McpCreateAccount {
  import opened Options
  import opened Text
  import opened Onboarding
  import WorkerMcp

  /** An account document of the web application: owner, number (unique) and KYC flag. */
  datatype BankAccount = BankAccount(userId: string, accountNumber: string, kycVerified: bool)

  /** The request body; the personal and KYC data only matter by being present. */
  datatype Body = Body(userId: Option<string>, hasPersonalData: bool, hasKycData: bool)

  datatype Response =
    | Failure(code: int, error: string)
    | Created(status: string, accountNumber: string, message: string, timestamp: string)

  predicate NumberInUse(accounts: seq<BankAccount>, n: string) {
    exists i :: 0 <= i < |accounts| && accounts[i].accountNumber == n
  }

  /** `findOneAndUpdate` without upsert: the user's record, if any, becomes MCP_CREATED at
      step final with the account number; nothing is created. */
  function MarkCreated(store: Store, userId: string, accountNumber: string): (r: Store)
    ensures r.Keys == store.Keys
    ensures forall u :: u in store && u != userId ==> r[u] == store[u]
    ensures userId in store ==>
      r[userId] == store[userId].(status := McpCreated, step := Final,
                                  data := store[userId].data.(accountNumber := Some(accountNumber)))
  {
    if userId in store then
      var rec := store[userId];
      store[userId := rec.(status := McpCreated, step := Final, data := rec.data.(accountNumber := Some(accountNumber)))]
    else store
  }

  /** `POST /api/mcp/create-account`; `body` is None when the request is not JSON. */
  function Post(accounts: seq<BankAccount>, store: Store, body: Option<Body>, random: real, nowIso: string):
    (r: (seq<BankAccount>, Store, Response))
    requires 0.0 <= random < 1.0
    ensures r.2.Failure? ==> r.0 == accounts && r.1 == store
    ensures body.None? ==> r.2 == Failure(500, "Account creation failed")
    ensures body.Some? ==>
      (r.2 == Failure(400, "Missing required fields") <==>
        !(Truthy(body.value.userId) && body.value.hasPersonalData && body.value.hasKycData))
    ensures r.2.Created? <==>
      && body.Some? && Truthy(body.value.userId) && body.value.hasPersonalData && body.value.hasKycData
      && !NumberInUse(accounts, WorkerMcp.RandomAccountNumber(random))
    ensures
      (&& body.Some? && Truthy(body.value.userId) && body.value.hasPersonalData && body.value.hasKycData
       && NumberInUse(accounts, WorkerMcp.RandomAccountNumber(random)))
      ==> r.2 == Failure(500, "Account creation failed")
    ensures r.2.Created? ==>
      var n := r.2.accountNumber;
      var user := body.value.userId.value;
      && |n| == 12 && AllDigits(n) && DecimalValue(n) == WorkerMcp.RandomPart(random)
      && r.2.status == "CREATED" && r.2.timestamp == nowIso
      && r.2.message == "Your account has been created successfully. Account Number: " + n
      && r.0 == accounts + [BankAccount(user, n, true)]
      && r.1 == MarkCreated(store, user, n)
  {
    if body.None? then (accounts, store, Failure(500, "Account creation failed"))
    else
      var b := body.value;
      if !(Truthy(b.userId) && b.hasPersonalData && b.hasKycData) then
        (accounts, store, Failure(400, "Missing required fields"))
      else
        var n := WorkerMcp.RandomAccountNumber(random);
        assert "Missing required fields"[0] != "Account creation failed"[0];
        if NumberInUse(accounts, n) then (accounts, store, Failure(500, "Account creation failed"))
        else
          (accounts + [BankAccount(b.userId.value, n, true)],
           MarkCreated(store, b.userId.value, n),
           Created("CREATED", n, "Your account has been created successfully. Account Number: " + n, nowIso))
  }

  /** After a successful call the account, the user's onboarding record (if any) and the
      response carry the same number, and that number is held by exactly one account. */
  lemma NumberAgreesEverywhere(accounts: seq<BankAccount>, store: Store, body: Option<Body>, random: real, nowIso: string)
    requires 0.0 <= random < 1.0
    requires Post(accounts, store, body, random, nowIso).2.Created?
    ensures var (after, store2, reply) := Post(accounts, store, body, random, nowIso);
      var user := body.value.userId.value;
      && after[|after| - 1].accountNumber == reply.accountNumber && after[|after| - 1].kycVerified
      && (user in store ==> store2[user].data.accountNumber == Some(reply.accountNumber)
                             && store2[user].status == McpCreated && store2[user].step == Final)
      && (forall i :: 0 <= i < |after| - 1 ==> after[i].accountNumber != reply.accountNumber)
  {
  }
}

=== FILE: onboarding.dfy ===
/**
 * The onboarding record of the account-creation chat: its status and step
 * enumerations with their stored names, the collected data, a fresh record's
 * defaults, and the per-user store with its get-or-create lookup.
 */
module Onboarding {
  import opened Options

  datatype Status = Init | PersonalPending | KycPending | Verified | McpCreated | Completed

  datatype Step = Name | Dob | Phone | Address | Aadhaar | Pan | Verification | Final

  /** The string a status is stored as. */
  function StatusName(s: Status): string {
    match s
    case Init => "INIT"
    case PersonalPending => "PERSONAL_PENDING"
    case KycPending => "KYC_PENDING"
    case Verified => "VERIFIED"
    case McpCreated => "MCP_CREATED"
    case Completed => "COMPLETED"
  }

  /** Schema enum validation of a stored status string. */
  function ParseStatus(s: string): (r: Option<Status>)
    ensures r.Some? ==> StatusName(r.value) == s
  {
    if s == "INIT" then Some(Init)
    else if s == "PERSONAL_PENDING" then Some(PersonalPending)
    else if s == "KYC_PENDING" then Some(KycPending)
    else if s == "VERIFIED" then Some(Verified)
    else if s == "MCP_CREATED" then Some(McpCreated)
    else if s == "COMPLETED" then Some(Completed)
    else None
  }

  /** Every status survives a round trip through its stored name, so the names are
      pairwise distinct and exactly the six names are accepted. */
  lemma StatusRoundTrip(st: Status, s: string)
    ensures ParseStatus(StatusName(st)) == Some(st)
    ensures ParseStatus(s).Some? <==> exists x :: StatusName(x) == s
  {
    if exists x :: StatusName(x) == s {
      var x :| StatusName(x) == s;
      assert ParseStatus(StatusName(x)) == Some(x);
    }
  }

  /** The string a step is stored as. */
  function StepName(s: Step): string {
    match s
    case Name => "name"
    case Dob => "dob"
    case Phone => "phone"
    case Address => "address"
    case Aadhaar => "aadhaar"
    case Pan => "pan"
    case Verification => "verification"
    case Final => "final"
  }

  /** Schema enum validation of a stored step string. */
  function ParseStep(s: string): (r: Option<Step>)
    ensures r.Some? ==> StepName(r.value) == s
  {
    if s == "name" then Some(Name)
    else if s == "dob" then Some(Dob)
    else if s == "phone" then Some(Phone)
    else if s == "address" then Some(Address)
    else if s == "aadhaar" then Some(Aadhaar)
    else if s == "pan" then Some(Pan)
    else if s == "verification" then Some(Verification)
    else if s == "final" then Some(Final)
    else None
  }

  lemma StepRoundTrip(st: Step, s: string)
    ensures ParseStep(StepName(st)) == Some(st)
    ensures ParseStep(s).Some? <==> exists x :: StepName(x) == s
  {
    ParseStepName(st);
    if exists x :: StepName(x) == s {
      var x :| StepName(x) == s;
      ParseStepName(x);
    }
    if ParseStep(s).Some? {
      assert StepName(ParseStep(s).value) == s;
    }
  }

  lemma ParseStepName(st: Step)
    ensures ParseStep(StepName(st)) == Some(st)
  {
    match st
    case Name =>
    case Dob =>
    case Phone =>
    case Address =>
    case Aadhaar =>
    case Pan =>
    case Verification =>
    case Final =>
  }

  /** Position of a step in the enumeration order. */
  function StepIndex(s: Step): (i: nat)
    ensures i < 8
  {
    match s
    case Name => 0
    case Dob => 1
    case Phone => 2
    case Address => 3
    case Aadhaar => 4
    case Pan => 5
    case Verification => 6
    case Final => 7
  }

  /** The `data` sub-document; `None` is a field never set. */
  datatype Data = Data(
    fullName: Option<string>,
    dob: Option<string>,
    phone: Option<string>,
    email: Option<string>,
    address: Option<string>,
    aadhaarUrl: Option<string>,
    panUrl: Option<string>,
    accountNumber: Option<string>)

  const EmptyData: Data := Data(None, None, None, None, None, None, None, None)

  datatype Record = Record(userId: string, flow: string, status: Status, step: Step, data: Data)

  /** `new Onboarding({ userId })`: the schema defaults. */
  function Fresh(userId: string): (r: Record)
    ensures r.userId == userId && r.flow == "account_creation"
    ensures r.status == Init && r.step == Name
    ensures r.data == EmptyData
  {
    Record(userId, "account_creation", Init, Name, EmptyData)
  }

  /** The onboarding collection, keyed by user id. */
  type Store = map<string, Record>

  /** The user's record, or a fresh record saved for a user who has none. */
  function GetOrCreate(store: Store, userId: string): (r: (Store, Record))
    ensures userId in r.0 && r.0[userId] == r.1
    ensures userId in store ==> r.0 == store
    ensures userId !in store ==> r.1 == Fresh(userId) && r.0 == store[userId := Fresh(userId)]
  {
    if userId in store then (store, store[userId])
    else (store[userId := Fresh(userId)], Fresh(userId))
  }
}

=== FILE: options.dfy ===
/** Optional values (the source's `null`, `undefined` and missing keys) and results
    that are either a value or an error message (a raised exception or an error reply). */
module Options {

  datatype Option<+T> = None | Some(value: T) {

    /** The value, or `default` when there is none. */
    function GetOr(default: T): T {
      match this
      case Some(v) => v
      case None => default
    }
  }

  /** JavaScript / Python truthiness of an optional string: present and non-empty. */
  predicate Truthy(s: Option<string>) {
    s.Some? && s.value != ""
  }

  datatype Result<+T> = Ok(value: T) | Err(error: string)
}

=== FILE: patterns.dfy ===
/**
 * The anchored regular expressions of the validators, as data: a pattern is a
 * sequence of pieces, each a character class repeated a fixed number of times
 * (`[A-Z]{5}`) or one-or-more times (`[a-zA-Z\s]+`).  `Matches` is the regex
 * engine's full-match (`^...$`) semantics, with backtracking for `+`.
 */
module Patterns {
  import opened Text

  datatype CharClass =
    | Upper                      // [A-Z]
    | Digit                      // [0-9] and JavaScript \d
    | Range(lo: char, hi: char)  // e.g. [6-9]
    | Literal(c: char)           // e.g. -
    | LettersOrSpace(f: Flavor, extra: seq<char>)  // [a-zA-Z\s<extra>]

  predicate InClass(k: CharClass, c: char) {
    match k
    case Upper => IsAsciiUpper(c)
    case Digit => IsAsciiDigit(c)
    case Range(lo, hi) => lo <= c <= hi
    case Literal(l) => c == l
    case LettersOrSpace(f, extra) => IsAsciiLetter(c) || IsSpace(f, c) || c in extra
  }

  datatype Piece = Times(k: CharClass, n: nat) | Plus(k: CharClass)

  type Pattern = seq<Piece>

  predicate AllIn(k: CharClass, s: string) {
    forall i :: 0 <= i < |s| ==> InClass(k, s[i])
  }

  /** `s` matches `p` from its first to its last character. */
  predicate Matches(p: Pattern, s: string)
    decreases |p|, 1, 0
  {
    if p == [] then s == []
    else match p[0]
      case Times(k, n) => n <= |s| && AllIn(k, s[..n]) && Matches(p[1..], s[n..])
      case Plus(k) => PlusFrom(k, p[1..], s, 1)
  }

  /** `k+` followed by `rest` matches `s`, trying `n` or more repetitions of `k`. */
  predicate PlusFrom(k: CharClass, rest: Pattern, s: string, n: nat)
    decreases |rest| + 1, 0, |s| - n
  {
    n <= |s| && AllIn(k, s[..n]) && (Matches(rest, s[n..]) || PlusFrom(k, rest, s, n + 1))
  }

  // ---------------------------------------------------------------------------
  // Reference semantics
  // ---------------------------------------------------------------------------

  /** Only fixed repetitions: the pattern matches strings of one length. */
  predicate FixedWidth(p: Pattern) {
    forall i :: 0 <= i < |p| ==> p[i].Times?
  }

  function Width(p: Pattern): nat
    requires FixedWidth(p)
  {
    if p == [] then 0 else p[0].n + Width(p[1..])
  }

  /** The class a fixed-width pattern demands at position `i`. */
  function ClassAt(p: Pattern, i: nat): CharClass
    requires FixedWidth(p) && i < Width(p)
  {
    if i < p[0].n then p[0].k else ClassAt(p[1..], i - p[0].n)
  }

  /** A fixed-width pattern matches exactly the strings of its width whose every
      character is in the class demanded at that position. */
  lemma {:induction false} FixedWidthMatches(p: Pattern, s: string)
    requires FixedWidth(p)
    ensures Matches(p, s) <==>
      |s| == Width(p) && forall i :: 0 <= i < |s| ==> InClass(ClassAt(p, i), s[i])
  {
    if p != [] {
      var k, n := p[0].k, p[0].n;
      if n <= |s| {
        FixedWidthMatches(p[1..], s[n..]);
        if Matches(p, s) {
          forall i | 0 <= i < |s|
            ensures InClass(ClassAt(p, i), s[i])
          {
            if i >= n {
              assert s[n..][i - n] == s[i];
            }
          }
        }
        if |s| == Width(p) && forall i :: 0 <= i < |s| ==> InClass(ClassAt(p, i), s[i]) {
          forall j | 0 <= j < |s| - n
            ensures InClass(ClassAt(p[1..], j), s[n..][j])
          {
            assert ClassAt(p, j + n) == ClassAt(p[1..], j);
          }
          assert AllIn(k, s[..n]) by {
            forall j | 0 <= j < n ensures InClass(k, s[..n][j]) {
              assert ClassAt(p, j) == k;
            }
          }
        }
      }
    }
  }

  /** A lone `k+` matches exactly the non-empty strings drawn from `k`. */
  lemma PlusMatches(k: CharClass, s: string)
    ensures Matches([Plus(k)], s) <==> |s| >= 1 && AllIn(k, s)
  {
    assert [Plus(k)][1..] == [];
    if |s| >= 1 && AllIn(k, s) {
      PlusFromReaches(k, s, 1);
    }
    if Matches([Plus(k)], s) {
      PlusFromAllIn(k, s, 1);
    }
  }

  lemma {:induction false} PlusFromReaches(k: CharClass, s: string, n: nat)
    requires 1 <= n <= |s| && AllIn(k, s)
    ensures PlusFrom(k, [], s, n)
    decreases |s| - n
  {
    assert AllIn(k, s[..n]) by {
      forall j | 0 <= j < n ensures InClass(k, s[..n][j]) { assert s[..n][j] == s[j]; }
    }
    if n < |s| {
      PlusFromReaches(k, s, n + 1);
    } else {
      assert s[n..] == [];
    }
  }

  lemma {:induction false} PlusFromAllIn(k: CharClass, s: string, n: nat)
    requires n >= 1 && PlusFrom(k, [], s, n)
    ensures AllIn(k, s) && |s| >= 1
    decreases |s| - n
  {
    if Matches([], s[n..]) {
      assert s[n..] == [];
      assert s[..n] == s;
    } else {
      PlusFromAllIn(k, s, n + 1);
    }
  }
}

=== FILE: send_route.dfy ===
/**
 * The chat endpoint of the onboarding flow.  It handles the two document-upload
 * steps itself and hands every other message to the onboarding agent.  The PAN
 * branch reads `kycResult`, whose declaration is commented out, so it always
 * throws a ReferenceError that its own `catch` turns into a "try again" reply.
 */
module SendRoute {
  import opened Options
  import opened Text
  import opened Onboarding
  import MasterAgent

  /** The parsed JSON body; `None` for a body that is not JSON. */
  datatype Body = Body(message: Option<string>, flow: Option<string>)

  datatype Request = Request(sessionUserId: Option<string>, body: Option<Body>)

  datatype Response =
    | Failure(status: int, error: string)
    | Reply(reply: MasterAgent.Reply)

  const AadhaarReceived := "Great! Aadhaar received. Now please upload your PAN document:"
  const VerificationError := "An error occurred during verification. Please try again."

  /** The step is an upload step and the message reports an upload. */
  predicate IsUpload(rec: Record, step: Step, message: string) {
    rec.step == step && Contains(message, "uploaded")
  }

  /** Both `message` and `flow` are present and non-empty. */
  predicate HasMessageAndFlow(b: Body) {
    Truthy(b.message) && Truthy(b.flow)
  }

  /** `POST /api/chat/send`. */
  function Post(store: Onboarding.Store, req: Request, clock: MasterAgent.Clock): (r: (Onboarding.Store, Response))
    ensures !Truthy(req.sessionUserId) ==> r == (store, Failure(401, "Unauthorized"))
    ensures Truthy(req.sessionUserId) && req.body.None? ==> r == (store, Failure(500, "Chat processing failed"))
    ensures Truthy(req.sessionUserId) && req.body.Some? && !HasMessageAndFlow(req.body.value) ==>
      r == (store, Failure(400, "Message and flow are required"))
    ensures r.1.Failure? ==> r.0 == store
    ensures r.1.Reply? ==>
      var uid := req.sessionUserId.value;
      var msg := req.body.value.message.value;
      var (loaded, rec) := GetOrCreate(store, uid);
      && Truthy(req.sessionUserId) && HasMessageAndFlow(req.body.value)
      && (IsUpload(rec, Aadhaar, msg) ==>
            && r.0 == loaded[uid := rec.(step := Pan, data := rec.data.(aadhaarUrl := Some(msg)))]
            && r.1.reply == MasterAgent.Reply(AadhaarReceived, MasterAgent.RequestUpload, Some(Pan)))
      && (IsUpload(rec, Pan, msg) ==>
            r == (loaded, Reply(MasterAgent.Reply(VerificationError, MasterAgent.Continue, None))))
      && (!IsUpload(rec, Aadhaar, msg) && !IsUpload(rec, Pan, msg) ==>
            r == (var (s, reply) := MasterAgent.Process(store, uid, msg, clock); (s, Reply(reply))))
  {
    if !Truthy(req.sessionUserId) then (store, Failure(401, "Unauthorized"))
    else if req.body.None? then (store, Failure(500, "Chat processing failed"))
    else if !HasMessageAndFlow(req.body.value) then
      (store, Failure(400, "Message and flow are required"))
    else
      var uid := req.sessionUserId.value;
      var msg := req.body.value.message.value;
      var (loaded, rec) := GetOrCreate(store, uid);
      if rec.step == Aadhaar && Contains(msg, "uploaded") then
        var saved := rec.(data := rec.data.(aadhaarUrl := Some(msg)), step := Pan);
        (loaded[uid := saved], Reply(MasterAgent.Reply(AadhaarReceived, MasterAgent.RequestUpload, Some(Pan))))
      else if rec.step == Pan && Contains(msg, "uploaded") then
        // `kycResult` is not declared: the ReferenceError is caught before anything is saved.
        (loaded, Reply(MasterAgent.Reply(VerificationError, MasterAgent.Continue, None)))
      else
        var (s, reply) := MasterAgent.Process(store, uid, msg, clock);
        (s, Reply(reply))
  }

  /** No record in the store is past the PAN step. */
  predicate NonePastPan(store: Onboarding.Store) {
    forall u :: u in store ==> StepIndex(store[u].step) <= StepIndex(Pan)
  }

  /** Through this endpoint no user ever gets past the PAN step: the verification and
      final steps are unreachable. */
  lemma NeverPastPan(store: Onboarding.Store, req: Request, clock: MasterAgent.Clock)
    requires NonePastPan(store)
    ensures NonePastPan(Post(store, req, clock).0)
  {
    var r := Post(store, req, clock);
    if r.1.Reply? {
      var uid := req.sessionUserId.value;
      var msg := req.body.value.message.value;
      var (loaded, rec) := GetOrCreate(store, uid);
      LoadKeepsNonePastPan(store, uid);
      if IsUpload(rec, Aadhaar, msg) {
        assert r.0 == loaded[uid := rec.(step := Pan, data := rec.data.(aadhaarUrl := Some(msg)))];
      } else if !IsUpload(rec, Pan, msg) {
        ProcessKeepsNonePastPan(store, uid, msg, clock);
      }
    }
  }

  /** Loading (or creating) a record keeps every step at or before PAN. */
  lemma LoadKeepsNonePastPan(store: Onboarding.Store, uid: string)
    requires NonePastPan(store)
    ensures NonePastPan(GetOrCreate(store, uid).0)
  {
  }

  /** The agent moves a record at or before PAN to a step at or before PAN. */
  lemma ProcessKeepsNonePastPan(store: Onboarding.Store, uid: string, msg: string, clock: MasterAgent.Clock)
    requires NonePastPan(store)
    ensures NonePastPan(MasterAgent.Process(store, uid, msg, clock).0)
  {
    var rec := GetOrCreate(store, uid).1;
    LoadKeepsNonePastPan(store, uid);
    AdvanceWithinPan(rec, msg, clock);
  }

  lemma AdvanceWithinPan(rec: Record, msg: string, clock: MasterAgent.Clock)
    requires StepIndex(rec.step) <= StepIndex(Pan)
    ensures StepIndex(MasterAgent.Advance(rec, msg, clock).0.step) <= StepIndex(Pan)
  {
    var next := MasterAgent.Advance(rec, msg, clock).0;
    if MasterAgent.IsTextStep(rec.step) && MasterAgent.Accepts(rec.step, msg, clock) {
      assert next.step == MasterAgent.NextStep(rec.step);
      assert StepIndex(rec.step) < StepIndex(Pan) - 1;
    } else {
      assert next.step == rec.step;
    }
  }

  /** A user at the PAN step who reports the upload stays at the PAN step with nothing
      saved, however often they try. */
  lemma PanUploadIsStuck(store: Onboarding.Store, req: Request, clock: MasterAgent.Clock)
    requires Truthy(req.sessionUserId) && req.body.Some?
    requires HasMessageAndFlow(req.body.value)
    requires req.sessionUserId.value in store && store[req.sessionUserId.value].step == Pan
    requires Contains(req.body.value.message.value, "uploaded")
    ensures Post(store, req, clock).0 == store
    ensures Post(store, req, clock).1 == Reply(MasterAgent.Reply(VerificationError, MasterAgent.Continue, None))
  {
  }
}

=== FILE: sequences.dfy ===
/** Order-preserving selection from a sequence, shared by the stores and the lists. */
module Sequences {
  /** `a` is obtained from `b` by deleting elements. */
  predicate IsSubsequence<T(==)>(a: seq<T>, b: seq<T>) {
    if a == [] then true
    else if b == [] then false
    else if a[0] == b[0] then IsSubsequence(a[1..], b[1..])
    else IsSubsequence(a, b[1..])
  }
}

=== FILE: sidebar.dfy ===
/**
 * The chat-history sidebar: relative-time labels, the entries shown for
 * account-creation chats, and removing a deleted chat from the list.  The clock and
 * the locale date rendering are parameters; times are milliseconds since the epoch.
 */
module Sidebar {
  import opened Options
  import opened Text
  import opened Sequences

  const MinuteMs := 60000
  const HourMs := 3600000
  const DayMs := 86400000

  /** "N unit" with an "s" exactly when N is more than one. */
  function Count(n: nat, unit: string): string {
    NatToDecimal(n) + " " + unit + (if n > 1 then "s" else "")
  }

  /** `getRelativeTime`: `date` is None when the argument is falsy; `locale` renders a
      date with `toLocaleDateString`.  JavaScript's `Math.floor` and Dafny's division
      agree because every divisor is positive. */
  function RelativeTime(date: Option<int>, now: int, locale: int -> string): (r: string)
    ensures date.None? ==> r == "Recently"
    ensures date.Some? && now - date.value < MinuteMs ==> r == "Just now"
    ensures date.Some? && now - date.value >= 7 * DayMs ==> r == locale(date.value)
  {
    match date
    case None => "Recently"
    case Some(d) =>
      var diff := now - d;
      var minutes := diff / MinuteMs;
      var hours := diff / HourMs;
      var days := diff / DayMs;
      if minutes < 1 then "Just now"
      else if minutes < 60 then Count(minutes, "min") + " ago"
      else if hours < 24 then Count(hours, "hour") + " ago"
      else if days == 1 then "Yesterday"
      else if days < 7 then NatToDecimal(days) + " days ago"
      else locale(d)
  }

  /** Integer division by a positive divisor is the index of the band holding `x`. */
  lemma DivBand(x: int, d: int, n: int)
    requires d > 0 && n * d <= x < (n + 1) * d
    ensures x / d == n
  {
    var q := x / d;
    assert q * d <= x < q * d + d;
    if q < n {
      MulMonotone(q + 1, n, d);
    } else if q > n {
      MulMonotone(n + 1, q, d);
    }
  }

  lemma {:induction false} MulMonotone(a: int, b: int, d: int)
    requires a <= b && d > 0
    ensures a * d <= b * d
    decreases b - a
  {
    if a < b {
      MulMonotone(a, b - 1, d);
      assert (b - 1) * d + d == b * d;
    }
  }

  /** A date between `n` and `n + 1` minutes ago, for `n` in 1..59, reads "n min ago"
      or "n mins ago". */
  lemma MinutesAgo(date: int, now: int, n: nat, locale: int -> string)
    requires 1 <= n < 60
    requires n * MinuteMs <= now - date < (n + 1) * MinuteMs
    ensures RelativeTime(Some(date), now, locale) == NatToDecimal(n) + (if n > 1 then " mins ago" else " min ago")
  {
    DivBand(now - date, MinuteMs, n);
  }

  /** A date between `n` and `n + 1` hours ago, for `n` in 1..23, reads "n hour ago" or
      "n hours ago". */
  lemma HoursAgo(date: int, now: int, n: nat, locale: int -> string)
    requires 1 <= n < 24
    requires n * HourMs <= now - date < (n + 1) * HourMs
    ensures RelativeTime(Some(date), now, locale) == NatToDecimal(n) + (if n > 1 then " hours ago" else " hour ago")
  {
    HourBand(now - date, n);
    assert RelativeTime(Some(date), now, locale) == Count(n, "hour") + " ago";
    CountAgo(n, "hour");
  }

  lemma CountAgo(n: nat, unit: string)
    ensures Count(n, unit) + " ago" == NatToDecimal(n) + " " + unit + (if n > 1 then "s ago" else " ago")
  {
  }

  lemma HourBand(x: int, n: nat)
    requires 1 <= n < 24
    requires n * HourMs <= x < (n + 1) * HourMs
    ensures x / HourMs == n && x / MinuteMs >= 60
  {
    DivBand(x, HourMs, n);
    DivBand(x, MinuteMs, x / MinuteMs);
  }

  /** A date one to two days ago reads "Yesterday"; `n` days ago for `n` in 2..6 reads
      "n days ago". */
  lemma DaysAgo(date: int, now: int, n: nat, locale: int -> string)
    requires 1 <= n < 7
    requires n * DayMs <= now - date < (n + 1) * DayMs
    ensures RelativeTime(Some(date), now, locale) == if n == 1 then "Yesterday" else NatToDecimal(n) + " days ago"
  {
    DivBand(now - date, DayMs, n);
    assert (now - date) / HourMs >= 24 by {
      DivBand(now - date, HourMs, (now - date) / HourMs);
    }
    assert (now - date) / MinuteMs >= 60 by {
      DivBand(now - date, MinuteMs, (now - date) / MinuteMs);
    }
  }

  // ---------------------------------------------------------------------------
  // The history list
  // ---------------------------------------------------------------------------

  /** One row of the sidebar. */
  datatype Entry = Entry(id: Option<string>, title: string, status: string, time: string, kind: string)

  /** An account-creation chat as the list route returns it; each id field may be
      missing or empty. */
  datatype AccountChat = AccountChat(
    underscoreId: Option<string>, id: Option<string>, chatId: Option<string>, createdAt: Option<int>)

  /** `chat._id || chat.id || chat.chatId`. */
  function ChatKey(c: AccountChat): (k: Option<string>)
    ensures Truthy(c.underscoreId) ==> k == c.underscoreId
    ensures !Truthy(c.underscoreId) && Truthy(c.id) ==> k == c.id
    ensures !Truthy(c.underscoreId) && !Truthy(c.id) ==> k == c.chatId
  {
    if Truthy(c.underscoreId) then c.underscoreId
    else if Truthy(c.id) then c.id
    else c.chatId
  }

  /** The sidebar rows for the account chats, numbered from 1 in list order; a chat
      without a creation time is dated now. */
  function AccountEntries(chats: seq<AccountChat>, now: int, locale: int -> string): (r: seq<Entry>)
    ensures |r| == |chats|
    ensures forall i :: 0 <= i < |r| ==>
      r[i] == Entry(ChatKey(chats[i]), "Create Account - Chat " + NatToDecimal(i + 1), "completed",
                    RelativeTime(Some(chats[i].createdAt.GetOr(now)), now, locale), "account")
  {
    seq(|chats|, i requires 0 <= i < |chats| =>
      Entry(ChatKey(chats[i]), "Create Account - Chat " + NatToDecimal(i + 1), "completed",
            RelativeTime(Some(chats[i].createdAt.GetOr(now)), now, locale), "account"))
  }

  /** The combined list: the general chats, then the account chats (none when they were
      not requested). */
  function History(general: seq<Entry>, accountChats: Option<seq<AccountChat>>, now: int, locale: int -> string): (r: seq<Entry>)
    ensures |r| >= |general| && r[..|general|] == general
    ensures accountChats.None? ==> r == general
    ensures accountChats.Some? ==> r[|general|..] == AccountEntries(accountChats.value, now, locale)
  {
    general + match accountChats
      case None => []
      case Some(chats) => AccountEntries(chats, now, locale)
  }

  /** Account-chat titles are pairwise distinct, and a chat with no creation time shows
      "Just now". */
  lemma AccountTitlesDistinct(chats: seq<AccountChat>, now: int, locale: int -> string, i: nat, j: nat)
    requires i < j < |chats|
    ensures AccountEntries(chats, now, locale)[i].title != AccountEntries(chats, now, locale)[j].title
    ensures chats[i].createdAt.None? ==> AccountEntries(chats, now, locale)[i].time == "Just now"
  {
    var p := "Create Account - Chat ";
    var a, b := NatToDecimal(i + 1), NatToDecimal(j + 1);
    assert DecimalValue(a) != DecimalValue(b);
    assert (p + a)[|p|..] == a && (p + b)[|p|..] == b;
  }

  /** The rows without the deleted chat, in their original order. */
  function WithoutChat(history: seq<Entry>, chatId: string): (r: seq<Entry>)
    ensures forall e :: e in r <==> e in history && e.id != Some(chatId)
  {
    if history == [] then []
    else
      var rest := WithoutChat(history[1..], chatId);
      assert forall e :: e in history <==> e == history[0] || e in history[1..];
      if history[0].id != Some(chatId) then [history[0]] + rest else rest
  }

  lemma {:induction false} WithoutChatIsSubsequence(history: seq<Entry>, chatId: string)
    ensures IsSubsequence(WithoutChat(history, chatId), history)
  {
    if history != [] {
      WithoutChatIsSubsequence(history[1..], chatId);
    }
  }

  /** Every row of another chat is kept as often as it occurs, and no row of the deleted
      chat is. */
  lemma {:induction false} WithoutChatCounts(history: seq<Entry>, chatId: string, e: Entry)
    ensures multiset(WithoutChat(history, chatId))[e] ==
      if e.id != Some(chatId) then multiset(history)[e] else 0
  {
    if history != [] {
      WithoutChatCounts(history[1..], chatId, e);
      assert history == [history[0]] + history[1..];
    }
  }

  /** `handleDeleteChat`: after the user confirms and the delete request succeeds, the
      rows with that id disappear; the second result says whether a new chat is started
      because the open chat was deleted. */
  function DeleteChat(history: seq<Entry>, chatId: string, activeChat: Option<string>,
                      confirmed: bool, requestSucceeded: bool): (r: (seq<Entry>, bool))
    ensures !(confirmed && requestSucceeded) ==> r == (history, false)
    ensures confirmed && requestSucceeded ==>
      && (forall e :: e in r.0 <==> e in history && e.id != Some(chatId))
      && (r.1 <==> activeChat == Some(chatId))
  {
    if !confirmed || !requestSucceeded then (history, false)
    else (WithoutChat(history, chatId), activeChat == Some(chatId))
  }

  /** Deleting keeps the order of the remaining rows. */
  lemma DeleteKeepsOrder(history: seq<Entry>, chatId: string, activeChat: Option<string>,
                         confirmed: bool, requestSucceeded: bool)
    ensures IsSubsequence(DeleteChat(history, chatId, activeChat, confirmed, requestSucceeded).0, history)
  {
    WithoutChatIsSubsequence(history, chatId);
    SubsequenceReflexive(history);
  }

  lemma {:induction false} SubsequenceReflexive<T>(xs: seq<T>)
    ensures IsSubsequence(xs, xs)
  {
    if xs != [] {
      SubsequenceReflexive(xs[1..]);
    }
  }
}

=== FILE: text.dfy ===
/**
 * Character classes, whitespace stripping, ASCII case mapping, substring tests and
 * decimal rendering shared by the Python and JavaScript parts of the system.
 */
module Text {

  /** Which language's whitespace applies: Python's `str.isspace` / `re` `\s`,
      or JavaScript's `String.prototype.trim` / regex `\s`. */
  datatype Flavor = Python | JavaScript

  predicate IsAsciiDigit(c: char) { '0' <= c <= '9' }
  predicate IsAsciiUpper(c: char) { 'A' <= c <= 'Z' }
  predicate IsAsciiLower(c: char) { 'a' <= c <= 'z' }
  predicate IsAsciiLetter(c: char) { IsAsciiUpper(c) || IsAsciiLower(c) }

  predicate IsLowerHex(c: char) { IsAsciiDigit(c) || 'a' <= c <= 'f' }

  predicate AllDigits(s: string) {
    forall i :: 0 <= i < |s| ==> IsAsciiDigit(s[i])
  }

  /** Code points both languages treat as whitespace, plus each language's extras:
      Python also has U+001C..U+001F and U+0085; JavaScript also has U+FEFF. */
  predicate IsSpace(f: Flavor, c: char) {
    || '\t' <= c <= '\r'
    || c == ' '
    || c == '\U{A0}'
    || c == '\U{1680}'
    || '\U{2000}' <= c <= '\U{200A}'
    || c == '\U{2028}' || c == '\U{2029}'
    || c == '\U{202F}' || c == '\U{205F}' || c == '\U{3000}'
    || (f == Python && ('\U{1C}' <= c <= '\U{1F}' || c == '\U{85}'))
    || (f == JavaScript && c == '\U{FEFF}')
  }

  predicate AllSpace(f: Flavor, s: string) {
    forall i :: 0 <= i < |s| ==> IsSpace(f, s[i])
  }

  /** Leading whitespace removed. */
  function TrimStart(f: Flavor, s: string): (r: string)
    ensures |r| <= |s| && r == s[|s| - |r|..]
    ensures AllSpace(f, s[..|s| - |r|])
    ensures r != [] ==> !IsSpace(f, r[0])
  {
    if |s| > 0 && IsSpace(f, s[0]) then TrimStart(f, s[1..]) else s
  }

  /** Trailing whitespace removed. */
  function TrimEnd(f: Flavor, s: string): (r: string)
    ensures |r| <= |s| && r == s[..|r|]
    ensures AllSpace(f, s[|r|..])
    ensures r != [] ==> !IsSpace(f, r[|r| - 1])
  {
    if |s| > 0 && IsSpace(f, s[|s| - 1]) then
      var r := TrimEnd(f, s[..|s| - 1]);
      assert s[|r|..] == s[..|s| - 1][|r|..] + [s[|s| - 1]];
      r
    else s
  }

  /** Python `str.strip()` / JavaScript `String.prototype.trim()`. */
  function Strip(f: Flavor, s: string): (r: string)
    ensures |r| <= |s|
    ensures r != [] ==> !IsSpace(f, r[0]) && !IsSpace(f, r[|r| - 1])
  {
    TrimEnd(f, TrimStart(f, s))
  }

  /** A string without whitespace at either end is its own strip. */
  lemma StripUnchanged(f: Flavor, s: string)
    requires s != [] ==> !IsSpace(f, s[0]) && !IsSpace(f, s[|s| - 1])
    ensures Strip(f, s) == s
  {
  }

  /** A string that is all whitespace strips to the empty string. */
  lemma {:induction false} StripAllSpace(f: Flavor, s: string)
    requires AllSpace(f, s)
    ensures Strip(f, s) == []
  {
    if |s| > 0 {
      StripAllSpace(f, s[1..]);
    }
  }

  function UpperChar(c: char): (u: char)
    ensures IsAsciiLower(c) ==> IsAsciiUpper(u)
    ensures !IsAsciiLower(c) ==> u == c
  {
    if IsAsciiLower(c) then (c as int - 32) as char else c
  }

  function LowerChar(c: char): (l: char)
    ensures IsAsciiUpper(c) ==> IsAsciiLower(l)
    ensures !IsAsciiUpper(c) ==> l == c
  {
    if IsAsciiUpper(c) then (c as int + 32) as char else c
  }

  /** Python `str.upper()` restricted to ASCII letters. */
  function AsciiUpper(s: string): (r: string)
    ensures |r| == |s|
    ensures forall i :: 0 <= i < |s| ==> r[i] == UpperChar(s[i])
  {
    seq(|s|, i requires 0 <= i < |s| => UpperChar(s[i]))
  }

  /** Python `str.lower()` restricted to ASCII letters. */
  function AsciiLower(s: string): (r: string)
    ensures |r| == |s|
    ensures forall i :: 0 <= i < |s| ==> r[i] == LowerChar(s[i])
  {
    seq(|s|, i requires 0 <= i < |s| => LowerChar(s[i]))
  }

  /** JavaScript `s.includes(sub)`: `sub` occurs somewhere in `s`. */
  predicate Contains(s: string, sub: string)
    decreases |s|
  {
    (|sub| <= |s| && s[..|sub|] == sub) || (|s| > 0 && Contains(s[1..], sub))
  }

  /** An occurrence at a known index is found. */
  lemma {:induction false} ContainsAt(s: string, sub: string, i: nat)
    requires i + |sub| <= |s| && s[i..i + |sub|] == sub
    ensures Contains(s, sub)
    decreases i
  {
    if i > 0 {
      assert s[1..][i - 1..i - 1 + |sub|] == s[i..i + |sub|];
      ContainsAt(s[1..], sub, i - 1);
    }
  }

  /** Python `str.startswith` / JavaScript `startsWith`. */
  predicate StartsWith(s: string, prefix: string) {
    |prefix| <= |s| && s[..|prefix|] == prefix
  }

  /** A prefix of `s` is a prefix of `s` followed by anything. */
  lemma StartsWithAppend(s: string, t: string, prefix: string)
    requires StartsWith(s, prefix)
    ensures StartsWith(s + t, prefix)
  {
    assert (s + t)[..|prefix|] == s[..|prefix|];
  }

  /** Python's clamping slice `s[:n]` / JavaScript `substring(0, n)`. */
  function Take(s: string, n: nat): (r: string)
    ensures |r| == if n < |s| then n else |s|
    ensures r == s[..|r|]
  {
    if n < |s| then s[..n] else s
  }

  // ---------------------------------------------------------------------------
  // UTF-16 lengths (JavaScript strings)
  // ---------------------------------------------------------------------------

  /** The code units a character takes in UTF-16: two (a surrogate pair) above the
      Basic Multilingual Plane, one otherwise. */
  function Utf16Width(c: char): nat {
    if c as int > 0xFFFF then 2 else 1
  }

  /** JavaScript `s.length`: the number of UTF-16 code units. */
  function Utf16Length(s: string): (n: nat)
    ensures |s| <= n <= 2 * |s|
  {
    if s == [] then 0 else Utf16Width(s[0]) + Utf16Length(s[1..])
  }

  /** Every character lies in the Basic Multilingual Plane. */
  predicate InBmp(s: string) {
    forall i :: 0 <= i < |s| ==> s[i] as int <= 0xFFFF
  }

  lemma BmpTail(s: string)
    requires s != [] && InBmp(s)
    ensures InBmp(s[1..]) && Utf16Width(s[0]) == 1
  {
    forall i | 0 <= i < |s[1..]| ensures s[1..][i] as int <= 0xFFFF {
      assert s[1..][i] == s[i + 1];
    }
  }

  /** Without surrogate pairs, code units and characters coincide. */
  lemma {:induction false} BmpLength(s: string)
    requires InBmp(s)
    ensures Utf16Length(s) == |s|
  {
    if s != [] {
      BmpTail(s);
      BmpLength(s[1..]);
    }
  }

  lemma {:induction false} Utf16LengthAppend(a: string, b: string)
    ensures Utf16Length(a + b) == Utf16Length(a) + Utf16Length(b)
  {
    if a != [] {
      assert (a + b)[0] == a[0] && (a + b)[1..] == a[1..] + b;
      Utf16LengthAppend(a[1..], b);
    } else {
      assert a + b == b;
    }
  }

  /** JavaScript `substring(0, n)` cut at a character boundary: the longest prefix of
      `s` that fits in `n` code units. */
  function TakeUnits(s: string, n: nat): (r: string)
    ensures |r| <= |s| && r == s[..|r|]
    ensures Utf16Length(r) <= n
    ensures |r| < |s| ==> Utf16Length(r) + Utf16Width(s[|r|]) > n
  {
    if s == [] || Utf16Width(s[0]) > n then []
    else
      var rest := TakeUnits(s[1..], n - Utf16Width(s[0]));
      assert ([s[0]] + rest)[1..] == rest;
      [s[0]] + rest
  }

  /** A string that fits is kept whole. */
  lemma {:induction false} TakeUnitsFits(s: string, n: nat)
    requires Utf16Length(s) <= n
    ensures TakeUnits(s, n) == s
  {
    if s != [] {
      TakeUnitsFits(s[1..], n - Utf16Width(s[0]));
      assert [s[0]] + s[1..] == s;
    }
  }

  /** Without surrogate pairs, cutting at `n` code units is cutting at `n` characters. */
  lemma {:induction false} TakeUnitsBmp(s: string, n: nat)
    requires InBmp(s)
    ensures TakeUnits(s, n) == Take(s, n)
  {
    if s != [] && n > 0 {
      BmpTail(s);
      TakeUnitsBmp(s[1..], n - 1);
      TakeUnitsCons(s, n);
      TakeCons(s, n);
    }
  }

  lemma TakeUnitsCons(s: string, n: nat)
    requires s != [] && Utf16Width(s[0]) <= n
    ensures TakeUnits(s, n) == [s[0]] + TakeUnits(s[1..], n - Utf16Width(s[0]))
  {
  }

  lemma TakeCons(s: string, n: nat)
    requires s != [] && n > 0
    ensures Take(s, n) == [s[0]] + Take(s[1..], n - 1)
  {
    if n < |s| {
      assert s[..n] == [s[0]] + s[1..][..n - 1];
    } else {
      assert s == [s[0]] + s[1..];
    }
  }

  // ---------------------------------------------------------------------------
  // Decimal numerals
  // ---------------------------------------------------------------------------

  function Pow10(n: nat): (p: nat)
    ensures p >= 1
  {
    if n == 0 then 1 else 10 * Pow10(n - 1)
  }

  function DigitChar(d: int): (c: char)
    requires 0 <= d < 10
    ensures IsAsciiDigit(c)
  {
    ('0' as int + d) as char
  }

  function DigitValue(c: char): (d: int)
    requires IsAsciiDigit(c)
    ensures 0 <= d < 10
  {
    c as int - '0' as int
  }

  /** The numeral a decimal digit string denotes. */
  function DecimalValue(s: string): nat
    requires AllDigits(s)
  {
    if s == [] then 0 else DecimalValue(s[..|s| - 1]) * 10 + DigitValue(s[|s| - 1])
  }

  /** JavaScript `n.toString()` / Python `str(n)` for a non-negative integer. */
  function NatToDecimal(n: nat): (r: string)
    ensures r != [] && AllDigits(r)
    ensures DecimalValue(r) == n
    ensures n < 10 <==> |r| == 1
  {
    if n < 10 then [DigitChar(n)]
    else
      var prefix := NatToDecimal(n / 10);
      var r := prefix + [DigitChar(n % 10)];
      assert r[..|r| - 1] == prefix;
      r
  }

  /** The decimal rendering of `n` fits in `w` characters exactly when `n < 10^w`. */
  lemma {:induction false} DecimalWidth(n: nat, w: nat)
    requires w >= 1
    ensures |NatToDecimal(n)| <= w <==> n < Pow10(w)
  {
    if n >= 10 {
      if w == 1 {
        assert Pow10(1) == 10;
      } else {
        DecimalWidth(n / 10, w - 1);
      }
    } else {
      assert Pow10(w) >= 10 by { Pow10Grows(w); }
    }
  }

  lemma {:induction false} Pow10Grows(w: nat)
    requires w >= 1
    ensures Pow10(w) >= 10
  {
    if w > 1 {
      Pow10Grows(w - 1);
    }
  }

  function Zeros(k: nat): (r: string)
    ensures |r| == k && AllDigits(r)
    ensures forall i :: 0 <= i < k ==> r[i] == '0'
  {
    seq(k, i => '0')
  }

  /** Concatenating digit strings shifts the left part by the width of the right part. */
  lemma {:induction false} DecimalValueAppend(a: string, b: string)
    requires AllDigits(a) && AllDigits(b)
    ensures AllDigits(a + b)
    ensures DecimalValue(a + b) == DecimalValue(a) * Pow10(|b|) + DecimalValue(b)
    decreases |b|
  {
    if b == [] {
      assert a + b == a;
    } else {
      var b' := b[..|b| - 1];
      var ab := a + b;
      assert DecimalValue(ab) == DecimalValue(a + b') * 10 + DigitValue(b[|b| - 1]) by {
        assert ab[..|ab| - 1] == a + b';
        assert ab[|ab| - 1] == b[|b| - 1];
      }
      DecimalValueAppend(a, b');
      ShiftByDigit(DecimalValue(a), Pow10(|b'|), DecimalValue(b'), DigitValue(b[|b| - 1]),
                   DecimalValue(ab), DecimalValue(b), Pow10(|b|));
    }
  }

  /** Appending digit `d` to both `a ++ b'` and `b'` keeps the shift identity. */
  lemma ShiftByDigit(x: int, p: int, y: int, d: int, whole: int, tail: int, q: int)
    requires whole == (x * p + y) * 10 + d && tail == y * 10 + d && q == 10 * p
    ensures whole == x * q + tail
  {
  }

  lemma ZerosValue(k: nat)
    ensures DecimalValue(Zeros(k)) == 0
    decreases k
  {
    if k > 0 {
      assert Zeros(k)[..k - 1] == Zeros(k - 1);
      ZerosValue(k - 1);
    }
  }

  /** JavaScript `s.padStart(w, "0")` and Python's `{:0wd}` on a non-negative integer. */
  function PadZeros(s: string, w: nat): (r: string)
    ensures |s| >= w ==> r == s
    ensures |s| < w ==> |r| == w && r == Zeros(w - |s|) + s
  {
    if |s| >= w then s else Zeros(w - |s|) + s
  }

  /** `n` rendered in decimal and left-padded with zeros to width `w`; when `n < 10^w`
      the result is exactly `w` digits and reads back as `n`. */
  function PaddedDecimal(n: nat, w: nat): (r: string)
    requires w >= 1
    ensures AllDigits(r) && DecimalValue(r) == n
    ensures n < Pow10(w) <==> |r| == w
  {
    var s := NatToDecimal(n);
    DecimalWidth(n, w);
    if |s| >= w then s
    else
      ZerosValue(w - |s|);
      DecimalValueAppend(Zeros(w - |s|), s);
      PadZeros(s, w)
  }
}

=== FILE: upload.dfy ===
/**
 * The two document upload routes: session and file guards, the accepted content
 * types, the generated file name and URL, and the upsert that records the URL on the
 * user's onboarding record.  The clock is a parameter.
 */
module Upload {
  import opened Options
  import opened Text
  import opened Onboarding
  import Azure

  /** The uploaded form field; only its content type matters. */
  datatype File = File(contentType: string)

  /** The multipart body as `req.formData()` reads it: unreadable (the call throws), or
      the `file` field, if any. */
  datatype Form = Unreadable | Readable(file: Option<File>)

  /** The answer of the routes' `catch`, to any exception in the handler. */
  const UploadFailed := "Upload failed"

  datatype Response =
    | Failure(code: int, error: string)
    | Uploaded(url: string, fileName: string, message: string)

  /** `findOneAndUpdate(..., { upsert: true })`: the user's record, or a record with the
      schema defaults, gets the new data. */
  function Upsert(store: Store, userId: string, f: Record -> Record): (r: Store)
    ensures r.Keys == store.Keys + {userId}
    ensures forall u :: u in store && u != userId ==> r[u] == store[u]
    ensures userId in store ==> r[userId] == f(store[userId])
    ensures userId !in store ==> r[userId] == f(Fresh(userId))
  {
    var prev := if userId in store then store[userId] else Fresh(userId);
    store[userId := f(prev)]
  }

  function WithAadhaarUrl(url: string): Record -> Record {
    (rec: Record) => rec.(data := rec.data.(aadhaarUrl := Some(url)))
  }

  function WithPanUrl(url: string): Record -> Record {
    (rec: Record) => rec.(data := rec.data.(panUrl := Some(url)))
  }

  const AadhaarTypes: seq<string> := ["application/pdf", "application/xml", "text/xml"]

  /** `POST /api/upload/aadhaar`: `session` is the signed-in user's id. */
  function PostAadhaar(store: Store, session: Option<string>, form: Form, nowMs: nat): (r: (Store, Response))
    ensures r.1.Failure? ==> r.0 == store
    ensures !Truthy(session) ==> r.1 == Failure(401, "Unauthorized")
    ensures Truthy(session) && form.Unreadable? ==> r.1 == Failure(500, UploadFailed)
    ensures Truthy(session) && form.Readable? && form.file.None? ==> r.1 == Failure(400, "No file provided")
    ensures Truthy(session) && form.Readable? && form.file.Some? ==>
      (r.1.Failure? <==> form.file.value.contentType !in AadhaarTypes)
      && (r.1.Failure? ==> r.1 == Failure(400, "Invalid file type. Only PDF and XML files are accepted."))
    ensures r.1.Uploaded? ==>
      var user := session.value;
      var pdf := form.file.value.contentType == "application/pdf";
      && r.1.fileName == "aadhaar-" + user + "-" + NatToDecimal(nowMs) + "." + (if pdf then "pdf" else "xml")
      && r.1.url == "/uploads/aadhaar/" + r.1.fileName
      && StartsWith(r.1.fileName, "aadhaar-" + user + "-")
      && (Azure.Extension(r.1.fileName) == "pdf" <==> pdf)
      && (Azure.Extension(r.1.fileName) == "xml" <==> !pdf)
      && r.0 == Upsert(store, user, WithAadhaarUrl(r.1.url))
  {
    if !Truthy(session) then (store, Failure(401, "Unauthorized"))
    else if form.Unreadable? then (store, Failure(500, UploadFailed))
    else if form.file.None? then (store, Failure(400, "No file provided"))
    else if form.file.value.contentType !in AadhaarTypes then
      (store, Failure(400, "Invalid file type. Only PDF and XML files are accepted."))
    else
      var user := session.value;
      var ext := if form.file.value.contentType == "application/pdf" then "pdf" else "xml";
      var fileName := AadhaarFileName(user, nowMs, ext);
      var url := "/uploads/aadhaar/" + fileName;
      (Upsert(store, user, WithAadhaarUrl(url)), Uploaded(url, fileName, "Aadhaar uploaded successfully"))
  }

  /** The stored name of an Aadhaar upload: user and time, then the extension the
      content type chose. */
  function AadhaarFileName(user: string, nowMs: nat, ext: string): (r: string)
    requires Azure.NoDot(ext)
    ensures StartsWith(r, "aadhaar-" + user + "-")
    ensures r[|"aadhaar-" + user + "-"|..] == NatToDecimal(nowMs) + "." + ext
    ensures Azure.Extension(r) == ext
  {
    var base := "aadhaar-" + user + "-" + NatToDecimal(nowMs);
    Azure.ExtensionOfDotted(base, ext);
    assert (base + "." + ext)[..|"aadhaar-" + user + "-"|] == "aadhaar-" + user + "-";
    assert (base + "." + ext)[|"aadhaar-" + user + "-"|..] == NatToDecimal(nowMs) + "." + ext;
    base + "." + ext
  }

  /** `POST /api/upload/pan`: only PDF is accepted. */
  function PostPan(store: Store, session: Option<string>, form: Form, nowMs: nat): (r: (Store, Response))
    ensures r.1.Failure? ==> r.0 == store
    ensures !Truthy(session) ==> r.1 == Failure(401, "Unauthorized")
    ensures Truthy(session) && form.Unreadable? ==> r.1 == Failure(500, UploadFailed)
    ensures Truthy(session) && form.Readable? && form.file.None? ==> r.1 == Failure(400, "No file provided")
    ensures Truthy(session) && form.Readable? && form.file.Some? ==>
      (r.1.Failure? <==> form.file.value.contentType != "application/pdf")
      && (r.1.Failure? ==> r.1 == Failure(400, "Invalid file type. Only PDF files are accepted."))
    ensures r.1.Uploaded? ==>
      var user := session.value;
      && r.1.fileName == "pan-" + user + "-" + NatToDecimal(nowMs) + ".pdf"
      && r.1.url == "/uploads/pan/" + r.1.fileName
      && r.0 == Upsert(store, user, WithPanUrl(r.1.url))
  {
    if !Truthy(session) then (store, Failure(401, "Unauthorized"))
    else if form.Unreadable? then (store, Failure(500, UploadFailed))
    else if form.file.None? then (store, Failure(400, "No file provided"))
    else if form.file.value.contentType != "application/pdf" then
      (store, Failure(400, "Invalid file type. Only PDF files are accepted."))
    else
      var fileName := "pan-" + session.value + "-" + NatToDecimal(nowMs) + ".pdf";
      var url := "/uploads/pan/" + fileName;
      (Upsert(store, session.value, WithPanUrl(url)), Uploaded(url, fileName, "PAN uploaded successfully"))
  }

  /** An upload touches only the uploading user's record and only its document URL:
      status, step and the other collected data are kept (or the schema defaults, for a
      user without a record). */
  lemma UploadKeepsRestOfRecord(store: Store, session: Option<string>, form: Form, nowMs: nat)
    ensures var (after, reply) := PostAadhaar(store, session, form, nowMs);
      reply.Uploaded? ==>
        var before := if session.value in store then store[session.value] else Fresh(session.value);
        && after[session.value].data == before.data.(aadhaarUrl := Some(reply.url))
        && after[session.value].status == before.status && after[session.value].step == before.step
    ensures var (after, reply) := PostPan(store, session, form, nowMs);
      reply.Uploaded? ==>
        var before := if session.value in store then store[session.value] else Fresh(session.value);
        && after[session.value].data == before.data.(panUrl := Some(reply.url))
        && after[session.value].status == before.status && after[session.value].step == before.step
  {
  }

  /** A PDF is accepted by both routes; an XML file only by the Aadhaar route. */
  lemma PanTypesWithinAadhaarTypes(store: Store, session: Option<string>, nowMs: nat)
    requires Truthy(session)
    ensures PostPan(store, session, Readable(Some(File("application/pdf"))), nowMs).1.Uploaded?
    ensures PostAadhaar(store, session, Readable(Some(File("application/pdf"))), nowMs).1.Uploaded?
    ensures PostAadhaar(store, session, Readable(Some(File("text/xml"))), nowMs).1.Uploaded?
    ensures PostPan(store, session, Readable(Some(File("text/xml"))), nowMs).1.Failure?
  {
    assert "application/pdf" in AadhaarTypes && "text/xml" in AadhaarTypes;
    assert "text/xml" != "application/pdf";
  }
}

=== FILE: verhoeff.dfy ===
/**
 * The Verhoeff check digit scheme used for Aadhaar numbers: the multiplication
 * table `D` of the dihedral group D5, the position permutation table `P`, and the
 * fold over the reversed digits that accepts when it ends in 0.
 */
module Verhoeff {
  import opened Text

  type Digit = x: int | 0 <= x < 10

  /** The multiplication table `d`. */
  const D: seq<seq<Digit>> := [
    [0, 1, 2, 3, 4, 5, 6, 7, 8, 9],
    [1, 2, 3, 4, 0, 6, 7, 8, 9, 5],
    [2, 3, 4, 0, 1, 7, 8, 9, 5, 6],
    [3, 4, 0, 1, 2, 8, 9, 5, 6, 7],
    [4, 0, 1, 2, 3, 9, 5, 6, 7, 8],
    [5, 9, 8, 7, 6, 0, 4, 3, 2, 1],
    [6, 5, 9, 8, 7, 1, 0, 4, 3, 2],
    [7, 6, 5, 9, 8, 2, 1, 0, 4, 3],
    [8, 7, 6, 5, 9, 3, 2, 1, 0, 4],
    [9, 8, 7, 6, 5, 4, 3, 2, 1, 0]
  ]

  /** The permutation table `p`, indexed by position modulo 8. */
  const P: seq<seq<Digit>> := [
    [0, 1, 2, 3, 4, 5, 6, 7, 8, 9],
    [1, 5, 7, 6, 2, 8, 3, 0, 9, 4],
    [5, 8, 0, 3, 7, 9, 6, 1, 4, 2],
    [8, 9, 1, 6, 0, 4, 3, 5, 2, 7],
    [9, 4, 5, 3, 1, 2, 6, 8, 7, 0],
    [4, 2, 8, 6, 5, 7, 3, 9, 0, 1],
    [2, 7, 9, 3, 8, 0, 6, 4, 1, 5],
    [7, 0, 4, 6, 9, 1, 3, 2, 5, 8]
  ]

  /** One step of the fold: the running check `c` combined with digit `n` at position `i`. */
  function Step(c: Digit, i: nat, n: Digit): Digit {
    D[c][P[i % 8][n]]
  }

  /** The running check after consuming the digits `r` (already reversed) from the left. */
  function Checksum(r: seq<Digit>): Digit {
    if r == [] then 0 else Step(Checksum(r[..|r| - 1]), |r| - 1, r[|r| - 1])
  }

  /** The fold over one more digit is one more step. */
  lemma ChecksumPrefix(r: seq<Digit>, k: nat)
    requires k < |r|
    ensures Checksum(r[..k + 1]) == Step(Checksum(r[..k]), k, r[k])
  {
    assert r[..k + 1][..k] == r[..k];
  }

  /** The digits of a decimal string, last digit first. */
  function ReversedDigits(s: string): (r: seq<Digit>)
    requires AllDigits(s)
    ensures |r| == |s|
    ensures forall i :: 0 <= i < |s| ==> r[i] == DigitValue(s[|s| - 1 - i])
  {
    seq(|s|, i requires 0 <= i < |s| => DigitValue(s[|s| - 1 - i]))
  }

  /** The Verhoeff acceptance condition on a string of decimal digits. */
  predicate Valid(s: string)
    requires AllDigits(s)
  {
    Checksum(ReversedDigits(s)) == 0
  }

  /** `_verhoeff`: reverse the number, fold `c := d[c][p[i % 8][digit]]`, accept iff `c == 0`. */
  method Check(num: string) returns (ok: bool)
    requires AllDigits(num)
    ensures ok <==> Valid(num)
  {
    var rev := ReversedDigits(num);
    var c: Digit := 0;
    var i := 0;
    while i < |rev|
      invariant 0 <= i <= |rev|
      invariant c == Checksum(rev[..i])
    {
      ChecksumPrefix(rev, i);
      c := D[c][P[i % 8][rev[i]]];
      i := i + 1;
    }
    assert rev[..|rev|] == rev;
    ok := c == 0;
  }

  // ---------------------------------------------------------------------------
  // Table facts
  // ---------------------------------------------------------------------------

  /** Column `k` of the multiplication table. */
  function Column(k: Digit): (col: seq<Digit>)
    ensures |col| == 10 && forall a: Digit :: col[a] == D[a][k]
  {
    seq(10, (a: int) requires 0 <= a < 10 => D[a][k])
  }

  /** A row of ten digits that holds every digit exactly once. */
  predicate IsPermutation(row: seq<Digit>) {
    && |row| == 10
    && (forall v: Digit :: v in row)
    && (forall a, b :: 0 <= a < b < |row| ==> row[a] != row[b])
  }

  lemma IsDigit(x: Digit)
    ensures x == 0 || x == 1 || x == 2 || x == 3 || x == 4 || x == 5 || x == 6 || x == 7 || x == 8 || x == 9
  {
  }

  lemma DEntryDistinctInRow(j: Digit, a: Digit, b: Digit)
    requires a != b
    ensures D[j][a] != D[j][b]
  {
    IsDigit(j); IsDigit(a); IsDigit(b);
  }

  lemma DEntryDistinctInColumn(a: Digit, b: Digit, k: Digit)
    requires a != b
    ensures D[a][k] != D[b][k]
  {
    IsDigit(a); IsDigit(b); IsDigit(k);
  }

  lemma PEntryDistinctInRow(j: nat, a: Digit, b: Digit)
    requires j < 8 && a != b
    ensures P[j][a] != P[j][b]
  {
    IsDigit(a); IsDigit(b);
    assert j == 0 || j == 1 || j == 2 || j == 3 || j == 4 || j == 5 || j == 6 || j == 7;
  }

  lemma DRowCovers(j: Digit, v: Digit)
    ensures v in D[j]
  {
    IsDigit(j); IsDigit(v);
  }

  lemma DColumnCovers(k: Digit, v: Digit)
    ensures exists a: Digit :: D[a][k] == v
  {
    IsDigit(k); IsDigit(v);
    if D[0][k] == v { assert D[0][k] == v; }
    else if D[1][k] == v { assert D[1][k] == v; }
    else if D[2][k] == v { assert D[2][k] == v; }
    else if D[3][k] == v { assert D[3][k] == v; }
    else if D[4][k] == v { assert D[4][k] == v; }
    else if D[5][k] == v { assert D[5][k] == v; }
    else if D[6][k] == v { assert D[6][k] == v; }
    else if D[7][k] == v { assert D[7][k] == v; }
    else if D[8][k] == v { assert D[8][k] == v; }
    else { assert D[9][k] == v; }
  }

  lemma PRowCovers(j: nat, v: Digit)
    requires j < 8
    ensures v in P[j]
  {
    IsDigit(v);
    assert j == 0 || j == 1 || j == 2 || j == 3 || j == 4 || j == 5 || j == 6 || j == 7;
  }

  /** Every row of `d` and of `p`, and every column of `d`, is a permutation of 0..9. */
  lemma TablesArePermutations()
    ensures forall j: Digit :: IsPermutation(D[j])
    ensures forall k: Digit :: IsPermutation(Column(k))
    ensures forall j :: 0 <= j < 8 ==> IsPermutation(P[j])
  {
    forall j: Digit ensures IsPermutation(D[j]) {
      forall v: Digit ensures v in D[j] { DRowCovers(j, v); }
      forall a, b | 0 <= a < b < 10 ensures D[j][a] != D[j][b] { DEntryDistinctInRow(j, a, b); }
    }
    forall k: Digit ensures IsPermutation(Column(k)) {
      var col := Column(k);
      forall v: Digit ensures v in col {
        DColumnCovers(k, v);
        var a: Digit :| D[a][k] == v;
        assert col[a] == v;
      }
      forall a, b | 0 <= a < b < 10 ensures col[a] != col[b] { DEntryDistinctInColumn(a, b, k); }
    }
    forall j | 0 <= j < 8 ensures IsPermutation(P[j]) {
      forall v: Digit ensures v in P[j] { PRowCovers(j, v); }
      forall a, b | 0 <= a < b < 10 ensures P[j][a] != P[j][b] { PEntryDistinctInRow(j, a, b); }
    }
  }

  // ---------------------------------------------------------------------------
  // Single-substitution detection
  // ---------------------------------------------------------------------------

  /** Two digit sequences that agree except at position `j` have different running
      checks on every prefix that includes position `j`. */
  lemma {:induction false} ChecksumsDiverge(r: seq<Digit>, q: seq<Digit>, j: nat, m: nat)
    requires |r| == |q| && j < m <= |r|
    requires r[j] != q[j]
    requires forall i :: 0 <= i < |r| && i != j ==> r[i] == q[i]
    ensures Checksum(r[..m]) != Checksum(q[..m])
    decreases m
  {
    var rm, qm := Checksum(r[..m]), Checksum(q[..m]);
    assert rm == Step(Checksum(r[..m - 1]), m - 1, r[m - 1]) by {
      assert r[..m][..m - 1] == r[..m - 1];
    }
    assert qm == Step(Checksum(q[..m - 1]), m - 1, q[m - 1]) by {
      assert q[..m][..m - 1] == q[..m - 1];
    }
    if m == j + 1 {
      assert r[..j] == q[..j];
      StepSeparatesDigits(Checksum(r[..j]), j, r[j], q[j]);
    } else {
      ChecksumsDiverge(r, q, j, m - 1);
      StepSeparatesChecks(Checksum(r[..m - 1]), Checksum(q[..m - 1]), m - 1, r[m - 1]);
    }
  }

  /** One step maps different digits to different checks. */
  lemma StepSeparatesDigits(c: Digit, i: nat, a: Digit, b: Digit)
    requires a != b
    ensures Step(c, i, a) != Step(c, i, b)
  {
    PEntryDistinctInRow(i % 8, a, b);
    DEntryDistinctInRow(c, P[i % 8][a], P[i % 8][b]);
  }

  /** One step maps different running checks to different checks. */
  lemma StepSeparatesChecks(c1: Digit, c2: Digit, i: nat, n: Digit)
    requires c1 != c2
    ensures Step(c1, i, n) != Step(c2, i, n)
  {
    DEntryDistinctInColumn(c1, c2, P[i % 8][n]);
  }

  /** Changing exactly one digit of a number the check accepts yields a number it rejects. */
  lemma SingleSubstitutionDetected(s: string, t: string, k: nat)
    requires AllDigits(s) && AllDigits(t) && |s| == |t| && k < |s|
    requires s[k] != t[k]
    requires forall i :: 0 <= i < |s| && i != k ==> s[i] == t[i]
    requires Valid(s)
    ensures !Valid(t)
  {
    var r, q := ReversedDigits(s), ReversedDigits(t);
    var j := |s| - 1 - k;
    forall i | 0 <= i < |r| && i != j ensures r[i] == q[i] {
      assert s[|s| - 1 - i] == t[|s| - 1 - i];
    }
    ChecksumsDiverge(r, q, j, |r|);
    assert r[..|r|] == r && q[..|q|] == q;
  }
}

=== FILE: wizard.dfy ===
/**
 * The client-side account-creation wizard: a fixed table of six steps, a form
 * kept in browser storage whose `progressIndex` says which step is next, and the
 * `sendMessage` handler that stores an answer (or uploads a file), advances the
 * index by one and, after the last step, submits the form.  Storage, the upload
 * request and the final submission are parameters; the messages the handler
 * appends to the conversation are its output.
 */
module Wizard {
  import opened Options

  datatype StepDef = StepDef(key: string, prompt: string, isFile: bool)

  const Steps: seq<StepDef> := [
    StepDef("name", "Please enter your name:", false),
    StepDef("phone", "Enter your phone number:", false),
    StepDef("email", "Enter your email:", false),
    StepDef("address", "Enter your address:", false),
    StepDef("aadharUrl", "Please upload your Aadhaar:", true),
    StepDef("panUrl", "Please upload your PAN card:", true)
  ]

  /** The stored form: the answers by step key and the index of the next step. */
  datatype Form = Form(progressIndex: nat, fields: map<string, string>)

  /** `getForm`: the stored form, or a form at step 0 when nothing is stored. */
  function GetForm(stored: Option<Form>): (f: Form)
    ensures stored.None? ==> f.progressIndex == 0 && f.fields == map[]
    ensures stored.Some? ==> f == stored.value
  {
    stored.GetOr(Form(0, map[]))
  }

  datatype Role = User | Bot

  datatype Line = Line(role: Role, text: string)

  /** What the user sent: typed text and, for an upload, the chosen file's name. */
  datatype Input = Input(message: string, file: Option<string>)

  /** The page state that survives between messages. */
  datatype Page = Page(stored: Option<Form>, readonly: bool, chatId: Option<string>)

  /** The outcome of the final submission: the account number the server returned
      (possibly none), or a failed request. */
  datatype Submission = Submitted(accountNumber: Option<string>) | SubmitFailed

  /** The replies of the outside world to one message: the uploaded file's URL (None
      when the upload failed or returned no URL) and the final submission. */
  datatype World = World(uploadUrl: Option<string>, submission: Submission)

  /** The handler's result: the new page state and the conversation lines it appended,
      or a crash (reading a step past the end of the table) after the user's line. */
  datatype Outcome = Done(page: Page, lines: seq<Line>) | Crashed(lines: seq<Line>)

  const UploadFailed := "\U{26A0}\U{FE0F} File upload failed. Please try again."
  const Processing := "Processing your information... \U{23F3}"
  const NoAccountNumber := "\U{26A0}\U{FE0F} Account creation returned no account number."
  const ServerError := "\U{26A0}\U{FE0F} Server error during account creation. Please try again later."

  function UserText(input: Input): string {
    match input.file
    case Some(name) => "\U{1F4CE} " + name + " Submitted"
    case None => input.message
  }

  function Created(accountNumber: string): string {
    "\U{1F389} Account created successfully. Account Number: " + accountNumber
  }

  /** `finishAndSubmitToServer`: nothing without a chat id; on a successful request the
      stored form is cleared and the page becomes read-only; on a failed one the form
      stays and the page stays writable. */
  function Finish(page: Page, submission: Submission): (r: (Page, seq<Line>))
    ensures r.0.chatId == page.chatId
    ensures r.0.readonly <==> page.readonly || (page.chatId.Some? && submission.Submitted?)
    ensures page.chatId.None? ==> r == (page, [])
    ensures page.chatId.Some? && submission.Submitted? ==> r.0.stored.None?
    ensures page.chatId.Some? && submission.SubmitFailed? ==>
      r.0 == page && r.1 == [Line(Bot, ServerError)]
  {
    if page.chatId.None? then (page, [])
    else match submission
      case SubmitFailed => (page, [Line(Bot, ServerError)])
      case Submitted(n) =>
        var text := if n.Some? && n.value != "" then Created(n.value) else NoAccountNumber;
        (page.(stored := None, readonly := true), [Line(Bot, text)])
  }

  /** The message answers the current step: the page is writable, a step remains, and
      a file step got a file whose upload returned a URL. */
  predicate Answered(page: Page, input: Input, world: World) {
    var i := GetForm(page.stored).progressIndex;
    && !page.readonly && i < |Steps|
    && (Steps[i].isFile ==> input.file.Some? && world.uploadUrl.Some? && world.uploadUrl.value != "")
  }

  /** The page with the current step's answer recorded and the index moved on: the
      uploaded URL for a file step, the typed text otherwise. */
  function Recorded(page: Page, input: Input, world: World): (p: Page)
    requires Answered(page, input, world)
    ensures p.readonly == page.readonly && p.chatId == page.chatId && p.stored.Some?
    ensures p.stored.value.progressIndex == GetForm(page.stored).progressIndex + 1
  {
    var form := GetForm(page.stored);
    var step := Steps[form.progressIndex];
    var answer := if step.isFile then world.uploadUrl.value else input.message;
    page.(stored := Some(Form(form.progressIndex + 1, form.fields[step.key := answer])))
  }

  /** The progress lines of a successful upload; none for a typed answer. */
  function UploadLines(isFile: bool, input: Input): seq<Line>
    requires isFile ==> input.file.Some?
  {
    if isFile then [Line(Bot, "Uploading " + input.file.value + "..."), Line(Bot, "Uploaded " + input.file.value)]
    else []
  }

  /** `sendMessage` (chat creation before the first message is left to the caller). */
  function SendMessage(page: Page, input: Input, world: World): (r: Outcome)
    ensures page.readonly ==> r == Done(page, [])
    ensures !page.readonly ==> |r.lines| >= 1 && r.lines[0] == Line(User, UserText(input))
    ensures r.Crashed? <==> !page.readonly && GetForm(page.stored).progressIndex >= |Steps|
    ensures !page.readonly && GetForm(page.stored).progressIndex < |Steps| && !Answered(page, input, world) ==>
      r.Done? && r.page == page
    ensures Answered(page, input, world) && GetForm(page.stored).progressIndex + 1 < |Steps| ==>
      var i := GetForm(page.stored).progressIndex;
      && r.Done? && r.page == Recorded(page, input, world)
      && r.lines == [Line(User, UserText(input))] + UploadLines(Steps[i].isFile, input)
                    + [Line(Bot, Steps[i + 1].prompt)]
    ensures Answered(page, input, world) && GetForm(page.stored).progressIndex + 1 == |Steps| ==>
      var i := GetForm(page.stored).progressIndex;
      var finished := Finish(Recorded(page, input, world), world.submission);
      && r.Done? && r.page == finished.0
      && r.lines == [Line(User, UserText(input))] + UploadLines(Steps[i].isFile, input)
                    + [Line(Bot, Processing)] + finished.1
  {
    if page.readonly then Done(page, [])
    else
      var form := GetForm(page.stored);
      var user := Line(User, UserText(input));
      if form.progressIndex >= |Steps| then Crashed([user])
      else
        var step := Steps[form.progressIndex];
        if step.isFile && input.file.None? then
          Done(page, [user, Line(Bot, step.prompt)])
        else if step.isFile && (world.uploadUrl.None? || world.uploadUrl.value == "") then
          Done(page, [user, Line(Bot, "Uploading " + input.file.value + "..."), Line(Bot, UploadFailed)])
        else
          var saved := Recorded(page, input, world);
          var next := saved.stored.value.progressIndex;
          if next < |Steps| then
            Done(saved, [user] + UploadLines(step.isFile, input) + [Line(Bot, Steps[next].prompt)])
          else
            var (finished, finishLines) := Finish(saved, world.submission);
            Done(finished, [user] + UploadLines(step.isFile, input) + [Line(Bot, Processing)] + finishLines)
  }

  // ---------------------------------------------------------------------------
  // Properties
  // ---------------------------------------------------------------------------

  /** The keys of the first `n` steps. */
  function KeysBefore(n: nat): set<string>
    requires n <= |Steps|
  {
    set i | 0 <= i < n :: Steps[i].key
  }

  /** A stored form whose answers are exactly those of the steps before its index. */
  predicate WellFormed(f: Form) {
    f.progressIndex <= |Steps| && f.fields.Keys == KeysBefore(f.progressIndex)
  }

  /** When nothing is stored the wizard starts at the first step with no answers. */
  lemma FreshFormWellFormed()
    ensures WellFormed(GetForm(None)) && GetForm(None).progressIndex == 0
  {
    assert KeysBefore(0) == {};
  }

  /** Each message either leaves the form as it was or records the current step's answer
      and moves to the next step: the index grows by exactly one and the stored form stays
      well formed. */
  lemma SendMessageKeepsFormWellFormed(page: Page, input: Input, world: World)
    requires page.stored.Some? ==> WellFormed(page.stored.value)
    requires SendMessage(page, input, world).Done?
    ensures var p := SendMessage(page, input, world).page;
      p.stored.Some? ==> WellFormed(p.stored.value)
    ensures var p := SendMessage(page, input, world).page;
      var before := GetForm(page.stored).progressIndex;
      p.stored.Some? ==> p.stored == page.stored || p.stored.value.progressIndex == before + 1
  {
    var form := GetForm(page.stored);
    if !page.readonly && form.progressIndex < |Steps| {
      var i := form.progressIndex;
      assert KeysBefore(i + 1) == KeysBefore(i) + {Steps[i].key} by {
        forall k | k in KeysBefore(i + 1) ensures k in KeysBefore(i) + {Steps[i].key} {
          var j :| 0 <= j < i + 1 && Steps[j].key == k;
          if j < i { assert k in KeysBefore(i); }
        }
      }
      if page.stored.None? { FreshFormWellFormed(); }
    }
  }

  /** At a file step, a message without a file repeats the step's prompt and a failed
      upload reports the failure; neither touches the form. */
  lemma FileStepNeedsUpload(page: Page, input: Input, world: World)
    requires !page.readonly
    requires GetForm(page.stored).progressIndex < |Steps|
    requires Steps[GetForm(page.stored).progressIndex].isFile
    ensures input.file.None? ==>
      SendMessage(page, input, world) ==
        Done(page, [Line(User, input.message), Line(Bot, Steps[GetForm(page.stored).progressIndex].prompt)])
    ensures input.file.Some? && (world.uploadUrl.None? || world.uploadUrl == Some("")) ==>
      SendMessage(page, input, world).page == page &&
      SendMessage(page, input, world).lines[|SendMessage(page, input, world).lines| - 1] == Line(Bot, UploadFailed)
  {
  }

  /** A text step stores the message exactly as typed, with no validation, and a file
      sent at a text step stores the empty message. */
  lemma TextStepStoresRawMessage(page: Page, input: Input, world: World)
    requires !page.readonly
    requires GetForm(page.stored).progressIndex < |Steps|
    requires !Steps[GetForm(page.stored).progressIndex].isFile
    ensures var r := SendMessage(page, input, world);
      var i := GetForm(page.stored).progressIndex;
      r.Done? && r.page.stored.Some? ==>
      r.page.stored.value.fields[Steps[i].key] == input.message
    ensures var r := SendMessage(page, input, world);
      var i := GetForm(page.stored).progressIndex;
      i + 1 < |Steps| ==> r.Done? && r.page.stored == Some(Form(i + 1, GetForm(page.stored).fields[Steps[i].key := input.message]))
  {
  }

  /** The page becomes read-only only through a successful final submission. */
  lemma ReadonlyOnlyOnSubmit(page: Page, input: Input, world: World)
    requires !page.readonly
    requires SendMessage(page, input, world).Done?
    ensures SendMessage(page, input, world).page.readonly <==>
      && GetForm(page.stored).progressIndex == |Steps| - 1
      && (Steps[|Steps| - 1].isFile ==> input.file.Some? && world.uploadUrl.Some? && world.uploadUrl.value != "")
      && page.chatId.Some? && world.submission.Submitted?
  {
  }

  /** After a failed final submission the form stays stored at index 6, so every later
      message crashes on the missing seventh step: the wizard cannot be completed. */
  lemma FailedSubmitIsStuck(page: Page, input: Input, world: World, later: Input, world2: World)
    requires !page.readonly && page.chatId.Some?
    requires GetForm(page.stored).progressIndex == |Steps| - 1
    requires input.file.Some? && world.uploadUrl.Some? && world.uploadUrl.value != ""
    requires world.submission.SubmitFailed?
    ensures SendMessage(page, input, world).Done?
    ensures SendMessage(SendMessage(page, input, world).page, later, world2).Crashed?
  {
  }
}

=== FILE: worker_mcp.dfy ===
/**
 * The account-creation worker: the random twelve-digit account number, the fallback
 * result when the language model's reply is not JSON, and the mock account service.
 * The random draw, the clock, the model's reply and its JSON parser are parameters.
 */
module WorkerMcp {
  import opened Options
  import opened Text

  const AccountNumberWidth := 12
  const AccountNumberRange: nat := 1000000000000

  /** `Math.floor(random * 10^12)` with `random` in [0, 1), in real arithmetic. */
  function RandomPart(random: real): (n: nat)
    requires 0.0 <= random < 1.0
    ensures n < AccountNumberRange
    ensures n as real <= random * AccountNumberRange as real < (n + 1) as real
  {
    var x := random * AccountNumberRange as real;
    assert 0.0 <= x < AccountNumberRange as real;
    x.Floor
  }

  /** `generateRandomAccountNumber`: the random part in decimal, left-padded with zeros
      to twelve characters. */
  function RandomAccountNumber(random: real): (s: string)
    requires 0.0 <= random < 1.0
    ensures |s| == AccountNumberWidth && AllDigits(s)
    ensures DecimalValue(s) == RandomPart(random)
  {
    assert Pow10(12) == AccountNumberRange;
    PaddedDecimal(RandomPart(random), AccountNumberWidth)
  }

  /** Every twelve-digit number can come out: the draw `n / 10^12` yields exactly the
      zero-padded `n`. */
  lemma EveryNumberReachable(n: nat)
    requires n < AccountNumberRange
    ensures var random := n as real / AccountNumberRange as real;
      0.0 <= random < 1.0 && RandomPart(random) == n
  {
    var random := n as real / AccountNumberRange as real;
    assert random * AccountNumberRange as real == n as real;
  }

  /** Two draws give the same account number exactly when they fall in the same
      1/10^12-wide slot. */
  lemma SameNumberSameSlot(r1: real, r2: real)
    requires 0.0 <= r1 < 1.0 && 0.0 <= r2 < 1.0
    ensures RandomAccountNumber(r1) == RandomAccountNumber(r2) <==> RandomPart(r1) == RandomPart(r2)
  {
    if RandomPart(r1) == RandomPart(r2) {
      assert RandomAccountNumber(r1) == PaddedDecimal(RandomPart(r2), AccountNumberWidth);
    }
  }

  /** The worker's result: whatever the model's reply parsed to, or the locally built
      confirmation. */
  datatype WorkerResult<J> =
    | Parsed(value: J)
    | Fallback(status: string, accountNumber: string, timestamp: string)

  /** `processWorkerMCP` after the model has replied: `parse` is `JSON.parse` (None when
      it throws), `random` the draw made before the call, `nowIso` the time of the
      fallback. */
  function ProcessWorkerMcp<J>(reply: string, parse: string -> Option<J>, random: real, nowIso: string): (r: WorkerResult<J>)
    requires 0.0 <= random < 1.0
    ensures parse(reply).Some? ==> r == Parsed(parse(reply).value)
    ensures parse(reply).None? ==> r.Fallback? && r.status == "CREATED" && r.timestamp == nowIso
    ensures r.Fallback? ==>
      (|r.accountNumber| == 12 && AllDigits(r.accountNumber) && DecimalValue(r.accountNumber) == RandomPart(random))
  {
    match parse(reply)
    case Some(v) => Parsed(v)
    case None => Fallback("CREATED", RandomAccountNumber(random), nowIso)
  }

  datatype MockReply = MockReply(status: string, accountNumber: string, userId: string, timestamp: string)

  /** `mockCreateAccount`: always CREATED, echoing the user id, with a fresh number. */
  function MockCreateAccount(userId: string, random: real, nowIso: string): (r: MockReply)
    requires 0.0 <= random < 1.0
    ensures r.status == "CREATED" && r.userId == userId && r.timestamp == nowIso
    ensures |r.accountNumber| == 12 && AllDigits(r.accountNumber) && DecimalValue(r.accountNumber) == RandomPart(random)
  {
    MockReply("CREATED", RandomAccountNumber(random), userId, nowIso)
  }
}
